=== FILE: README.md ===
# event-inspector, modelled in Dafny

A model of the live event path of event-inspector. That path covers six pieces:

- **Tracker script.** A browser script turns page views and `dataLayer` pushes into payloads stamped with a write key.
- **Ingestion endpoint.** It authenticates the write key against a fixed project table, shapes a canonical event, and hands it to an emitter.
- **Stream endpoint.** Each viewer's server-sent-event stream gets a connected notice, the events that pass its session and project filters, and heartbeats. It is cleaned up once when the request aborts after the stream started. When the request's signal had already fired before the abort listener was added, cleanup never runs; that case is recorded under Findings.
- **Viewer.** The live feed parses those messages, keeps a bounded newest-first list, and reconnects after errors.
- **Bus variants.** The model also covers the in-process channel registry and the Redis-backed queue that the repository offers as its two bus variants.
- **Helpers.** Small helpers from the dashboard are included: project slugs and domains, sidebar highlighting, the preview address, and install endpoint resolution.

Every operation is a pure function over immutable values, or a method with a loop. Its contract states what the code promises. Lemmas relate operations to each other: filters and their inverses, round trips between writer and reader, invariants of the state machines.

| file | module | models |
|---|---|---|
| optional.dfy | Optional | `undefined` / absent values, and results that can fail |
| text.dfy | Text | `trim`, `toLowerCase`, prefix tests, decimal and hexadecimal digits |
| json.dfy | Json | JSON values with ordered members, JavaScript truthiness, `v[k]`, `obj[k] = v`, own entries, `String(v)`, `JSON.stringify` |
| bus.dfy | ChannelBus | app/lib/live/bus.ts |
| directory.dfy | Directory | app/lib/projects/mock.ts |
| ingest.dfy | Ingest | app/api/ingest/route.ts |
| eventstream.dfy | EventStream | the reading side of the event-stream format (section 9.2 of the WHATWG HTML Living Standard) |
| stream.dfy | StreamRoute | app/api/stream/route.ts |
| hub.dfy | Hub | the process-wide emitter both routes use, with ingestion and streams wired together |
| durable_bus.dfy | DurableBus | app/lib/live/redis-bus.ts, with Redis as a store of expiring keys and lists |
| live_feed.dfy | LiveFeed | message parsing, the feed list, expansion and badges in app/components/live/live-feed.tsx |
| reconnect.dfy | Reconnect | the connect / error / reconnect / cleanup logic of app/components/live/live-feed.tsx |
| tracker.dfy | Tracker | public/ei.js |
| project_form.dfy | ProjectForm | app/components/projects/create-project-form.tsx |
| sidebar.dfy | Sidebar | app/components/app-shell/sidebar.tsx |
| preview.dfy | Preview | app/components/live/live-preview-panel.tsx |
| install.dfy | Install | app/components/projects/install-snippet.tsx and project-install-panel.tsx |

### What the code does and does not do

- **No validation.** The ingestion route checks only the write key. It sets no `status` on an event. A missing `name` or `url` is not rejected: it falls back to `"unknown"` or `""`, and the request is accepted.
- **Routing.** Channels keyed by project and environment exist only in app/lib/live/bus.ts. Both routes instead use one `bus` object's `emit`/`on`/`off` with the single topic `"event"`. The stream filters by project id and session only, and environments play no part. The `bus` object the routes import exports only `publish`/`subscribe`; that mismatch is recorded under Findings. The routes are modelled against a single-topic emitter (Hub), and the channel registry is modelled separately.
- **Missing parameters.** The stream route accepts a request without any query parameters and applies no filter.
- **Demo write key.** The only demo key in the project table is `wr_demo_live_demo123demo456`.
- **No session attachment in the tracker.** The tracker attaches no session parameter of its own. Its page view carries only `{source: "ei.js"}`.
- **No polling loop.** The Redis variant only provides `publishEvent`/`pollEvents`. No route polls it.

## Model

| member | source | states |
|---|---|---|
| ChannelBus.KeyInjective | app/lib/live/bus.ts:15-17 | two (project, environment) pairs whose project ids have no ':' share a channel key only if they are equal |
| ChannelBus.KeyCollision | app/lib/live/bus.ts:15-17 | without that restriction "a:b"/"c" and "a"/"b:c" share one channel |
| ChannelBus.ColonPosition | app/lib/live/bus.ts:15-17 | the key's first ':' sits right after a colon-free project id, so the key splits back into its parts |
| ChannelBus.Key | app/lib/live/bus.ts:15-17 | the channel key `projectId:envId`; it has no contract of its own, and its meaning is stated by `ColonPosition` (the key splits back at its first ':') and `KeyInjective` (distinct colon-free pairs get distinct keys) |
| ChannelBus.Publish | app/lib/live/bus.ts:22-33 | each subscriber of the channel is called exactly once with the event, in subscription order, and a throwing subscriber neither stops the loop nor reaches the publisher; a missing or empty channel calls nobody; the registry is only read |
| ChannelBus.Subscribe | app/lib/live/bus.ts:35-43 | the channel appears if it was absent, the handler is in it, every other channel is unchanged, a second subscription of the same handler leaves the registry as it was, and no empty channel is stored |
| ChannelBus.RunUnsubscribe | app/lib/live/bus.ts:44-49 | the closure removes exactly its handler from its channel, deletes the channel when it becomes empty, does nothing when the channel is gone, and leaves every other channel unchanged |
| ChannelBus.Remove | app/lib/live/bus.ts:47 | `Set.delete`: the element is gone and every other element stays; an absent element leaves the list as it is; in a duplicate-free list the element is cut out at its index, so the others keep their order, and distinctness is kept |
| ChannelBus.RemoveAbsent | app/lib/live/bus.ts:47 | deleting a handler the set does not hold changes nothing |
| ChannelBus.RemoveLast | app/lib/live/bus.ts:47 | deleting a handler after appending it equals deleting it from the set before the append |
| ChannelBus.UnsubscribeIdempotent | app/lib/live/bus.ts:45-48 | running the same closure twice equals running it once |
| ChannelBus.SubscribeThenUnsubscribe | app/lib/live/bus.ts:35-49 | subscribing a new handler and running its closure restores the registry exactly, including removing a channel that was created lazily |
| ChannelBus.StaleUnsubscribeRemovesResubscription | app/lib/live/bus.ts:44-49 | an old closure also removes a later re-subscription of the same handler to the same channel |
| ChannelBus.PublishAfterUnsubscribe | app/lib/live/bus.ts:22-49 | after its closure ran, a handler receives nothing from that channel |
| Directory.GetProjectById | app/lib/projects/mock.ts:29-31 | the first project with that id, or none exactly when no project has it |
| Directory.GetProjectByWriteKey | app/lib/projects/mock.ts:34-36 | the first project with that write key, or none exactly when no project has it |
| Directory.ValidIffFound | app/lib/projects/mock.ts:34-41 | `isValidWriteKey` holds exactly when the lookup finds a project |
| Directory.IsValidWriteKey | app/lib/projects/mock.ts:39-41 | `projects.some`: some listed project has that write key; `ValidIffFound` states that this holds exactly when `getProjectByWriteKey` finds a project |
| Directory.ProjectsWellFormed | app/lib/projects/mock.ts:11-26 | the table's ids are pairwise distinct, and so are its write keys |
| Directory.LookupsUnambiguous | app/lib/projects/mock.ts:11-36 | every listed project is what both lookups return for its own id and its own write key |
| Directory.DemoKeyResolves | app/lib/projects/mock.ts:11-36 | the demo key resolves to project "demo"; "bogus" resolves to nothing |
| Ingest.Options | app/api/ingest/route.ts:6-15 | pre-flight answers 204 with no body and the CORS headers (any origin, POST and OPTIONS, Content-Type) |
| Ingest.Received | app/api/ingest/route.ts:50 | the echoed key is its first 12 characters followed by "..." |
| Ingest.ResolveKey | app/api/ingest/route.ts:32 | a key resolves exactly when it is a string listed in the table, to that table entry |
| Ingest.Post | app/api/ingest/route.ts:17-90 | every answer carries the CORS headers; an unparseable or null body, or a truthy non-string unknown key, gives 500; a falsy key gives 400 "Missing writeKey"; an unknown string key gives 401 with hint and truncated key; a listed key gives 200 `{success, eventId}`; exactly the 200 answers emit one event, stamped with the matched project |
| Ingest.EventToJson | app/api/ingest/route.ts:57-68 | the emitted object exposes the event's id, projectId, name, url, timestamp and params under their own names |
| Ingest.EventShaping | app/api/ingest/route.ts:57-68 | id is truthy `params.event_id`, else "evt_" and the clock; timestamp is truthy `params.timestamp`, else the ISO time; name and url fall back to "unknown" and "" and are never rejected; params keep every inbound key, with `ei_session` always present as the inbound truthy value or null |
| Ingest.ParamsKeepOrder | app/api/ingest/route.ts:63-67 | the event's params keep the inbound members in order, with `ei_session` overwritten in place or appended |
| Ingest.ShapeEvent | app/api/ingest/route.ts:57-68 | the event built for an authenticated request; `EventShaping` states the fallback of each field and `AcceptedKey` that it is what a 200 answer emits |
| Ingest.ShapeParams | app/api/ingest/route.ts:63-67 | the spread of `params` with `ei_session` set; `ParamsKeepOrder` states the order and the overwrite |
| Ingest.EventFields | app/api/ingest/route.ts:57-68 | each of the event's six fields reads back under its own name |
| Ingest.AcceptedKey | app/api/ingest/route.ts:32-82 | any body whose write key is listed gets 200 and emits the shaped event for that key's project |
| Ingest.DemoAccepted | app/api/ingest/route.ts:57-82 | a page view with the demo key is accepted for "demo" with name, url and `ei_session: null` |
| Ingest.BogusRejected | app/api/ingest/route.ts:34-53 | the key "bogus" is answered 401, nothing is emitted, and "bogus..." is echoed |
| Ingest.EmitMissing | app/api/ingest/route.ts:76-89 | against an object without `emit`, an outcome that would emit becomes the 500 answer with nothing emitted; every earlier answer stands |
| Ingest.PostAgainstDirectBus | app/api/ingest/route.ts:77-89 | as written against the exported `bus`: no request ever emits or gets 200; every request the handler would accept gets 500 |
| Ingest.DirectBusRejectsValidKey | app/api/ingest/route.ts:77-89 | the valid demo key is answered 500 as written, and 200 with one emitted event by the intended handler |
| StreamRoute.Nullable | app/api/stream/route.ts:31-38 | an absent query parameter becomes null in the connected notice; a present one becomes its string |
| StreamRoute.ConnectedMessage | app/api/stream/route.ts:31-36 | the connected notice; `LiveFeed.ConnectedRoundTrip` states that the viewer parses it back with the same timestamp, session and project |
| StreamRoute.EventMessage | app/api/stream/route.ts:54-57 | `{type: "event", evt}`; `LiveFeed.EventRoundTrip` states that the viewer parses it back as `evt` exactly when the event's fields are strings |
| StreamRoute.EventFrame | app/api/stream/route.ts:54-60 | the frame of an event message, a single data line by `JsonFrame`; `Handle` states when it is written and `EventStream.DataFrameParses` that a browser reads back exactly the message |
| StreamRoute.Open | app/api/stream/route.ts:28-103 | GET answers with the event-stream headers, and the stream's first frame is `data:` followed by the connected notice; the handler is registered and the heartbeat is running; the abort listener is armed exactly when the request's signal had not yet fired |
| StreamRoute.OpenAgainstDirectBus | app/api/stream/route.ts:69 | as written against the exported `bus`, which has no `on`: GET produces no stream |
| StreamRoute.DirectBusStreamFails | app/api/stream/route.ts:31-69 | as written no stream is opened, while the intended GET delivers the connected notice as its first message |
| StreamRoute.JsonFrame | app/api/stream/route.ts:54-60 | a JSON payload becomes one data frame whose single line is the payload's serialization |
| StreamRoute.EventSession | app/api/stream/route.ts:46-47 | the event's session is `params.ei_session` exactly when that is a string |
| StreamRoute.Handle | app/api/stream/route.ts:40-66 | an accepted payload adds exactly one `{type:"event", evt}` frame while the stream is writable; otherwise, including a failed enqueue, nothing changes |
| StreamRoute.Tick | app/api/stream/route.ts:72-78 | a running heartbeat adds ": heartbeat"; a failed enqueue clears the interval instead of propagating |
| StreamRoute.Cancel | app/api/stream/route.ts:59-65 | a consumer cancel makes later enqueues fail and changes nothing else |
| StreamRoute.Abort | app/api/stream/route.ts:80-92 | the first abort removes the handler, clears the heartbeat and closes the stream; later aborts do nothing, and so does an abort whose listener was never armed |
| StreamRoute.StreamShape | app/api/stream/route.ts:28-93 | for a guarded start, aborted beforehand or not, and whatever is delivered, ticks or aborts: the connected frame comes first, then only heartbeats and frames of accepted payloads, all on one line each; a browser reading it gets one message per data frame, in order, the connected notice first |
| StreamRoute.NothingAfterAbort | app/api/stream/route.ts:80-92 | after cleanup no delivery, tick or abort changes the connection |
| StreamRoute.AbortOnce | app/api/stream/route.ts:92 | cleanup runs once: a second abort changes nothing |
| StreamRoute.TickAfterFailure | app/api/stream/route.ts:72-78 | once a heartbeat enqueue failed the interval stays cleared |
| StreamRoute.SessionFilter | app/api/stream/route.ts:46-49 | with only a session filter, an object passes exactly when `params.ei_session` is that string |
| StreamRoute.ProjectFilter | app/api/stream/route.ts:52 | with only a project filter, an object passes exactly when its `projectId` strictly equals it |
| StreamRoute.NoFilter | app/api/stream/route.ts:41-52 | with both parameters absent or empty, exactly the objects and arrays pass |
| StreamRoute.IsLiveEvent | app/api/stream/route.ts:15-17 | `typeof value === "object" && value !== null`; `NoFilter` states that exactly objects and arrays pass it |
| StreamRoute.Accepts | app/api/stream/route.ts:40-52 | the handler's three tests in order; `SessionFilter`, `ProjectFilter`, `NoFilter` and `Hub.AcceptsIngested` state each filter as an if-and-only-if |
| StreamRoute.PreAbortedStaysRegistered | app/api/stream/route.ts:69-92 | as written, when the request's signal fired before `start` added its listener, no sequence of deliveries, ticks, cancels or aborts ever unregisters the handler or runs cleanup |
| StreamRoute.OpenGuarded | app/api/stream/route.ts:28-92 | `start` with a check of `signal.aborted` after the listener is added: the connected frame is written, the connection invariant holds, and it stays registered exactly when the signal had not fired, otherwise it is cleaned up at once |
| StreamRoute.PreAbortedCleansUp | app/api/stream/route.ts:80-92 | with that check, a request whose signal already fired leaves no registered handler, no heartbeat and no writable stream, and no later action changes the connection |
| EventStream.FeedConcat | app/api/stream/route.ts:38-74 | how the bytes are cut into chunks does not change what the reader delivers |
| EventStream.DataFrameParses | app/api/stream/route.ts:54-60 | a data frame with a one-line payload dispatches exactly that payload as a "message" |
| EventStream.CommentFrameParses | app/api/stream/route.ts:72-78 | a heartbeat comment dispatches nothing and leaves the reader as it was |
| EventStream.FramesParse | app/api/stream/route.ts:38-74 | any sequence of well-formed frames read between events delivers exactly their data payloads, in order |
| EventStream.StreamParses | app/api/stream/route.ts:38-74 | a whole stream read from the start delivers one message per data frame |
| Hub.Off | app/api/stream/route.ts:82 | `off` removes the listener and nothing else, and leaves a list without it unchanged; in a duplicate-free list it cuts the listener out at its index, so the others keep their order |
| Hub.EmitTo | app/api/ingest/route.ts:77 | calling each listed handler in turn keeps one entry per connection; `EmitToEach` states the effect |
| Hub.EmitToEach | app/api/ingest/route.ts:77 | with a duplicate-free listener list, each listed connection handles the payload exactly once and every other connection is unchanged |
| Hub.Emit | app/api/ingest/route.ts:77 | `emit` keeps the registrations and the number of connections; `EmitDelivers` states who receives the payload |
| Hub.Connect | app/api/stream/route.ts:69-92 | a new stream request adds one connection in its guarded opened state; it is registered with the emitter exactly when its signal had not already fired, and no other registration changes |
| Hub.EmitDelivers | app/api/ingest/route.ts:77 | an emit hands the payload to every registered connection once; unregistered connections are untouched |
| Hub.Abort | app/api/stream/route.ts:80-92 | aborting one request cleans up that connection and unregisters only its handler |
| Hub.Tick | app/api/stream/route.ts:72-78 | a heartbeat touches only its own connection |
| Hub.IngestRequest | app/api/ingest/route.ts:57-82 | a POST answers as the ingestion handler does; a rejected one changes no stream, an accepted one emits the shaped event once |
| Hub.AcceptsIngested | app/api/stream/route.ts:41-52 | an ingested event passes a stream's filters exactly when its session matches any session filter and its project matches any project filter |
| Hub.IngestFanOut | app/api/ingest/route.ts:77 | after an accepted POST, every open, listening and writable stream whose filters accept the event gets exactly one new frame for it; every other stream is unchanged |
| Hub.AbortedStreamHearsNothing | app/api/stream/route.ts:80-92 | an aborted stream gets nothing from later ingestion |
| DurableBus.SetEx | app/lib/live/redis-bus.ts:20 | SET with EX stores the value readable at once and leaves every other key as it was |
| DurableBus.LPush | app/lib/live/redis-bus.ts:23 | LPUSH puts the id at the head of the list, creating it if needed, fails on a string key, and touches nothing else |
| DurableBus.LTrim | app/lib/live/redis-bus.ts:24 | LTRIM keeps the first n ids, fails on a string key, and touches nothing else |
| DurableBus.LRange | app/lib/live/redis-bus.ts:33 | LRANGE reads the first n ids, none for an absent key, and fails on a string key |
| DurableBus.Get | app/lib/live/redis-bus.ts:39 | GET returns the stored string value, nothing for an absent or expired key, and fails on a list |
| DurableBus.EventId | app/lib/live/redis-bus.ts:16 | the id is `String(event.id)` when truthy, else "evt_" and the clock |
| DurableBus.PublishStores | app/lib/live/redis-bus.ts:15-24 | after publishing, the event is stored under "ei:events:" plus its id with a 60-second expiry, the id heads the queue, the older ids follow in order, and the queue holds at most 1000 ids; no other key changes |
| DurableBus.PublishedEventExpires | app/lib/live/redis-bus.ts:11-20 | 60 seconds after publishing, the stored event is gone |
| DurableBus.EventKeyIsQueueKey | app/lib/live/redis-bus.ts:10-17 | the event key collides with the queue key exactly for id "queue" |
| DurableBus.EventKey | app/lib/live/redis-bus.ts:17 | the key `ei:events:<id>`; `EventKeyIsQueueKey` states that it names the queue exactly for the id "queue" |
| DurableBus.PublishEvent | app/lib/live/redis-bus.ts:15-24 | the event is always stored, because SET runs first and cannot fail; the publish rejects exactly when the queue key then holds a string (id "queue", or a queue key already holding one); the store is returned with the commands before the failing one applied |
| DurableBus.QueueIdClobbersQueue | app/lib/live/redis-bus.ts:16-33 | an event with id "queue" is stored under the queue's own key, so the LPUSH that follows fails and the publish rejects; for the next 60 seconds every poll and every publish fails too; after that a poll returns nothing, because the queue is gone |
| DurableBus.EventTime | app/lib/live/redis-bus.ts:47 | a falsy or missing timestamp counts as 0; otherwise its parsed date |
| DurableBus.DateTime | app/lib/live/redis-bus.ts:47 | `new Date(v).getTime()` for the kinds of value a JSON value can be, with the ECMAScript time-value range; `EventTime` and `TimestampRules` state its consequences for the filter |
| DurableBus.Newer | app/lib/live/redis-bus.ts:47-48 | `eventTime > since`, with an invalid date never newer; `TimestampRules` states the edge cases |
| DurableBus.Inspect | app/lib/live/redis-bus.ts:38-51 | a missing or expired id contributes nothing; a kept event is strictly newer than `since` |
| DurableBus.Collect | app/lib/live/redis-bus.ts:37-52 | the loop returns at most one event per id, each strictly newer than `since` |
| DurableBus.Poll | app/lib/live/redis-bus.ts:31-55 | a queue key holding a string rejects the poll; without a queue the poll returns nothing; otherwise at most 50 events, each strictly newer than `since` |
| DurableBus.PollEvents | app/lib/live/redis-bus.ts:31-55 | the polling loop returns at most 50 events, each strictly newer than `since`, and agrees with the functional definition |
| DurableBus.CollectSplit | app/lib/live/redis-bus.ts:37-52 | results keep queue order: newer ids' events come before older ids' events |
| DurableBus.PollReadsWindowOnly | app/lib/live/redis-bus.ts:33 | ids beyond the 50 newest never influence a poll |
| DurableBus.CollectIgnoresQueue | app/lib/live/redis-bus.ts:37-40 | the loop reads only event keys, so the queue's contents do not change its result |
| DurableBus.TimestampRules | app/lib/live/redis-bus.ts:47-50 | with a missing timestamp an event is newer only than a negative `since`; a numeric timestamp equal to `since` is not newer; an unparseable date string is never newer |
| DurableBus.ExpiredSkipped | app/lib/live/redis-bus.ts:39-41 | an expired or never-stored id contributes nothing |
| DurableBus.InspectStored | app/lib/live/redis-bus.ts:38-50 | a stored object that is newer than `since` is kept by the loop as it is |
| DurableBus.CollectRepeated | app/lib/live/redis-bus.ts:37-52 | a window that starts with the same kept id twice yields its event first and second, unless a later id rejects the poll |
| DurableBus.DuplicateReturnedTwice | app/lib/live/redis-bus.ts:20-23 | publishing the same event twice leaves two queue entries, so one poll returns it twice |
| LiveFeed.StringOrNull | app/components/live/live-feed.tsx:95-99 | a field is kept exactly when it is a string, otherwise null |
| LiveFeed.ParseStreamMessage | app/components/live/live-feed.tsx:82-108 | non-objects and unknown types give nothing; "connected" gives the notice whose timestamp is the string `timestamp` or "", and whose session and project are kept when strings and null otherwise; "event" is accepted exactly when `evt` is present and passes `isEventData`, and then it is that `evt` |
| LiveFeed.EventDataIff | app/components/live/live-feed.tsx:69-80 | an ingested event passes `isEventData` exactly when its id, name, url and timestamp are strings |
| LiveFeed.IsEventData | app/components/live/live-feed.tsx:69-80 | the type guard; `EventDataIff` states exactly when a shaped ingested event passes it |
| LiveFeed.ConnectedRoundTrip | app/components/live/live-feed.tsx:91-100 | the connected notice the stream route writes is parsed back with its timestamp, session and project |
| LiveFeed.EventRoundTrip | app/components/live/live-feed.tsx:103-105 | an ingested event forwarded by the stream route is accepted as itself exactly when its id, name, url and timestamp are strings, and dropped otherwise |
| LiveFeed.SliceTo | app/components/live/live-feed.tsx:170 | `slice(0, end)`: a non-negative end keeps that many items, and a negative one counts from the back |
| LiveFeed.FeedBuffer | app/components/live/live-feed.tsx:156-172 | an accepted event is put first, then the previous events in order, cut to at most `maxEvents`; connected notices and unparseable data leave the list unchanged |
| LiveFeed.OnMessage | app/components/live/live-feed.tsx:156-172 | `onmessage` on the list; `FeedBuffer` states the list after each message |
| LiveFeed.PrependCapped | app/components/live/live-feed.tsx:168-171 | `[x, ...xs].slice(0, n)` has length min(|xs| + 1, n), starts with x when n > 0, and continues with xs in order |
| LiveFeed.MaxEvents | app/components/live/live-feed.tsx:113 | the `maxEvents` default of 100; `DefaultCap` states what it bounds |
| LiveFeed.DefaultCap | app/components/live/live-feed.tsx:113-171 | with the default `maxEvents`, a list of at most 100 events stays at most 100 long after any sequence of messages |
| LiveFeed.FullFeedDropsOldest | app/components/live/live-feed.tsx:168-171 | in a full list the new event goes in and the oldest drops out |
| LiveFeed.NegativeMaxEventsKeepsEmpty | app/components/live/live-feed.tsx:170 | with a negative `maxEvents` an empty list stays empty after an event |
| LiveFeed.ToggleExpanded | app/components/live/live-feed.tsx:215-222 | only the given id changes membership |
| LiveFeed.ToggleTwice | app/components/live/live-feed.tsx:215-222 | toggling twice restores the set |
| LiveFeed.BadgePrecedence | app/components/live/live-feed.tsx:234-241 | secondary exactly for "page_view"; otherwise destructive exactly when it contains "error"; otherwise default exactly when it contains "click" or "submit"; otherwise outline |
| LiveFeed.PageViewExact | app/components/live/live-feed.tsx:237-238 | "page_view" itself is secondary, while "page_view_error" is destructive |
| LiveFeed.BadgeMonotone | app/components/live/live-feed.tsx:234-241 | for names other than "page_view", adding text around a name never makes its badge less alarming (outline, then default, then destructive), because every other rule tests for a substring |
| LiveFeed.BadgeFor | app/components/live/live-feed.tsx:234-241 | `getEventBadgeVariant`; `BadgePrecedence`, `PageViewExact` and `BadgeMonotone` state its meaning |
| Reconnect.StreamQuery | app/components/live/live-feed.tsx:139-144 | the request always names the project, and names the session exactly when it is non-empty |
| Reconnect.Connect | app/components/live/live-feed.tsx:126-148 | connect opens exactly one new source, makes it current, and cancels any pending reconnect |
| Reconnect.Cleanup | app/components/live/live-feed.tsx:203-212 | the effect's cleanup forgets the current source and cancels any pending reconnect |
| Reconnect.StepKeepsInv | app/components/live/live-feed.tsx:126-212 | every event keeps the invariant: at most one source is open, it is the current one, and a reconnect is pending only while mounted with none open |
| Reconnect.Step | app/components/live/live-feed.tsx:126-212 | one event of the connection controller; `StepKeepsInv` states the invariant it keeps |
| Reconnect.Run | app/components/live/live-feed.tsx:126-212 | the controller after a sequence of events; `AtMostOneOpen` states its bound on open sources |
| Reconnect.AtMostOneOpen | app/components/live/live-feed.tsx:126-212 | from mounting on, whatever happens, at most one source is open |
| Reconnect.ErrorSchedulesOneReconnect | app/components/live/live-feed.tsx:175-191 | an error closes the open source, reports "Connection lost. Reconnecting...", and schedules one reconnect; when the reconnect timer fires, exactly one new source opens |
| Reconnect.NothingAfterTeardown | app/components/live/live-feed.tsx:203-212 | after teardown nothing reopens and no reconnect is pending, whatever old sources and timers do, until the next mount |
| Reconnect.QuietWhileUnmounted | app/components/live/live-feed.tsx:203-212 | after teardown and without a new mount no source opens and no reconnect is scheduled, whatever else happens |
| Tracker.SafeString | public/ei.js:12-19 | strings are returned unchanged, `undefined` stays undefined, and anything else is serialized |
| Tracker.SafeStringMeaning | public/ei.js:12-19 | a string is sent as `String(v)`, without the quotes `JSON.stringify` would add; any other value is sent as its `JSON.stringify` text, which never spans more than one line |
| Tracker.Stamp | public/ei.js:21-23 | `writeKey` is set to the configured key, overwriting any existing value; every other field is unchanged |
| Tracker.Send | public/ei.js:21-23 | `send` up to the transport: the payload stamped with the key; `Load` and `Push` state which payload each send gets |
| Tracker.Payload | public/ei.js:73-84 | the `{name, url, params}` literal; `PayloadFields` states what each field reads back |
| Tracker.PayloadFields | public/ei.js:73-84 | a payload's `name`, `url` and `params` read back as given |
| Tracker.ItemPayload | public/ei.js:68-85 | the payload of one pushed item; `ObjectItems` and `NonObjectItems` state its two branches |
| Tracker.WithoutEvent | public/ei.js:52-57 | every own key except "event" is kept with its value, and every kept member is one of the object's |
| Tracker.WithoutEventConcat | public/ei.js:52-57 | the loop filters member by member: what is kept of two runs of members is what is kept of each, in order |
| Tracker.WithoutEventSingle | public/ei.js:53-56 | one member is kept exactly when its key is not "event" |
| Tracker.NormalizeEvent | public/ei.js:43-60 | the name is `String(obj.event)` when truthy, else "dataLayer_push"; the url is the page address; params hold every own key except "event" with its value |
| Tracker.Load | public/ei.js:3-10 | without a truthy write key nothing is sent and `push` is not patched; with one, exactly one payload is sent and `push` is patched; the page keeps the key read at load |
| Tracker.LoadSendsPageView | public/ei.js:92-96 | the load payload is a "page_view" with the page address, params exactly `{source: "ei.js"}`, and the write key |
| Tracker.SendEach | public/ei.js:65-86 | one payload per item, in order |
| Tracker.Push | public/ei.js:63-89 | the patched push sends one payload per argument, in order, after those already sent, each stamped with the key read at load; it then appends every argument to `dataLayer` and returns the new length |
| Tracker.NonObjectItems | public/ei.js:78-84 | a falsy or non-object item goes out as "dataLayer_push", and a string goes unchanged as `params.value` |
| Tracker.ObjectItems | public/ei.js:69-77 | an object item goes out under its normalized name, with its other own keys as params |
| ProjectForm.StripSchemes | app/components/projects/create-project-form.tsx:10 | the result is no longer than the input and uses only its characters |
| ProjectForm.StripSchemesNone | app/components/projects/create-project-form.tsx:10 | text in which no "http://" or "https://" starts is left unchanged |
| ProjectForm.StripSchemesFirst | app/components/projects/create-project-form.tsx:10 | the text before the first scheme is kept, that "http://" or "https://" is removed, and the replacement continues after it |
| ProjectForm.StripSchemesNoop | app/components/projects/create-project-form.tsx:10 | a string of slug characters is left unchanged |
| ProjectForm.SchemeStraddlingRemoval | app/components/projects/create-project-form.tsx:10 | the removal is one left-to-right pass: "hhttp://ttp://" becomes "http://", so a scheme survives |
| ProjectForm.StripWww | app/components/projects/create-project-form.tsx:11 | the result is no longer than the input and uses only its characters |
| ProjectForm.StripWwwFirst | app/components/projects/create-project-form.tsx:11 | the text before the first "www." is kept, that "www." is removed wherever it stands, and the replacement continues after it; text without one is unchanged |
| ProjectForm.StripWwwNoop | app/components/projects/create-project-form.tsx:11 | text without a '.' is unchanged |
| ProjectForm.InnerWwwRemoved | app/components/projects/create-project-form.tsx:11 | not only a leading "www." goes: "a.www.b" becomes "a.b" |
| ProjectForm.DashRuns | app/components/projects/create-project-form.tsx:12 | the result uses only slug characters, is no longer than the input, is empty only for empty input, and starts with the input's first character when that is a slug character and with '-' otherwise |
| ProjectForm.DashRunsKeeps | app/components/projects/create-project-form.tsx:12 | slug characters are copied unchanged and in order |
| ProjectForm.DashRunsRun | app/components/projects/create-project-form.tsx:12 | a maximal run of other characters becomes exactly one '-' |
| ProjectForm.DashRunsNoop | app/components/projects/create-project-form.tsx:12 | a string of slug characters is unchanged |
| ProjectForm.Collapse | app/components/projects/create-project-form.tsx:13 | the result has no two adjacent dashes, stays within the slug alphabet when the input does, is no longer than the input, starts with the input's first character, and is empty only for empty input |
| ProjectForm.CollapseKeeps | app/components/projects/create-project-form.tsx:13 | characters other than '-' are copied unchanged and in order |
| ProjectForm.CollapseRun | app/components/projects/create-project-form.tsx:13 | a maximal run of dashes becomes exactly one '-' |
| ProjectForm.CollapseNoop | app/components/projects/create-project-form.tsx:13 | a string without double dashes is left unchanged |
| ProjectForm.TrimDashes | app/components/projects/create-project-form.tsx:14 | the result is the input less one leading '-' exactly when it starts with one, and less one trailing character exactly when that character is a '-' other than the leading one; so it equals the input exactly when that has no dash at either end, and for input without "--" no dash is left at either end |
| ProjectForm.SlugifyWellFormed | app/components/projects/create-project-form.tsx:6-15 | a slug contains only a–z, 0–9 and '-', with no double, leading or trailing dash |
| ProjectForm.SlugNoop | app/components/projects/create-project-form.tsx:6-15 | a well-formed slug is its own slug |
| ProjectForm.SlugifyIdempotent | app/components/projects/create-project-form.tsx:6-15 | `slugify` applied twice equals applying it once |
| ProjectForm.Slugify | app/components/projects/create-project-form.tsx:6-15 | the whole pipeline; `SlugifyWellFormed`, `SlugNoop` and `SlugifyIdempotent` state its meaning |
| ProjectForm.ComputedId | app/components/projects/create-project-form.tsx:70 | the id is the slug of the name when that is non-empty, and exactly "new-project" otherwise; never empty and always a slug |
| ProjectForm.CutAtSlash | app/components/projects/create-project-form.tsx:22 | everything from the first '/' is dropped: a prefix of the input, without '/', for single-line input |
| ProjectForm.NormalizeDomainSingleLine | app/components/projects/create-project-form.tsx:17-23 | for single-line input the domain is the trimmed, lower-cased, scheme-free input up to its first '/', and contains no '/' |
| ProjectForm.NormalizeDomain | app/components/projects/create-project-form.tsx:17-23 | the domain pipeline; `NormalizeDomainSingleLine` states its meaning |
| ProjectForm.LooksLikeDomainChars | app/components/projects/create-project-form.tsx:25-27 | holds exactly when the string contains '.' and no space |
| ProjectForm.LooksLikeDomain | app/components/projects/create-project-form.tsx:25-27 | `looksLikeDomain`; `LooksLikeDomainChars` states it in terms of characters |
| ProjectForm.FormErrors | app/components/projects/create-project-form.tsx:72-88 | name error exactly when the trimmed name is empty; "required" exactly when the normalized domain is empty, else "invalid" exactly when it lacks '.' or has a space; id error exactly when the computed id is taken |
| ProjectForm.CanSubmit | app/components/projects/create-project-form.tsx:88 | no error field is set; `Submit` builds a project exactly when it holds |
| ProjectForm.Submit | app/components/projects/create-project-form.tsx:90-108 | a project is created exactly when there are no errors: computed id, trimmed name, normalized domain, a live "prod" environment first and a paused "stage" environment exactly when staging is included |
| ProjectForm.SubmittedIdWellFormed | app/components/projects/create-project-form.tsx:70-105 | a created project's id is a non-empty slug fixed by `slugify` |
| Sidebar.DashboardExact | app/components/app-shell/sidebar.tsx:14 | "/dashboard" is active on its own path and not on its sub-paths |
| Sidebar.SubpathsActive | app/components/app-shell/sidebar.tsx:15 | any other entry is active on its path and on every path below it |
| Sidebar.NoBoundaryNoMatch | app/components/app-shell/sidebar.tsx:15 | a path that extends an entry's path without a '/' boundary does not activate it |
| Sidebar.ProjectsX | app/components/app-shell/sidebar.tsx:15 | "/projectsX" is not a projects page |
| Sidebar.ActivePrefix | app/components/app-shell/sidebar.tsx:13-16 | an active entry's path is a prefix of the current path |
| Sidebar.AtMostOneActive | app/components/app-shell/sidebar.tsx:6-16 | for any path, at most one entry of the fixed list is active |
| Sidebar.IsActive | app/components/app-shell/sidebar.tsx:13-16 | `isActive`; `DashboardExact`, `SubpathsActive`, `NoBoundaryNoMatch` and `ActivePrefix` state its meaning |
| Sidebar.ActiveFlags | app/components/app-shell/sidebar.tsx:28-29 | one highlight per `nav` entry, each set exactly when that entry is active |
| Sidebar.HrefsUnrelated | app/components/app-shell/sidebar.tsx:6-11 | no entry's path is a prefix of another's |
| Preview.ToHttpsUrl | app/components/live/live-preview-panel.tsx:10-15 | "" exactly for blank input; trimmed input with an "http://" or "https://" prefix is kept; anything else gets "https://" in front |
| Preview.ToHttpsUrlIdempotent | app/components/live/live-preview-panel.tsx:10-15 | applying `toHttpsUrl` to its result changes nothing |
| Preview.UpperCaseScheme | app/components/live/live-preview-panel.tsx:13-14 | the scheme test is case-sensitive: "HTTP://host" gets a second scheme |
| Preview.RandomSessionId | app/components/live/live-preview-panel.tsx:6-8 | a session id consists only of characters `encodeURIComponent` leaves alone |
| Preview.ToHex | app/components/live/live-preview-panel.tsx:7 | `toString(16)` writes lower-case hexadecimal digits only |
| Preview.EncodeOctets | app/components/live/live-preview-panel.tsx:35 | reading the escapes of `encodeURIComponent` back gives exactly the UTF-8 bytes of the input |
| Preview.EncodeUnreserved | app/components/live/live-preview-panel.tsx:35 | a component of unreserved characters is encoded as itself |
| Preview.EncodeUriComponent | app/components/live/live-preview-panel.tsx:35 | `encodeURIComponent`; `EncodeOctets` and `EncodeUnreserved` state its meaning |
| Preview.PreviewCarriesSession | app/components/live/live-preview-panel.tsx:31-37 | the preview address carries the session id verbatim after "/?ei_session=" |
| Preview.PreviewUrl | app/components/live/live-preview-panel.tsx:35 | the address `start` opens; `PreviewCarriesSession` states what it carries |
| Preview.StartNeedsDomain | app/components/live/live-preview-panel.tsx:29-53 | start is enabled exactly when the domain is not blank |
| Preview.StartEnabled | app/components/live/live-preview-panel.tsx:53 | the start button is enabled when `base` is non-empty; `StartNeedsDomain` states it in terms of the domain |
| Install.DropTrailingSlash | app/components/projects/install-snippet.tsx:17 | exactly one trailing '/' is removed when present |
| Install.SafeIngest | app/components/projects/install-snippet.tsx:14-19 | an endpoint starting with "http" is used verbatim; otherwise it follows the trimmed app address without one trailing '/', or "undefined" when there is none |
| Install.DefaultEndpoint | app/components/projects/install-snippet.tsx:14-19 | without an endpoint the snippet posts to the app address followed by "/api/ingest" |
| Install.OneSlashOnly | app/components/projects/install-snippet.tsx:17 | "x//" keeps one slash: "x//api/ingest" |
| Install.DefaultEnvId | app/components/projects/project-install-panel.tsx:10 | the first environment's id, or "prod" without environments |
| Install.IndexOfEnv | app/components/projects/project-install-panel.tsx:15 | the index `find` stops at: an environment with the id there, none before it, or the end of the list |
| Install.SelectedEnv | app/components/projects/project-install-panel.tsx:13-19 | the first environment with the selected id, as `find` returns it; else the first environment; else none, exactly when there are no environments (and the panel renders nothing) |
| Install.InitialSelection | app/components/projects/project-install-panel.tsx:10-19 | on first render the first environment is selected |
| Install.AppUrl | app/components/projects/project-install-panel.tsx:21-27 | the trimmed configured address without one trailing '/', or "http://localhost:3000" when unset or blank |
| Install.SlashAppUrl | app/components/projects/project-install-panel.tsx:21-27 | a configured "/" becomes the empty address |
| Install.AppUrlConfigured | app/components/projects/project-install-panel.tsx:21-27 | an address that is already trimmed and has no trailing '/' is used exactly as configured; surrounding whitespace never changes the result; a blank address gives the development address |
| Install.PanelIngest | app/components/projects/project-install-panel.tsx:89-93 | the panel's snippet always posts to the absolute hosted endpoint |
| Install.HostedIsAbsolute | app/components/projects/project-install-panel.tsx:7 | the hosted endpoint starts with "http", so the snippet uses it verbatim |
| Install.PanelIgnoresAppUrl | app/components/projects/project-install-panel.tsx:7-93 | the resolved endpoint does not depend on the app address |
| Json.Assign | public/ei.js:23 | `obj[k] = v`: afterwards k reads v, every other key reads as before, an existing member is overwritten in place, and a new one is appended |
| Json.OwnEntries | public/ei.js:52-57 | an object's own entries are its members in order; an array's and a string's are their indexed elements |
| Json.StringifySingleLine | app/api/stream/route.ts:54-60 | `JSON.stringify` never writes a raw line break, so a serialized payload is one event-stream line |

## Left out

- **I/O.** Network I/O is parameters or absent: `fetch`, `navigator.sendBeacon`, `EventSource`, the Next.js request and response objects, and the Upstash client with its `testConnection`. A request body arrives as the value `request.json()` produced, or none when parsing failed.
- **Byte-level encoding.** `TextEncoder` and the `ReadableStream` internals are left out. A stream is the sequence of frames it enqueued, and whether enqueueing still works is one flag.
- **Timers and abort signals.** They are events of a sequential state machine (`TimerFires`, `RequestAborts`, `Teardown`), with no real concurrency. The 30-second heartbeat period and the 3000 ms reconnect delay are constants that no proof uses.
- **Clocks, date parsing and `Math.random`.** `Date.now()`, `toISOString()` and date parsing are parameters. `Math.random()` enters as the hexadecimal digits of its fraction.
- **`JSON.parse`.** It is not modelled; parsed values are inputs. `JSON.stringify` is modelled without indentation and only for the value kinds the JSON datatype holds.
- **Numbers.** JSON numbers are integers; floating point, NaN and Infinity are not modelled.
- **Property order.** JavaScript objects list integer-like keys first. Members here keep insertion order, and objects built from the datatype are assumed not to repeat a key.
- **Strings.** They are sequences of Unicode scalar values, not UTF-16 code units; lone surrogates, which make `encodeURIComponent` throw, are not modelled. `trim` uses a fixed whitespace set, and `toLowerCase` maps only A–Z.
- **Redis values.** Serialization and deserialization of JSON values are left out: stored values are JSON values.
- **Event-stream reader.** The model reads only `data` lines and comments. The `id`, `retry` and `event` fields and the byte-order mark are left out, because the server never writes them.
- **Logging and markup.** Console logging, JSX markup, the install snippet's template text, `formatTime` and `clearEvents` (which empties the list) are left out.
- **Tracker transport.** The tracker's `send` is modelled up to stamping the write key; choosing between `sendBeacon` and `fetch` is I/O. The original `dataLayer.push` is modelled as appending its arguments.
- ChannelBus.Publish: assumes that no subscriber subscribes or unsubscribes while `publish` runs. In the source such a handler changes what `Set.forEach` visits: a handler added during the loop is called, and one deleted before it is reached is skipped.
- **Bus event fields.** The `LiveEvent` `status` and `message` fields of app/lib/live/bus.ts are carried but never set by any route.
- **Lookups.** They never modify the table, which holds trivially in this functional model; no separate property states it.
- **Reconnect details.** `onopen` only marks the controller connected, and the `connectRef` indirection is taken to always call the latest `connect`.

## Findings

| source | as written | input that shows it | evidently intended | confidence | as-written member | corrected member |
|---|---|---|---|---|---|---|
| app/api/ingest/route.ts:77 | `bus.emit('event', event)` is called on the object app/lib/live/bus.ts exports, which has only `publish` and `subscribe`; the call throws, and the catch answers 500 | a POST of `{"writeKey": "wr_demo_live_demo123demo456"}` | 200 `{success: true, eventId}` and one emitted event | not executed | Ingest.PostAgainstDirectBus (shown by Ingest.DirectBusRejectsValidKey) | Ingest.Post, used by Hub.IngestRequest (Hub.IngestFanOut, Ingest.AcceptedKey) |
| app/api/stream/route.ts:69 | `bus.on('event', eventHandler)` is called in `start` on the same object, which has no `on`; `start` throws, so constructing the `ReadableStream` throws and GET fails | any GET, e.g. `?projectId=demo` | an event stream that begins with the connected notice | not executed | StreamRoute.OpenAgainstDirectBus (shown by StreamRoute.DirectBusStreamFails) | StreamRoute.Open, through StreamRoute.OpenGuarded as Hub.Connect uses it (StreamRoute.StreamShape) |
| app/api/stream/route.ts:92 | `request.signal.addEventListener("abort", cleanup, { once: true })` is the only way cleanup is reached; an `AbortSignal` fires "abort" once, so when the signal has already fired at that point the listener never runs, the handler stays registered with the emitter and the heartbeat keeps going until an enqueue fails | a GET whose client disconnects before `start` runs, so the request's signal is already aborted | cleanup runs at once (a check of `request.signal.aborted` after adding the listener), leaving nothing registered | not executed | StreamRoute.Open with `signalAborted` (shown by StreamRoute.PreAbortedStaysRegistered) | StreamRoute.OpenGuarded, used by Hub.Connect (StreamRoute.PreAbortedCleansUp, StreamRoute.StreamShape) |

=== FILE: bus.dfy ===
/** The in-process channel registry (`app/lib/live/bus.ts`): a map from the
    channel key `projectId:envId` to the subscribers of that channel.

    A JavaScript `Set` iterates in insertion order and holds each element
    once, so a channel's subscribers are a duplicate-free sequence in the
    order they subscribed. Handlers are compared by reference; here a
    handler is its identity number. */
module ChannelBus {
  import opened Optional
  import opened Json

  type Handler = nat

  datatype Status = Ok | Warn | Error

  /** The `LiveEvent` record the bus carries. */
  datatype LiveEvent = LiveEvent(
    id: string,
    ts: int,
    name: string,
    url: string,
    status: Status,
    message: Option<string>,
    params: seq<Member>)

  /** The methods of the exported `bus` object. */
  const Methods: set<string> := {"publish", "subscribe"}

  type Registry = map<string, seq<Handler>>

  /** The closure `subscribe` returns: it captures the channel key and the
      handler, nothing else. */
  datatype Unsubscribe = Unsubscribe(key: string, handler: Handler)

  /** One invocation of a subscriber during `publish`, and whether the
      subscriber threw (the exception is caught and dropped). */
  datatype Call = Call(handler: Handler, evt: LiveEvent, threw: bool)

  function Key(projectId: string, envId: string): string {
    projectId + ":" + envId
  }

  predicate Distinct(hs: seq<Handler>) {
    forall i, j :: 0 <= i < j < |hs| ==> hs[i] != hs[j]
  }

  /** The registry never stores an empty channel and no channel lists a
      handler twice. */
  predicate Valid(reg: Registry) {
    forall k :: k in reg ==> reg[k] != [] && Distinct(reg[k])
  }

  function Subscribers(reg: Registry, projectId: string, envId: string): seq<Handler> {
    var k := Key(projectId, envId);
    if k in reg then reg[k] else []
  }

  /** With colon-free project ids, distinct (project, environment) pairs
      name distinct channels. */
  lemma KeyInjective(p1: string, e1: string, p2: string, e2: string)
    requires ':' !in p1 && ':' !in p2
    requires Key(p1, e1) == Key(p2, e2)
    ensures p1 == p2 && e1 == e2
  {
    var k := Key(p1, e1);
    ColonPosition(p1, e1);
    ColonPosition(p2, e2);
    assert p1 == k[..|p1|] == p2;
    assert e1 == k[|p1| + 1..] == e2;
  }

  /** The position of the first colon in a string, or its length. */
  function FirstColon(s: string): (n: nat)
    ensures n <= |s|
  {
    if |s| == 0 || s[0] == ':' then 0 else 1 + FirstColon(s[1..])
  }

  lemma {:induction false} ColonPosition(p: string, e: string)
    requires ':' !in p
    ensures FirstColon(Key(p, e)) == |p|
  {
    if |p| > 0 {
      assert Key(p, e)[1..] == Key(p[1..], e);
      ColonPosition(p[1..], e);
    }
  }

  /** Without that restriction two different pairs share a channel. */
  lemma KeyCollision()
    ensures Key("a:b", "c") == Key("a", "b:c")
  {
  }

  /** `bus.publish`: every subscriber of the channel is called once with the
      event, in subscription order, whether or not earlier ones threw; a
      missing or empty channel calls nobody. */
  method Publish(reg: Registry, projectId: string, envId: string, evt: LiveEvent, throws: set<Handler>)
    returns (calls: seq<Call>)
    requires Valid(reg)
    ensures |calls| == |Subscribers(reg, projectId, envId)|
    ensures forall i :: 0 <= i < |calls| ==>
      calls[i] == Call(Subscribers(reg, projectId, envId)[i], evt, Subscribers(reg, projectId, envId)[i] in throws)
  {
    var k := Key(projectId, envId);
    var subs := if k in reg then reg[k] else [];
    if |subs| == 0 {
      return [];
    }
    calls := [];
    var i := 0;
    while i < |subs|
      invariant 0 <= i <= |subs|
      invariant |calls| == i
      invariant forall j :: 0 <= j < i ==> calls[j] == Call(subs[j], evt, subs[j] in throws)
    {
      var h := subs[i];
      var threw := h in throws;
      calls := calls + [Call(h, evt, threw)];
      i := i + 1;
    }
  }

  /** `bus.subscribe`: the channel is created on first use, the handler is
      added unless already present, and the unsubscribe closure remembers
      the key and the handler. */
  function Subscribe(reg: Registry, projectId: string, envId: string, h: Handler): (r: (Registry, Unsubscribe))
    requires Valid(reg)
    ensures Valid(r.0)
    ensures r.1 == Unsubscribe(Key(projectId, envId), h)
    ensures r.0.Keys == reg.Keys + {Key(projectId, envId)}
    ensures h in r.0[Key(projectId, envId)]
    ensures forall k :: k in reg && k != Key(projectId, envId) ==> r.0[k] == reg[k]
    ensures h in Subscribers(reg, projectId, envId) ==> r.0 == reg
    ensures h !in Subscribers(reg, projectId, envId) ==>
      r.0[Key(projectId, envId)] == Subscribers(reg, projectId, envId) + [h]
  {
    var k := Key(projectId, envId);
    var set_ := if k in reg then reg[k] else [];
    var set' := if h in set_ then set_ else set_ + [h];
    (reg[k := set'], Unsubscribe(k, h))
  }

  /** `Set.delete`: the handler goes, the others stay in their order. */
  function Remove(hs: seq<Handler>, h: Handler): (r: seq<Handler>)
    ensures h !in r
    ensures forall x :: x != h ==> (x in r <==> x in hs)
    ensures |r| <= |hs|
    ensures Distinct(hs) ==> Distinct(r)
    ensures h !in hs ==> r == hs
    ensures Distinct(hs) ==> forall i :: 0 <= i < |hs| && hs[i] == h ==> r == hs[..i] + hs[i + 1..]
  {
    if |hs| == 0 then []
    else if hs[0] == h then
      var rest := Remove(hs[1..], h);
      DropHead(hs, h, rest);
      rest
    else
      var rest := Remove(hs[1..], h);
      KeepHead(hs, h, rest);
      [hs[0]] + rest
  }

  /** The step of `Remove` that drops the head. */
  lemma DropHead(hs: seq<Handler>, h: Handler, rest: seq<Handler>)
    requires hs != [] && hs[0] == h
    requires h !in hs[1..] ==> rest == hs[1..]
    ensures Distinct(hs) ==> forall i :: 0 <= i < |hs| && hs[i] == h ==> rest == hs[..i] + hs[i + 1..]
  {
    if Distinct(hs) {
      assert h !in hs[1..];
      forall i | 0 <= i < |hs| && hs[i] == h ensures rest == hs[..i] + hs[i + 1..] {
        assert i == 0;
      }
    }
  }

  /** The step of `Remove` that keeps the head. */
  lemma KeepHead(hs: seq<Handler>, h: Handler, rest: seq<Handler>)
    requires hs != [] && hs[0] != h
    requires h !in hs[1..] ==> rest == hs[1..]
    requires Distinct(hs[1..]) ==>
      forall i :: 0 <= i < |hs[1..]| && hs[1..][i] == h ==> rest == hs[1..][..i] + hs[1..][i + 1..]
    ensures h !in hs ==> [hs[0]] + rest == hs
    ensures Distinct(hs) ==> forall i :: 0 <= i < |hs| && hs[i] == h ==> [hs[0]] + rest == hs[..i] + hs[i + 1..]
  {
    if h !in hs {
      assert hs == [hs[0]] + hs[1..];
    }
    if Distinct(hs) {
      assert Distinct(hs[1..]);
      forall i | 0 <= i < |hs| && hs[i] == h ensures [hs[0]] + rest == hs[..i] + hs[i + 1..] {
        assert hs[1..][i - 1] == h;
        assert hs[..i] == [hs[0]] + hs[1..][..i - 1];
        assert hs[i + 1..] == hs[1..][i..];
      }
    }
  }

  /** Running the closure `subscribe` returned: the handler leaves the
      channel, and the channel is deleted once it has no subscribers. */
  function RunUnsubscribe(reg: Registry, u: Unsubscribe): (r: Registry)
    requires Valid(reg)
    ensures Valid(r)
    ensures u.key !in reg ==> r == reg
    ensures u.key in r ==> u.handler !in r[u.key]
    ensures u.key in reg ==>
      (u.key in r <==> exists x :: x in reg[u.key] && x != u.handler)
    ensures u.key in r ==> forall x :: x != u.handler ==> (x in r[u.key] <==> x in reg[u.key])
    ensures forall k :: k != u.key ==> (k in r <==> k in reg) && (k in r ==> r[k] == reg[k])
  {
    if u.key !in reg then reg
    else
      var curr := Remove(reg[u.key], u.handler);
      if |curr| == 0 then reg - {u.key}
      else
        assert curr[0] in reg[u.key] && curr[0] != u.handler;
        reg[u.key := curr]
  }

  /** Calling the same unsubscribe closure again changes nothing more. */
  lemma UnsubscribeIdempotent(reg: Registry, u: Unsubscribe)
    requires Valid(reg)
    ensures RunUnsubscribe(RunUnsubscribe(reg, u), u) == RunUnsubscribe(reg, u)
  {
    var r1 := RunUnsubscribe(reg, u);
    if u.key in r1 {
      RemoveAbsent(r1[u.key], u.handler);
    }
  }

  lemma {:induction false} RemoveAbsent(hs: seq<Handler>, h: Handler)
    requires h !in hs
    ensures Remove(hs, h) == hs
  {
    if |hs| > 0 {
      RemoveAbsent(hs[1..], h);
    }
  }

  /** Subscribing and then running the returned closure restores the
      registry, provided the handler was not already subscribed there. */
  lemma {:induction false} SubscribeThenUnsubscribe(reg: Registry, projectId: string, envId: string, h: Handler)
    requires Valid(reg)
    requires h !in Subscribers(reg, projectId, envId)
    ensures var (r, u) := Subscribe(reg, projectId, envId, h); RunUnsubscribe(r, u) == reg
  {
    var k := Key(projectId, envId);
    var subs := Subscribers(reg, projectId, envId);
    var (r, u) := Subscribe(reg, projectId, envId, h);
    RemoveAbsent(subs, h);
    RemoveLast(subs, h);
    var r' := RunUnsubscribe(r, u);
    if k in reg {
      assert r' == reg[k := subs];
    } else {
      assert r' == reg;
    }
  }

  lemma {:induction false} RemoveLast(hs: seq<Handler>, h: Handler)
    requires h !in hs
    ensures Remove(hs + [h], h) == Remove(hs, h)
  {
    if |hs| > 0 {
      assert (hs + [h])[1..] == hs[1..] + [h];
      RemoveLast(hs[1..], h);
    } else {
      assert Remove([h], h) == Remove([], h);
    }
  }

  /** A closure does not know whether its handler was subscribed again
      later: a stale closure removes a later subscription of the same
      handler to the same channel. */
  lemma StaleUnsubscribeRemovesResubscription(reg: Registry, projectId: string, envId: string, h: Handler)
    requires Valid(reg)
    ensures
      var (r1, u1) := Subscribe(reg, projectId, envId, h);
      var r2 := RunUnsubscribe(r1, u1);
      var (r3, u3) := Subscribe(r2, projectId, envId, h);
      var r4 := RunUnsubscribe(r3, u1);
      u3 == u1 && (Key(projectId, envId) in r4 ==> h !in r4[Key(projectId, envId)])
  {
  }

  /** After its closure has run, a handler receives nothing more from that
      channel. */
  method PublishAfterUnsubscribe(reg: Registry, projectId: string, envId: string, h: Handler, evt: LiveEvent)
    returns (calls: seq<Call>)
    requires Valid(reg)
    ensures forall i :: 0 <= i < |calls| ==> calls[i].handler != h
    ensures |calls| == |Subscribers(RunUnsubscribe(reg, Unsubscribe(Key(projectId, envId), h)), projectId, envId)|
  {
    var r := RunUnsubscribe(reg, Unsubscribe(Key(projectId, envId), h));
    calls := Publish(r, projectId, envId, evt, {});
    assert forall i :: 0 <= i < |calls| ==> calls[i].handler in Subscribers(r, projectId, envId);
  }
}

=== FILE: directory.dfy ===
/** The write-key directory (`app/lib/projects/mock.ts`): a fixed table of
    projects searched by id or by write key. */
module Directory {
  import opened Optional

  /** An environment's status, `"live" | "paused"`, as the project pages
      declare it. */
  datatype EnvStatus = Live | Paused

  datatype Project = Project(id: string, name: string, writeKey: string, domain: string, createdAt: string)

  /** The `projects` table, in its declared order. */
  const Projects: seq<Project> := [
    Project("moteva", "Moteva", "wr_moteva_live_abc123xyz789", "moteva.vercel.app", "2024-01-15T10:00:00Z"),
    Project("demo", "Demo Project", "wr_demo_live_demo123demo456", "demo.example.com", "2024-01-10T08:00:00Z")
  ]

  /** The index of the first project satisfying `matches`, or `|ps|`. */
  function FirstIndex(ps: seq<Project>, matches: Project -> bool): (i: nat)
    ensures i <= |ps|
    ensures forall j :: 0 <= j < i ==> !matches(ps[j])
    ensures i < |ps| ==> matches(ps[i])
  {
    if |ps| == 0 then 0
    else if matches(ps[0]) then 0
    else 1 + FirstIndex(ps[1..], matches)
  }

  /** `Array.prototype.find`. */
  function Find(ps: seq<Project>, matches: Project -> bool): Option<Project> {
    var i := FirstIndex(ps, matches);
    if i < |ps| then Some(ps[i]) else None
  }

  /** `getProjectById`: the first project with that id, if any. */
  function GetProjectById(id: string): (r: Option<Project>)
    ensures r.Some? ==> r.value.id == id && r.value in Projects
    ensures r.None? <==> forall p :: p in Projects ==> p.id != id
  {
    var r := Find(Projects, (p: Project) => p.id == id);
    assert r.None? ==> forall p :: p in Projects ==> p.id != id by {
      if r.None? {
        forall p | p in Projects ensures p.id != id {
          var j :| 0 <= j < |Projects| && Projects[j] == p;
        }
      }
    }
    r
  }

  /** `getProjectByWriteKey`: the first project with that write key, if any. */
  function GetProjectByWriteKey(writeKey: string): (r: Option<Project>)
    ensures r.Some? ==> r.value.writeKey == writeKey && r.value in Projects
    ensures r.None? <==> forall p :: p in Projects ==> p.writeKey != writeKey
  {
    var r := Find(Projects, (p: Project) => p.writeKey == writeKey);
    assert r.None? ==> forall p :: p in Projects ==> p.writeKey != writeKey by {
      if r.None? {
        forall p | p in Projects ensures p.writeKey != writeKey {
          var j :| 0 <= j < |Projects| && Projects[j] == p;
        }
      }
    }
    r
  }

  /** `isValidWriteKey`, written with `some` rather than `find`. */
  predicate IsValidWriteKey(writeKey: string) {
    exists i :: 0 <= i < |Projects| && Projects[i].writeKey == writeKey
  }

  /** The two ways of asking about a write key agree. */
  lemma ValidIffFound(writeKey: string)
    ensures IsValidWriteKey(writeKey) <==> GetProjectByWriteKey(writeKey).Some?
  {
    if IsValidWriteKey(writeKey) {
      var i :| 0 <= i < |Projects| && Projects[i].writeKey == writeKey;
      assert Projects[i] in Projects;
    }
  }

  /** Ids and write keys are pairwise distinct, and no id contains the
      channel separator `:`. */
  predicate TableWellFormed(ps: seq<Project>) {
    && (forall i, j :: 0 <= i < j < |ps| ==> ps[i].id != ps[j].id && ps[i].writeKey != ps[j].writeKey)
    && (forall i :: 0 <= i < |ps| ==> ':' !in ps[i].id)
  }

  lemma ProjectsWellFormed()
    ensures TableWellFormed(Projects)
  {
  }

  /** Every listed project is found again by its own id and by its own
      write key: neither lookup is ambiguous. */
  lemma LookupsUnambiguous(i: nat)
    requires i < |Projects|
    ensures GetProjectById(Projects[i].id) == Some(Projects[i])
    ensures GetProjectByWriteKey(Projects[i].writeKey) == Some(Projects[i])
  {
    ProjectsWellFormed();
  }

  /** The write key of the worked example in the ingestion docs. */
  lemma DemoKeyResolves()
    ensures GetProjectByWriteKey("wr_demo_live_demo123demo456").Some?
    ensures GetProjectByWriteKey("wr_demo_live_demo123demo456").value.id == "demo"
    ensures GetProjectByWriteKey("bogus").None?
  {
    LookupsUnambiguous(1);
  }
}

=== FILE: durable_bus.dfy ===
/** The Redis-backed variant of the event bus (`app/lib/live/redis-bus.ts`).
    `publishEvent` stores each event under its own key with a 60-second
    expiry and pushes its id onto a capped queue; `pollEvents` reads the 50
    newest ids and returns the stored events newer than a given time.

    Redis is an abstract keyspace: each key holds a string value (here the
    event itself; the JSON text round trip through the client is left out)
    or a list, with an optional expiry instant, read against a clock `now`
    in milliseconds. A key whose expiry instant has come is absent. Redis
    answers an operation on a key of the wrong kind with a WRONGTYPE error,
    which rejects the caller's promise. `JSON.parse` and `Date` parsing are
    the parameters `parseJson` and `parseDate` (None for a failure or an
    invalid date). */
module DurableBus {
  import opened Optional
  import opened Text
  import opened Json

  const Channel: string := "ei:events"
  const QueueKey: string := Channel + ":queue"
  /** `EVENT_TTL`, in seconds. */
  const EventTtl: nat := 60
  /** `LTRIM queue 0 999` keeps this many ids. */
  const QueueCap: nat := 1000
  /** `LRANGE queue 0 49` reads this many ids. */
  const PollWindow: nat := 50

  const WrongType: string := "WRONGTYPE Operation against a key holding the wrong kind of value"

  datatype Value = Text(event: Json) | List(ids: seq<string>)

  datatype Entry = Entry(value: Value, expiresAt: Option<int>)

  type Store = map<string, Entry>

  /** The value a key holds at time `now`, if it exists and has not expired. */
  function Read(s: Store, k: string, now: int): (r: Option<Value>)
    ensures r.Some? ==> k in s && r.value == s[k].value
    ensures r.None? <==> k !in s || (s[k].expiresAt.Some? && now >= s[k].expiresAt.value)
  {
    if k in s && (s[k].expiresAt.None? || now < s[k].expiresAt.value) then Some(s[k].value) else None
  }

  /** `SET k v EX ttl`: replaces whatever the key held. Redis refuses an
      expiry that is not positive. */
  function SetEx(s: Store, k: string, v: Json, ttlSeconds: nat, now: int): (r: Store)
    requires ttlSeconds > 0
    ensures Read(r, k, now) == Some(Text(v))
    ensures forall k' :: k' != k ==> Read(r, k', now) == Read(s, k', now)
  {
    s[k := Entry(Text(v), Some(now + ttlSeconds * 1000))]
  }

  /** `LPUSH k x`: prepends to a list, creating it (with no expiry) when
      the key is absent; fails on a string key. */
  function LPush(s: Store, k: string, x: string, now: int): (r: Result<Store>)
    ensures r.Failure? <==> Read(s, k, now).Some? && Read(s, k, now).value.Text?
    ensures r.Success? ==> Read(r.value, k, now) == Some(List([x] + ListAt(s, k, now)))
    ensures r.Success? ==> forall k' :: k' != k ==> Read(r.value, k', now) == Read(s, k', now)
  {
    match Read(s, k, now)
    case None =>
      assert ListAt(s, k, now) == [] && [x] + [] == [x];
      Success(s[k := Entry(List([x]), None)])
    case Some(Text(_)) => Failure(WrongType)
    case Some(List(ids)) => Success(s[k := Entry(List([x] + ids), s[k].expiresAt)])
  }

  /** The ids a key lists, or none when it does not hold a list. */
  function ListAt(s: Store, k: string, now: int): seq<string> {
    match Read(s, k, now)
    case Some(List(ids)) => ids
    case _ => []
  }

  /** `LTRIM k 0 n-1` for a list that is not emptied by it. */
  function LTrim(s: Store, k: string, n: nat, now: int): (r: Result<Store>)
    requires n > 0
    ensures r.Failure? <==> Read(s, k, now).Some? && Read(s, k, now).value.Text?
    ensures r.Success? && Read(s, k, now).Some? ==>
      var ids := ListAt(s, k, now);
      Read(r.value, k, now) == Some(List(if |ids| <= n then ids else ids[..n]))
    ensures r.Success? ==> forall k' :: k' != k ==> Read(r.value, k', now) == Read(s, k', now)
  {
    match Read(s, k, now)
    case None => Success(s)
    case Some(Text(_)) => Failure(WrongType)
    case Some(List(ids)) =>
      if |ids| <= n then Success(s)
      else Success(s[k := Entry(List(ids[..n]), s[k].expiresAt)])
  }

  /** `LRANGE k 0 n-1`: the first `n` ids, none for an absent key; fails on
      a string key. */
  function LRange(s: Store, k: string, n: nat, now: int): (r: Result<seq<string>>)
    ensures r.Failure? <==> Read(s, k, now).Some? && Read(s, k, now).value.Text?
    ensures r.Success? ==> var ids := ListAt(s, k, now);
      r.value == if |ids| <= n then ids else ids[..n]
  {
    match Read(s, k, now)
    case None => Success([])
    case Some(Text(_)) => Failure(WrongType)
    case Some(List(ids)) => Success(if |ids| <= n then ids else ids[..n])
  }

  /** `GET k`: the stored value, none for an absent key; fails on a list. */
  function Get(s: Store, k: string, now: int): (r: Result<Option<Json>>)
    ensures r.Failure? <==> Read(s, k, now).Some? && Read(s, k, now).value.List?
    ensures r == Success(None) <==> Read(s, k, now).None?
    ensures r.Success? && r.value.Some? ==> Read(s, k, now) == Some(Text(r.value.value))
  {
    match Read(s, k, now)
    case None => Success(None)
    case Some(List(_)) => Failure(WrongType)
    case Some(Text(v)) => Success(Some(v))
  }

  function EventKey(id: string): string {
    Channel + ":" + id
  }

  /** `event?.id || \`evt_${Date.now()}\``, as a string. */
  function EventId(event: Json, now: nat): (id: string)
    ensures Truthy(Prop(event, "id")) ==> id == ToJsString(Prop(event, "id").value)
    ensures !Truthy(Prop(event, "id")) ==> id == "evt_" + NatToString(now)
  {
    var v := Prop(event, "id");
    if Truthy(v) then ToJsString(v.value) else "evt_" + NatToString(now)
  }

  /** `publishEvent(event)`: SET with expiry, LPUSH, LTRIM, in that order.
      The first failing command rejects the promise; the commands before it
      have already taken effect, so the store is returned with the outcome.
      The SET itself cannot fail: the event is always stored, and the
      publish fails exactly when the queue key then holds a string, which
      is when the id is "queue" or the queue already held one. */
  function PublishEvent(s: Store, event: Json, now: nat): (r: (Store, Result<()>))
    ensures Read(r.0, EventKey(EventId(event, now)), now) == Some(Text(event))
    ensures r.1.Failure? <==>
      EventId(event, now) == "queue" || (Read(s, QueueKey, now).Some? && Read(s, QueueKey, now).value.Text?)
  {
    var id := EventId(event, now);
    var s1 := SetEx(s, EventKey(id), event, EventTtl, now);
    EventKeyIsQueueKey(id);
    match LPush(s1, QueueKey, id, now)
    case Failure(e) => (s1, Failure(e))
    case Success(s2) =>
      match LTrim(s2, QueueKey, QueueCap, now)
      case Failure(e) => (s2, Failure(e))
      case Success(s3) => (s3, Success(()))
  }

  /** The one id that collides with the queue itself. */
  lemma EventKeyIsQueueKey(id: string)
    ensures EventKey(id) == QueueKey <==> id == "queue"
  {
    if EventKey(id) == QueueKey {
      assert id == EventKey(id)[|Channel| + 1..];
    }
  }

  /** A successful publish stores the event under `ei:events:<id>` until 60
      seconds later, and afterwards the queue starts with the id and holds
      at most 1000 ids: the previous queue's first 999 follow it. Nothing
      else changes. */
  lemma PublishStores(s: Store, event: Json, now: nat)
    requires PublishEvent(s, event, now).1.Success?
    ensures var r := PublishEvent(s, event, now).0;
      var id := EventId(event, now);
      var prev := ListAt(s, QueueKey, now);
      && id != "queue"
      && Read(r, EventKey(id), now) == Some(Text(event))
      && r[EventKey(id)].expiresAt == Some(now + 60000)
      && Read(r, QueueKey, now) == Some(List([id] + (if |prev| <= 999 then prev else prev[..999])))
      && (forall k :: k != EventKey(id) && k != QueueKey ==> Read(r, k, now) == Read(s, k, now))
  {
    var id := EventId(event, now);
    EventKeyIsQueueKey(id);
    var s1 := SetEx(s, EventKey(id), event, EventTtl, now);
    var s2 := LPush(s1, QueueKey, id, now).value;
    var prev := ListAt(s, QueueKey, now);
    assert ListAt(s1, QueueKey, now) == prev;
    var ids := [id] + prev;
    assert ListAt(s2, QueueKey, now) == ids;
    if |ids| > 1000 {
      assert ids[..1000] == [id] + prev[..999];
    }
  }

  /** The stored event is gone once its 60 seconds have passed. */
  lemma PublishedEventExpires(s: Store, event: Json, now: nat, later: int)
    requires PublishEvent(s, event, now).1.Success?
    requires later >= now + 60000
    ensures Read(PublishEvent(s, event, now).0, EventKey(EventId(event, now)), later).None?
  {
    PublishStores(s, event, now);
  }

  /** An event whose id is "queue" is stored over the queue itself, and the
      LPUSH that follows fails, so the publish rejects. The damage outlasts
      the call: for the next 60 seconds the queue key holds that event, so
      every poll and every publish fails with WRONGTYPE; once it expires the
      queue is gone, and a poll finds nothing, whatever was queued before. */
  lemma QueueIdClobbersQueue(s: Store, now: nat, since: int,
                             parseJson: string -> Option<Json>, parseDate: string -> Option<int>)
    ensures var event := JObj([Member("id", JStr("queue"))]);
      var r := PublishEvent(s, event, now);
      && EventKey(EventId(event, now)) == QueueKey
      && r.1.Failure?
      && (forall t: nat :: t < now + 60000 ==> Poll(r.0, since, t, parseJson, parseDate).Failure?)
      && (forall t: nat, e :: t < now + 60000 ==> PublishEvent(r.0, e, t).1.Failure?)
      && (forall t: nat :: t >= now + 60000 ==> Poll(r.0, since, t, parseJson, parseDate) == Success([]))
  {
    var event := JObj([Member("id", JStr("queue"))]);
    assert EventId(event, now) == "queue";
    EventKeyIsQueueKey("queue");
    var s1 := PublishEvent(s, event, now).0;
    assert s1 == SetEx(s, QueueKey, event, EventTtl, now);
    assert s1[QueueKey] == Entry(Text(event), Some(now + 60000));
  }

  /** `new Date(v).getTime()` for the value `event.timestamp || 0`: numbers
      are taken as they are within the range a Date can hold, booleans and
      null convert to 1 and 0, strings are parsed, and arrays and objects
      are parsed from their string conversion. None stands for NaN. */
  function DateTime(v: Json, parseDate: string -> Option<int>): Option<int> {
    match v
    case JNum(n) => if -8_640_000_000_000_000 <= n <= 8_640_000_000_000_000 then Some(n) else None
    case JBool(b) => Some(if b then 1 else 0)
    case JNull => Some(0)
    case JStr(t) => parseDate(t)
    case _ => parseDate(ToJsString(v))
  }

  /** The time `pollEvents` attributes to an event: a missing or falsy
      timestamp counts as 0. */
  function EventTime(event: Json, parseDate: string -> Option<int>): (t: Option<int>)
    ensures !Truthy(Prop(event, "timestamp")) ==> t == Some(0)
    ensures Truthy(Prop(event, "timestamp")) ==> t == DateTime(Prop(event, "timestamp").value, parseDate)
  {
    var ts := Prop(event, "timestamp");
    DateTime(if Truthy(ts) then ts.value else JNum(0), parseDate)
  }

  /** Strictly later than `since`; NaN compares false. */
  predicate Newer(event: Json, since: int, parseDate: string -> Option<int>) {
    var t := EventTime(event, parseDate);
    t.Some? && t.value > since
  }

  /** One iteration of the polling loop: the event of `id` when it is kept,
      None when it is skipped, or the error that rejects the poll. A falsy
      or missing value is skipped; a string is parsed as JSON (a parse error
      rejects); reading `timestamp` of null throws. */
  function Inspect(s: Store, id: string, since: int, now: int,
                   parseJson: string -> Option<Json>, parseDate: string -> Option<int>): (r: Result<Option<Json>>)
    ensures Read(s, EventKey(id), now).None? ==> r == Success(None)
    ensures r.Success? && r.value.Some? ==> Newer(r.value.value, since, parseDate)
  {
    match Get(s, EventKey(id), now)
    case Failure(e) => Failure(e)
    case Success(v) =>
      if !Truthy(v) then Success(None)
      else
        var event := if v.value.JStr? then parseJson(v.value.s) else v;
        if event.None? then Failure("SyntaxError: JSON.parse")
        else if event.value.JNull? then Failure("TypeError: Cannot read properties of null")
        else if Newer(event.value, since, parseDate) then Success(Some(event.value))
        else Success(None)
  }

  /** The loop over `ids`, in order, stopping at the first error. */
  function Collect(s: Store, ids: seq<string>, since: int, now: int,
                   parseJson: string -> Option<Json>, parseDate: string -> Option<int>): (r: Result<seq<Json>>)
    ensures r.Success? ==> |r.value| <= |ids|
    ensures r.Success? ==> forall k :: 0 <= k < |r.value| ==> Newer(r.value[k], since, parseDate)
    decreases |ids|
  {
    if ids == [] then Success([])
    else
      match Inspect(s, ids[0], since, now, parseJson, parseDate)
      case Failure(e) => Failure(e)
      case Success(o) => Prepend(if o.Some? then [o.value] else [], Collect(s, ids[1..], since, now, parseJson, parseDate))
  }

  function Prepend(xs: seq<Json>, r: Result<seq<Json>>): (p: Result<seq<Json>>)
    ensures r.Failure? ==> p == r
    ensures r.Success? ==> p == Success(xs + r.value)
  {
    match r
    case Failure(e) => Failure(e)
    case Success(ys) => Success(xs + ys)
  }

  /** `pollEvents(since)` as a whole. */
  function Poll(s: Store, since: int, now: int,
                parseJson: string -> Option<Json>, parseDate: string -> Option<int>): (r: Result<seq<Json>>)
    ensures Read(s, QueueKey, now).Some? && Read(s, QueueKey, now).value.Text? ==> r.Failure?
    ensures Read(s, QueueKey, now).None? ==> r == Success([])
    ensures r.Success? ==> |r.value| <= PollWindow
    ensures r.Success? ==> forall k :: 0 <= k < |r.value| ==> Newer(r.value[k], since, parseDate)
  {
    match LRange(s, QueueKey, PollWindow, now)
    case Failure(e) => Failure(e)
    case Success(ids) => Collect(s, ids, since, now, parseJson, parseDate)
  }

  /** The polling loop, one id at a time. */
  method PollEvents(s: Store, since: int, now: int,
                    parseJson: string -> Option<Json>, parseDate: string -> Option<int>)
    returns (r: Result<seq<Json>>)
    ensures r == Poll(s, since, now, parseJson, parseDate)
    ensures r.Success? ==> |r.value| <= PollWindow
    ensures r.Success? ==> forall k :: 0 <= k < |r.value| ==> Newer(r.value[k], since, parseDate)
  {
    var range := LRange(s, QueueKey, PollWindow, now);
    if range.Failure? {
      return Failure(range.error);
    }
    var ids := range.value;
    var events: seq<Json> := [];
    var i := 0;
    assert ids[0..] == ids;
    PrependEmpty(Collect(s, ids, since, now, parseJson, parseDate));
    while i < |ids|
      invariant 0 <= i <= |ids|
      invariant |events| <= i
      invariant forall k :: 0 <= k < |events| ==> Newer(events[k], since, parseDate)
      invariant Collect(s, ids, since, now, parseJson, parseDate)
             == Prepend(events, Collect(s, ids[i..], since, now, parseJson, parseDate))
    {
      assert ids[i..][1..] == ids[i + 1..];
      var o := Inspect(s, ids[i], since, now, parseJson, parseDate);
      if o.Failure? {
        return Failure(o.error);
      }
      var kept := if o.value.Some? then [o.value.value] else [];
      PrependTwice(events, kept, Collect(s, ids[i + 1..], since, now, parseJson, parseDate));
      events := events + kept;
      i := i + 1;
    }
    assert ids[i..] == [];
    assert events + [] == events;
    return Success(events);
  }

  lemma PrependEmpty(r: Result<seq<Json>>)
    ensures Prepend([], r) == r
  {
    if r.Success? {
      assert [] + r.value == r.value;
    }
  }

  lemma PrependTwice(xs: seq<Json>, ys: seq<Json>, r: Result<seq<Json>>)
    ensures Prepend(xs, Prepend(ys, r)) == Prepend(xs + ys, r)
  {
    if r.Success? {
      assert xs + (ys + r.value) == (xs + ys) + r.value;
    }
  }

  /** Order is kept: for a queue split into newer ids `a` and older ids
      `b`, the events of `a` come first, followed by those of `b`. */
  lemma {:induction false} CollectSplit(s: Store, a: seq<string>, b: seq<string>, since: int, now: int,
                                        parseJson: string -> Option<Json>, parseDate: string -> Option<int>)
    ensures var ra := Collect(s, a, since, now, parseJson, parseDate);
      Collect(s, a + b, since, now, parseJson, parseDate) ==
        if ra.Failure? then ra else Prepend(ra.value, Collect(s, b, since, now, parseJson, parseDate))
    decreases |a|
  {
    var rb := Collect(s, b, since, now, parseJson, parseDate);
    if a == [] {
      assert a + b == b;
      PrependEmpty(rb);
    } else {
      assert (a + b)[0] == a[0] && (a + b)[1..] == a[1..] + b;
      CollectSplit(s, a[1..], b, since, now, parseJson, parseDate);
      var o := Inspect(s, a[0], since, now, parseJson, parseDate);
      if o.Success? {
        var kept := if o.value.Some? then [o.value.value] else [];
        var rest := Collect(s, a[1..], since, now, parseJson, parseDate);
        if rest.Success? {
          PrependTwice(kept, rest.value, rb);
        }
      }
    }
  }

  /** Only the 50 newest ids are looked at: whatever the queue holds past
      them changes nothing in the result. */
  lemma PollReadsWindowOnly(s: Store, older: seq<string>, since: int, now: int,
                            parseJson: string -> Option<Json>, parseDate: string -> Option<int>)
    requires Read(s, QueueKey, now).Some? && Read(s, QueueKey, now).value.List?
    requires |ListAt(s, QueueKey, now)| >= PollWindow
    ensures var s' := s[QueueKey := Entry(List(ListAt(s, QueueKey, now) + older), s[QueueKey].expiresAt)];
      Poll(s', since, now, parseJson, parseDate) == Poll(s, since, now, parseJson, parseDate)
  {
    var ids := ListAt(s, QueueKey, now);
    var s' := s[QueueKey := Entry(List(ids + older), s[QueueKey].expiresAt)];
    assert (ids + older)[..PollWindow] == ids[..PollWindow];
    assert Read(s', QueueKey, now) == Some(List(ids + older));
    assert ListAt(s', QueueKey, now) == ids + older;
    if |ids + older| <= PollWindow {
      assert ids + older == ids[..PollWindow];
    }
    assert LRange(s', QueueKey, PollWindow, now) == Success(ids[..PollWindow]);
    assert LRange(s, QueueKey, PollWindow, now) == Success(ids[..PollWindow]);
    CollectIgnoresQueue(s, s', ids[..PollWindow], since, now, parseJson, parseDate);
  }

  /** The loop reads event keys only, so a store that differs on the queue
      alone yields the same loop (an id naming the queue itself meets a list
      in both, and fails alike). */
  lemma {:induction false} CollectIgnoresQueue(s: Store, s': Store, ids: seq<string>, since: int, now: int,
                                               parseJson: string -> Option<Json>, parseDate: string -> Option<int>)
    requires forall k :: k != QueueKey ==> Read(s', k, now) == Read(s, k, now)
    requires Read(s, QueueKey, now).Some? && Read(s, QueueKey, now).value.List?
    requires Read(s', QueueKey, now).Some? && Read(s', QueueKey, now).value.List?
    ensures Collect(s', ids, since, now, parseJson, parseDate) == Collect(s, ids, since, now, parseJson, parseDate)
    decreases |ids|
  {
    if ids != [] {
      GetIgnoresQueue(s, s', EventKey(ids[0]), now);
      assert Inspect(s', ids[0], since, now, parseJson, parseDate) == Inspect(s, ids[0], since, now, parseJson, parseDate);
      CollectIgnoresQueue(s, s', ids[1..], since, now, parseJson, parseDate);
    }
  }

  /** Reading a key in two stores that differ on the queue alone, where both
      hold a list there. */
  lemma GetIgnoresQueue(s: Store, s': Store, k: string, now: int)
    requires forall k :: k != QueueKey ==> Read(s', k, now) == Read(s, k, now)
    requires Read(s, QueueKey, now).Some? && Read(s, QueueKey, now).value.List?
    requires Read(s', QueueKey, now).Some? && Read(s', QueueKey, now).value.List?
    ensures Get(s', k, now) == Get(s, k, now)
  {
    if k != QueueKey {
      assert Read(s', k, now) == Read(s, k, now);
    }
  }

  /** Only events strictly later than `since` are returned: an event with
      no or a falsy timestamp counts as time 0, and one whose timestamp
      does not parse as a date is never returned. */
  lemma TimestampRules(event: Json, since: int, parseDate: string -> Option<int>)
    ensures !Truthy(Prop(event, "timestamp")) ==> (Newer(event, since, parseDate) <==> since < 0)
    ensures Prop(event, "timestamp") == Some(JNum(since)) && since != 0 ==> !Newer(event, since, parseDate)
    ensures forall t :: Prop(event, "timestamp") == Some(JStr(t)) && t != "" && parseDate(t).None? ==>
      !Newer(event, since, parseDate)
  {
  }

  /** An expired or never-stored id contributes nothing. */
  lemma ExpiredSkipped(s: Store, id: string, since: int, now: int,
                       parseJson: string -> Option<Json>, parseDate: string -> Option<int>)
    requires EventKey(id) !in s || (s[EventKey(id)].expiresAt.Some? && now >= s[EventKey(id)].expiresAt.value)
    ensures Inspect(s, id, since, now, parseJson, parseDate) == Success(None)
  {
  }

  /** Publishing the same event twice overwrites its stored value but queues
      its id twice, so a successful poll right after returns it twice, first
      and second. */
  lemma DuplicateReturnedTwice(s: Store, event: Json, now: nat, since: int,
                               parseJson: string -> Option<Json>, parseDate: string -> Option<int>)
    requires event.JObj? && Truthy(Prop(event, "id"))
    requires PublishEvent(s, event, now).1.Success?
    requires PublishEvent(PublishEvent(s, event, now).0, event, now).1.Success?
    requires Newer(event, since, parseDate)
    ensures var s2 := PublishEvent(PublishEvent(s, event, now).0, event, now).0;
      var r := Poll(s2, since, now, parseJson, parseDate);
      r.Success? ==> |r.value| >= 2 && r.value[0] == event && r.value[1] == event
  {
    var s1 := PublishEvent(s, event, now).0;
    var s2 := PublishEvent(s1, event, now).0;
    var id := EventId(event, now);
    PublishStores(s, event, now);
    PublishStores(s1, event, now);
    var ids := ListAt(s2, QueueKey, now);
    assert ids[0] == id && ids[1] == id;
    var window := if |ids| <= PollWindow then ids else ids[..PollWindow];
    assert window[0] == id && window[1] == id;
    assert Poll(s2, since, now, parseJson, parseDate) == Collect(s2, window, since, now, parseJson, parseDate);
    InspectStored(s2, id, event, since, now, parseJson, parseDate);
    CollectRepeated(s2, window, event, since, now, parseJson, parseDate);
  }

  /** A stored object that is newer than `since` is kept by the loop. */
  lemma InspectStored(s: Store, id: string, event: Json, since: int, now: int,
                      parseJson: string -> Option<Json>, parseDate: string -> Option<int>)
    requires event.JObj? && Newer(event, since, parseDate)
    requires Read(s, EventKey(id), now) == Some(Text(event))
    ensures Inspect(s, id, since, now, parseJson, parseDate) == Success(Some(event))
  {
    assert Get(s, EventKey(id), now) == Success(Some(event));
  }

  /** A window that starts with the same kept id twice yields its event
      twice, first and second, unless a later id fails the poll. */
  lemma CollectRepeated(s: Store, ids: seq<string>, event: Json, since: int, now: int,
                        parseJson: string -> Option<Json>, parseDate: string -> Option<int>)
    requires |ids| >= 2 && ids[1] == ids[0]
    requires Inspect(s, ids[0], since, now, parseJson, parseDate) == Success(Some(event))
    ensures var r := Collect(s, ids, since, now, parseJson, parseDate);
      r.Success? ==> |r.value| >= 2 && r.value[0] == event && r.value[1] == event
  {
    var rest2 := Collect(s, ids[2..], since, now, parseJson, parseDate);
    assert ids[1..][0] == ids[0] && ids[1..][1..] == ids[2..];
    assert Collect(s, ids[1..], since, now, parseJson, parseDate) == Prepend([event], rest2);
    assert Collect(s, ids, since, now, parseJson, parseDate) == Prepend([event], Prepend([event], rest2));
  }
}

=== FILE: eventstream.dfy ===
/** The receiving side of the event-stream format of the WHATWG HTML Living
    Standard, section 9.2.6 ("Interpreting an event stream"): the text is
    cut into lines at CR, LF or CRLF; a blank line dispatches the buffered
    event; a line that starts with a colon is a comment; any other line is a
    field, split at its first colon, with one leading space of the value
    dropped. Only the `data` and `event` fields are kept here: `id` and
    `retry` do not change the message a listener receives.

    Together with the frames the stream route writes, this gives the frames
    a meaning: what the browser's `EventSource` hands to `onmessage`. */
module EventStream {
  import opened Json

  /** A dispatched message: its event type and its data. */
  datatype Message = Message(eventType: string, data: string)

  /** The parser's state: the current incomplete line, the data and
      event-type buffers, whether the previous character was a CR (so that a
      following LF belongs to the same line break), and the messages
      dispatched so far. */
  datatype Parser = Parser(line: string, data: string, eventType: string, afterCR: bool, out: seq<Message>)

  const Initial: Parser := Parser("", "", "", false, [])

  /** Between events: nothing buffered. */
  predicate Idle(p: Parser) {
    p.line == "" && p.data == "" && p.eventType == "" && !p.afterCR
  }

  /** The position of the first colon of a line, or its length. */
  function ColonIndex(line: string): (n: nat)
    ensures n <= |line|
    ensures forall i :: 0 <= i < n ==> line[i] != ':'
    ensures n < |line| ==> line[n] == ':'
  {
    if |line| == 0 || line[0] == ':' then 0 else 1 + ColonIndex(line[1..])
  }

  /** A field line's name and value: everything before the first colon, and
      everything after it less one leading space; a line without a colon is
      a name with an empty value. */
  function Field(line: string): (r: (string, string))
    ensures ':' !in r.0
    ensures ':' !in line ==> r == (line, "")
  {
    var n := ColonIndex(line);
    if n == |line| then (line, "")
    else
      var v := line[n + 1..];
      (line[..n], if |v| > 0 && v[0] == ' ' then v[1..] else v)
  }

  /** Dispatch at a blank line: an empty data buffer dispatches nothing;
      otherwise the final LF of the buffer is removed and the message gets
      the buffered type, "message" by default. Both buffers are cleared. */
  function Dispatch(p: Parser): (r: Parser)
    ensures r.data == "" && r.eventType == "" && r.line == p.line && r.afterCR == p.afterCR
    ensures p.data == "" ==> r.out == p.out
    ensures p.data != "" ==> |r.out| == |p.out| + 1 && r.out[..|p.out|] == p.out
  {
    if p.data == "" then p.(eventType := "")
    else
      var d := if p.data[|p.data| - 1] == '\n' then p.data[..|p.data| - 1] else p.data;
      var m := Message(if p.eventType == "" then "message" else p.eventType, d);
      p.(data := "", eventType := "", out := p.out + [m])
  }

  function ProcessLine(p: Parser, line: string): Parser {
    if line == "" then Dispatch(p)
    else if line[0] == ':' then p
    else
      var (name, value) := Field(line);
      if name == "data" then p.(data := p.data + value + "\n")
      else if name == "event" then p.(eventType := value)
      else p
  }

  /** One character of input. */
  function Step(p: Parser, c: char): Parser {
    if p.afterCR && c == '\n' then p.(afterCR := false)
    else if c == '\r' || c == '\n' then ProcessLine(p.(line := "", afterCR := c == '\r'), p.line)
    else p.(line := p.line + [c], afterCR := false)
  }

  /** The parser after reading `s`. */
  function Feed(p: Parser, s: string): Parser
    decreases |s|
  {
    if s == "" then p else Feed(Step(p, s[0]), s[1..])
  }

  /** Reading a text in two chunks is reading it at once: how the text is cut
      into network chunks does not matter. */
  lemma {:induction false} FeedConcat(p: Parser, a: string, b: string)
    ensures Feed(p, a + b) == Feed(Feed(p, a), b)
    decreases |a|
  {
    if a != "" {
      assert (a + b)[0] == a[0];
      assert (a + b)[1..] == a[1..] + b;
      FeedConcat(Step(p, a[0]), a[1..], b);
    } else {
      assert a + b == b;
    }
  }

  /** The blank line that closes a frame. */
  lemma FeedBlank(p: Parser)
    ensures Feed(p, "\n\n") == Step(Step(p, '\n'), '\n')
  {
    assert "\n\n"[1..] == "\n";
    assert "\n"[1..] == "";
  }

  /** Text without line breaks only extends the current line. */
  lemma {:induction false} FeedText(p: Parser, s: string)
    requires SingleLine(s) && s != ""
    ensures Feed(p, s) == p.(line := p.line + s, afterCR := false)
    decreases |s|
  {
    var q := Step(p, s[0]);
    assert q == p.(line := p.line + [s[0]], afterCR := false);
    if |s| > 1 {
      FeedText(q, s[1..]);
      assert p.line + [s[0]] + s[1..] == p.line + s;
    }
  }

  /** The frames a server writes: one data line, or one comment line, each
      closed by a blank line. */
  datatype Frame = Data(payload: string) | Comment(text: string)

  function Render(f: Frame): string {
    match f
    case Data(payload) => "data: " + payload + "\n\n"
    case Comment(text) => ":" + text + "\n\n"
  }

  function RenderAll(fs: seq<Frame>): string {
    if fs == [] then "" else Render(fs[0]) + RenderAll(fs[1..])
  }

  /** Every frame's text is one line. */
  predicate FramesWellFormed(fs: seq<Frame>) {
    forall i :: 0 <= i < |fs| ==>
      match fs[i]
      case Data(payload) => SingleLine(payload)
      case Comment(text) => SingleLine(text)
  }

  /** What a listener receives for a sequence of frames: one "message" per
      data frame, carrying its payload, and nothing for comments. */
  function Delivered(fs: seq<Frame>): seq<Message> {
    if fs == [] then []
    else (if fs[0].Data? then [Message("message", fs[0].payload)] else []) + Delivered(fs[1..])
  }

  lemma DataField(payload: string)
    requires SingleLine(payload)
    ensures Field("data: " + payload) == ("data", payload)
  {
    var line := "data: " + payload;
    assert line[..4] == "data" && line[4] == ':';
    assert ColonIndex(line) == 4 by {
      assert line[1..][1..][1..][1..][0] == ':';
    }
    assert line[5..] == " " + payload;
  }

  /** A line of text followed by its blank line. */
  lemma FeedFrame(p: Parser, line: string)
    requires SingleLine(line) && line != ""
    ensures Feed(p, line + "\n\n") == Step(Step(p.(line := p.line + line, afterCR := false), '\n'), '\n')
  {
    FeedText(p, line);
    FeedConcat(p, line, "\n\n");
    FeedBlank(p.(line := p.line + line, afterCR := false));
  }

  lemma DataLine(p: Parser, payload: string)
    requires Idle(p) && SingleLine(payload)
    ensures Step(p.(line := "data: " + payload), '\n') == p.(data := payload + "\n")
  {
    DataField(payload);
  }

  /** A data frame read between events dispatches exactly its payload and
      leaves the parser idle again. */
  lemma DataFrameParses(p: Parser, payload: string)
    requires Idle(p) && SingleLine(payload)
    ensures Feed(p, Render(Data(payload))) == p.(out := p.out + [Message("message", payload)])
  {
    var line := "data: " + payload;
    assert SingleLine(line) by {
      SingleLineConcat("data: ", payload);
    }
    calc {
      Feed(p, Render(Data(payload)));
      { assert Render(Data(payload)) == line + "\n\n"; }
      Feed(p, line + "\n\n");
      { FeedFrame(p, line); assert p.line + line == line; }
      Step(Step(p.(line := line, afterCR := false), '\n'), '\n');
      { DataLine(p, payload); }
      Step(p.(data := payload + "\n"), '\n');
      { DataDispatch(p, payload); }
      p.(out := p.out + [Message("message", payload)]);
    }
  }

  /** The blank line after a data line dispatches the payload. */
  lemma DataDispatch(p: Parser, payload: string)
    requires Idle(p)
    ensures Step(p.(data := payload + "\n"), '\n') == p.(out := p.out + [Message("message", payload)])
  {
    assert (payload + "\n")[..|payload|] == payload;
  }

  /** A comment frame dispatches nothing. */
  lemma CommentFrameParses(p: Parser, text: string)
    requires Idle(p) && SingleLine(text)
    ensures Feed(p, Render(Comment(text))) == p
  {
    var line := ":" + text;
    assert SingleLine(line) by {
      SingleLineConcat(":", text);
    }
    assert Render(Comment(text)) == line + "\n\n";
    FeedFrame(p, line);
    assert p.line + line == line;
    assert Step(p.(line := line), '\n') == p;
  }

  /** The messages a listener receives from well-formed frames, in order,
      are those the frames were written for. */
  lemma {:induction false} FramesParse(p: Parser, fs: seq<Frame>)
    requires Idle(p) && FramesWellFormed(fs)
    ensures Feed(p, RenderAll(fs)) == p.(out := p.out + Delivered(fs))
    decreases |fs|
  {
    if fs != [] {
      var f, rest := fs[0], fs[1..];
      assert FramesWellFormed([f]) && FramesWellFormed(rest) by {
        forall i | 0 <= i < |rest| ensures rest[i] == fs[i + 1] {}
        assert [f][0] == fs[0];
      }
      var p1 := p.(out := p.out + Delivered([f]));
      calc {
        Feed(p, RenderAll(fs));
        { FeedConcat(p, Render(f), RenderAll(rest)); }
        Feed(Feed(p, Render(f)), RenderAll(rest));
        { FrameParses(p, f); }
        Feed(p1, RenderAll(rest));
        { FramesParse(p1, rest); }
        p1.(out := p1.out + Delivered(rest));
        { DeliveredCons(fs); }
        p.(out := p.out + Delivered(fs));
      }
    }
  }

  lemma DeliveredCons(fs: seq<Frame>)
    requires fs != []
    ensures Delivered(fs) == Delivered([fs[0]]) + Delivered(fs[1..])
  {
    assert [fs[0]][1..] == [];
  }

  lemma FrameParses(p: Parser, f: Frame)
    requires Idle(p)
    requires FramesWellFormed([f])
    ensures Feed(p, Render(f)) == p.(out := p.out + Delivered([f]))
  {
    assert [f][0] == f;
    match f {
      case Data(payload) =>
        DataFrameParses(p, payload);
      case Comment(text) =>
        CommentFrameParses(p, text);
    }
  }

  /** A whole stream read from the start. */
  lemma StreamParses(fs: seq<Frame>)
    requires FramesWellFormed(fs)
    ensures Feed(Initial, RenderAll(fs)).out == Delivered(fs)
  {
    FramesParse(Initial, fs);
  }
}

=== FILE: hub.dfy ===
/** The event path as the two routes use it: one process-wide emitter with
    the single topic "event". The ingestion route emits each accepted event
    on it; every open stream registered its handler with `on` and removes it
    with `off` on abort.

    The emitter follows Node's `EventEmitter`: `on` appends a listener,
    `emit` calls the listeners registered when it starts, in registration
    order, and `off` removes the most recently added occurrence of the
    listener. A listener here is the index of its connection, used as its
    handler identity. */
module Hub {
  import opened Optional
  import opened Json
  import Ingest
  import StreamRoute
  import ChannelBus

  datatype Hub = Hub(conns: seq<StreamRoute.Conn>, listeners: seq<nat>)

  const Empty: Hub := Hub([], [])

  /** Each connection's handler is registered exactly when the connection
      says it is listening, and at most once. */
  predicate Valid(h: Hub) {
    && ChannelBus.Distinct(h.listeners)
    && (forall k :: 0 <= k < |h.listeners| ==> h.listeners[k] < |h.conns|)
    && (forall i :: 0 <= i < |h.conns| ==> (h.conns[i].listening <==> i in h.listeners))
    && (forall i :: 0 <= i < |h.conns| ==> StreamRoute.Coherent(h.conns[i]))
  }

  /** `off`: remove the last occurrence of `x`, keep the rest in order. */
  function Off(xs: seq<nat>, x: nat): (r: seq<nat>)
    ensures x !in xs ==> r == xs
    ensures forall y :: y in r ==> y in xs
    ensures ChannelBus.Distinct(xs) ==> ChannelBus.Distinct(r) && x !in r && forall y :: y in xs && y != x ==> y in r
    ensures ChannelBus.Distinct(xs) ==> forall i :: 0 <= i < |xs| && xs[i] == x ==> r == xs[..i] + xs[i + 1..]
    decreases |xs|
  {
    if xs == [] then []
    else if xs[|xs| - 1] == x then
      OffLast(xs, x);
      xs[..|xs| - 1]
    else
      var rest := Off(xs[..|xs| - 1], x);
      assert forall y :: y in xs ==> y in xs[..|xs| - 1] || y == xs[|xs| - 1];
      assert ChannelBus.Distinct(xs) ==> xs[|xs| - 1] !in xs[..|xs| - 1];
      OffKeepLast(xs, x, rest);
      rest + [xs[|xs| - 1]]
  }

  /** The step of `Off` that drops the last listener. */
  lemma OffLast(xs: seq<nat>, x: nat)
    requires xs != [] && xs[|xs| - 1] == x
    ensures ChannelBus.Distinct(xs) ==> forall i :: 0 <= i < |xs| && xs[i] == x ==> xs[..|xs| - 1] == xs[..i] + xs[i + 1..]
  {
    if ChannelBus.Distinct(xs) {
      forall i | 0 <= i < |xs| && xs[i] == x ensures xs[..|xs| - 1] == xs[..i] + xs[i + 1..] {
        assert i == |xs| - 1;
      }
    }
  }

  /** The step of `Off` that keeps the last listener. */
  lemma OffKeepLast(xs: seq<nat>, x: nat, rest: seq<nat>)
    requires xs != [] && xs[|xs| - 1] != x
    requires var init := xs[..|xs| - 1];
      ChannelBus.Distinct(init) ==> forall i :: 0 <= i < |init| && init[i] == x ==> rest == init[..i] + init[i + 1..]
    ensures ChannelBus.Distinct(xs) ==>
      forall i :: 0 <= i < |xs| && xs[i] == x ==> rest + [xs[|xs| - 1]] == xs[..i] + xs[i + 1..]
  {
    var init := xs[..|xs| - 1];
    if ChannelBus.Distinct(xs) {
      assert ChannelBus.Distinct(init);
      forall i | 0 <= i < |xs| && xs[i] == x ensures rest + [xs[|xs| - 1]] == xs[..i] + xs[i + 1..] {
        assert init[i] == x;
        assert init[..i] == xs[..i];
        assert xs[i + 1..] == init[i + 1..] + [xs[|xs| - 1]];
      }
    }
  }

  /** A stream request opens a connection and registers its handler,
      unless its signal had already fired, in which case the guarded `start`
      cleans up at once and nothing stays registered. */
  function Connect(h: Hub, q: StreamRoute.Query, isoNow: string, signalAborted: bool): (r: (Hub, nat))
    requires Valid(h)
    ensures Valid(r.0)
    ensures r.1 == |h.conns| && r.0.conns == h.conns + [StreamRoute.OpenGuarded(q, isoNow, signalAborted).1]
    ensures r.1 in r.0.listeners <==> !signalAborted
    ensures forall j :: j in h.listeners <==> j in r.0.listeners && j != r.1
  {
    var c := StreamRoute.OpenGuarded(q, isoNow, signalAborted).1;
    var r := Hub(h.conns + [c], h.listeners + if signalAborted then [] else [|h.conns|]);
    assert forall i :: 0 <= i < |h.conns| ==> r.conns[i] == h.conns[i];
    (r, |h.conns|)
  }

  /** Call each listener of `ls` in turn with the payload. */
  function EmitTo(conns: seq<StreamRoute.Conn>, ls: seq<nat>, payload: Json): (r: seq<StreamRoute.Conn>)
    requires forall k :: 0 <= k < |ls| ==> ls[k] < |conns|
    ensures |r| == |conns|
    decreases |ls|
  {
    if ls == [] then conns
    else
      var i := ls[0];
      EmitTo(conns[i := StreamRoute.Handle(conns[i], payload)], ls[1..], payload)
  }

  /** `emit("event", payload)`. */
  function Emit(h: Hub, payload: Json): (r: Hub)
    requires Valid(h)
    ensures r.listeners == h.listeners && |r.conns| == |h.conns|
  {
    Hub(EmitTo(h.conns, h.listeners, payload), h.listeners)
  }

  /** Each listed connection receives the payload once; the others are
      untouched. */
  lemma {:induction false} EmitToEach(conns: seq<StreamRoute.Conn>, ls: seq<nat>, payload: Json)
    requires forall k :: 0 <= k < |ls| ==> ls[k] < |conns|
    requires ChannelBus.Distinct(ls)
    ensures forall i :: 0 <= i < |conns| ==>
      EmitTo(conns, ls, payload)[i] == if i in ls then StreamRoute.Handle(conns[i], payload) else conns[i]
    decreases |ls|
  {
    if ls != [] {
      var x := ls[0];
      var next := conns[x := StreamRoute.Handle(conns[x], payload)];
      assert ChannelBus.Distinct(ls[1..]);
      EmitToEach(next, ls[1..], payload);
      forall i | 0 <= i < |conns|
        ensures EmitTo(conns, ls, payload)[i] == if i in ls then StreamRoute.Handle(conns[i], payload) else conns[i]
      {
        assert i in ls <==> i == x || i in ls[1..];
        if i == x {
          assert x !in ls[1..];
        }
      }
    }
  }

  /** Emitting hands the payload to every registered handler, once, and to
      no other connection. */
  lemma EmitDelivers(h: Hub, payload: Json)
    requires Valid(h)
    ensures Valid(Emit(h, payload))
    ensures forall i :: 0 <= i < |h.conns| ==>
      Emit(h, payload).conns[i] == if h.conns[i].listening then StreamRoute.Handle(h.conns[i], payload) else h.conns[i]
  {
    EmitToEach(h.conns, h.listeners, payload);
  }

  /** The request of connection `i` is aborted: its cleanup runs (only the
      first time) and `off` removes its handler. */
  function Abort(h: Hub, i: nat): (r: Hub)
    requires Valid(h) && i < |h.conns|
    ensures Valid(r)
    ensures r.conns == h.conns[i := StreamRoute.Abort(h.conns[i])]
    ensures i !in r.listeners
    ensures forall j :: j in h.listeners && j != i ==> j in r.listeners
  {
    var c := h.conns[i];
    if !c.armed then
      assert i !in h.listeners;
      h
    else
      var r := Hub(h.conns[i := StreamRoute.Abort(c)], Off(h.listeners, i));
      assert forall k :: 0 <= k < |r.listeners| ==> r.listeners[k] in h.listeners;
      r
  }

  /** A heartbeat tick of connection `i`. */
  function Tick(h: Hub, i: nat): (r: Hub)
    requires Valid(h) && i < |h.conns|
    ensures Valid(r)
    ensures r == h.(conns := h.conns[i := StreamRoute.Tick(h.conns[i])])
  {
    h.(conns := h.conns[i := StreamRoute.Tick(h.conns[i])])
  }

  /** An ingestion request: POST answers, and an accepted event is emitted
      once, as the JSON object the route built. */
  function IngestRequest(h: Hub, body: Option<Json>, now: nat, isoNow: string): (r: (Hub, Ingest.Response))
    requires Valid(h)
    ensures Valid(r.0)
    ensures r.1 == Ingest.Post(body, now, isoNow).response
    ensures Ingest.Post(body, now, isoNow).emitted.None? ==> r.0 == h
    ensures Ingest.Post(body, now, isoNow).emitted.Some? ==>
      r.0 == Emit(h, Ingest.EventToJson(Ingest.Post(body, now, isoNow).emitted.value))
  {
    var o := Ingest.Post(body, now, isoNow);
    if o.emitted.Some? then
      var e := Ingest.EventToJson(o.emitted.value);
      EmitDelivers(h, e);
      (Emit(h, e), o.response)
    else (h, o.response)
  }

  /** Which open streams an ingested event reaches: the session filter
      compares with the event's `ei_session` parameter when that is a
      string, the project filter with the matched project's id. */
  lemma AcceptsIngested(q: StreamRoute.Query, e: Ingest.Event)
    ensures StreamRoute.Accepts(q, Ingest.EventToJson(e)) <==>
      && (StreamRoute.Given(q.session) ==>
            Lookup(e.params, "ei_session") == Some(JStr(q.session.value)))
      && (StreamRoute.Given(q.projectId) ==> e.projectId == q.projectId.value)
  {
  }

  /** The end-to-end promise: after an accepted POST, each open stream that
      is registered, writable and whose filters match gains exactly one
      frame, `data: {"type":"event","evt":…}`; every other stream is left as
      it was. A refused POST changes no stream. */
  lemma IngestFanOut(h: Hub, body: Option<Json>, now: nat, isoNow: string, i: nat)
    requires Valid(h) && i < |h.conns|
    ensures var o := Ingest.Post(body, now, isoNow);
      var c := h.conns[i];
      var c' := IngestRequest(h, body, now, isoNow).0.conns[i];
      if o.emitted.Some? && c.listening && c.writable
         && StreamRoute.Accepts(c.query, Ingest.EventToJson(o.emitted.value))
      then c'.frames == c.frames + [StreamRoute.EventFrame(Ingest.EventToJson(o.emitted.value))]
      else c' == c
  {
    var o := Ingest.Post(body, now, isoNow);
    if o.emitted.Some? {
      EmitDelivers(h, Ingest.EventToJson(o.emitted.value));
    }
  }

  /** An aborted stream receives nothing from later ingestion. */
  lemma AbortedStreamHearsNothing(h: Hub, i: nat, body: Option<Json>, now: nat, isoNow: string)
    requires Valid(h) && i < |h.conns|
    ensures var h1 := Abort(h, i);
      IngestRequest(h1, body, now, isoNow).0.conns[i] == h1.conns[i]
  {
    var h1 := Abort(h, i);
    IngestFanOut(h1, body, now, isoNow, i);
  }
}

=== FILE: ingest.dfy ===
/** The ingestion endpoint (`app/api/ingest/route.ts`): the CORS pre-flight
    answer and the POST handler that authenticates a write key, shapes the
    canonical event and hands it to the event emitter.

    The request body arrives as the value `request.json()` resolved to, or
    None when that promise rejected (an unparseable body). `Date.now()` and
    `new Date().toISOString()` are the parameters `now` and `isoNow`. */
module Ingest {
  import opened Optional
  import opened Text
  import opened Json
  import Directory
  import ChannelBus

  datatype Header = Header(name: string, value: string)

  /** The headers every ingestion response carries (section 3.2 of the Fetch
      Standard): any origin, POST and OPTIONS, and a Content-Type header. */
  const CorsHeaders: seq<Header> := [
    Header("Access-Control-Allow-Origin", "*"),
    Header("Access-Control-Allow-Methods", "POST, OPTIONS"),
    Header("Access-Control-Allow-Headers", "Content-Type")
  ]

  /** A response: status, JSON body (None for an empty body), headers. */
  datatype Response = Response(status: nat, body: Option<Json>, headers: seq<Header>)

  /** The event object POST builds. Only `projectId` is certainly a string:
      the other fields keep whatever truthy value the caller sent. */
  datatype Event = Event(id: Json, projectId: string, name: Json, url: Json, timestamp: Json, params: seq<Member>)

  /** POST's answer and the event it emitted, if any. */
  datatype Outcome = Outcome(response: Response, emitted: Option<Event>)

  const ServerErrorBody: Json := JObj([Member("error", JStr("Internal server error"))])
  const MissingKeyBody: Json := JObj([Member("error", JStr("Missing writeKey"))])
  const InvalidKeyHint: string := "Check that your writeKey matches your project configuration"

  /** The event as the JavaScript object literal lays it out. */
  function EventToJson(e: Event): (j: Json)
    ensures j.JObj?
    ensures Prop(j, "projectId") == Some(JStr(e.projectId))
    ensures Prop(j, "params") == Some(JObj(e.params))
    ensures Prop(j, "id") == Some(e.id) && Prop(j, "name") == Some(e.name)
    ensures Prop(j, "url") == Some(e.url) && Prop(j, "timestamp") == Some(e.timestamp)
  {
    EventFields(e);
    JObj(EventMembers(e))
  }

  function EventMembers(e: Event): seq<Member> {
    [ Member("id", e.id),
      Member("projectId", JStr(e.projectId)),
      Member("name", e.name),
      Member("url", e.url),
      Member("timestamp", e.timestamp),
      Member("params", JObj(e.params)) ]
  }

  lemma EventFields(e: Event)
    ensures var ms := EventMembers(e);
      && Lookup(ms, "id") == Some(e.id)
      && Lookup(ms, "projectId") == Some(JStr(e.projectId))
      && Lookup(ms, "name") == Some(e.name)
      && Lookup(ms, "url") == Some(e.url)
      && Lookup(ms, "timestamp") == Some(e.timestamp)
      && Lookup(ms, "params") == Some(JObj(e.params))
  {
    var ms := EventMembers(e);
    assert DistinctKeys(ms);
    LookupDistinct(ms, 0);
    LookupDistinct(ms, 1);
    LookupDistinct(ms, 2);
    LookupDistinct(ms, 3);
    LookupDistinct(ms, 4);
    LookupDistinct(ms, 5);
  }

  /** `writeKey.substring(0, 12) + '...'`. */
  function Received(writeKey: string): (r: string)
    ensures |writeKey| <= 12 ==> r == writeKey + "..."
    ensures |writeKey| > 12 ==> |r| == 15 && r[..12] == writeKey[..12] && EndsWith(r, "...")
  {
    (if |writeKey| <= 12 then writeKey else writeKey[..12]) + "..."
  }

  /** The first truthy value of the two, as `a || b` gives it. */
  function Or(a: Option<Json>, b: Json): (r: Json)
    ensures Truthy(a) ==> r == a.value
    ensures !Truthy(a) ==> r == b
  {
    if Truthy(a) then a.value else b
  }

  /** `{ ...params, ei_session: params?.ei_session || null }`. */
  function ShapeParams(params: Option<Json>): seq<Member> {
    var copied := if params.Some? then OwnEntries(params.value) else [];
    Assign(copied, "ei_session", Or(OptProp(params, "ei_session"), JNull))
  }

  /** The event built for an authenticated request. */
  function ShapeEvent(body: Json, projectId: string, now: nat, isoNow: string): Event {
    var params := Prop(body, "params");
    Event(
      Or(OptProp(params, "event_id"), JStr("evt_" + NatToString(now))),
      projectId,
      Or(Prop(body, "name"), JStr("unknown")),
      Or(Prop(body, "url"), JStr("")),
      Or(OptProp(params, "timestamp"), JStr(isoNow)),
      ShapeParams(params))
  }

  /** The pre-flight answer. */
  function Options(): (r: Response)
    ensures r.status == 204 && r.body.None? && r.headers == CorsHeaders
  {
    Response(204, None, CorsHeaders)
  }

  /** The write key's project: a strict comparison, so only a string key can
      match. */
  function ResolveKey(writeKey: Json): (r: Option<Directory.Project>)
    ensures r.Some? <==> writeKey.JStr? && Directory.GetProjectByWriteKey(writeKey.s).Some?
    ensures r.Some? ==> r == Directory.GetProjectByWriteKey(writeKey.s)
  {
    if writeKey.JStr? then Directory.GetProjectByWriteKey(writeKey.s) else None
  }

  /** The POST handler. */
  function Post(body: Option<Json>, now: nat, isoNow: string): (o: Outcome)
    ensures o.response.headers == CorsHeaders
    ensures o.emitted.Some? <==> o.response.status == 200
    ensures o.emitted.Some? ==> body.Some? && o.emitted.value == ShapeEvent(body.value, o.emitted.value.projectId, now, isoNow)
    // an unparseable or null body throws inside the try block
    ensures body.None? || body.value.JNull? ==>
      o.response == Response(500, Some(ServerErrorBody), CorsHeaders)
    ensures body.Some? && !body.value.JNull? ==>
      var wk := Prop(body.value, "writeKey");
      && (!Truthy(wk) ==> o.response == Response(400, Some(MissingKeyBody), CorsHeaders))
      && (Truthy(wk) && wk.value.JStr? && ResolveKey(wk.value).None? ==>
            o.response.status == 401 && o.emitted.None?
            && o.response.body == Some(JObj([
                 Member("error", JStr("Invalid writeKey")),
                 Member("hint", JStr(InvalidKeyHint)),
                 Member("received", JStr(Received(wk.value.s)))])))
      // a truthy key that is not a string has no `substring` method
      && (Truthy(wk) && !wk.value.JStr? ==> o.response == Response(500, Some(ServerErrorBody), CorsHeaders))
      && (Truthy(wk) && ResolveKey(wk.value).Some? ==>
            && o.emitted.Some?
            && o.emitted.value.projectId == ResolveKey(wk.value).value.id
            && o.response.status == 200
            && o.response.body == Some(JObj([Member("success", JBool(true)), Member("eventId", o.emitted.value.id)])))
  {
    if body.None? || body.value.JNull? then
      Outcome(Response(500, Some(ServerErrorBody), CorsHeaders), None)
    else
      var wk := Prop(body.value, "writeKey");
      if !Truthy(wk) then
        Outcome(Response(400, Some(MissingKeyBody), CorsHeaders), None)
      else
        var project := ResolveKey(wk.value);
        if project.None? then
          if wk.value.JStr? then
            var reply := JObj([
              Member("error", JStr("Invalid writeKey")),
              Member("hint", JStr(InvalidKeyHint)),
              Member("received", JStr(Received(wk.value.s)))]);
            Outcome(Response(401, Some(reply), CorsHeaders), None)
          else
            Outcome(Response(500, Some(ServerErrorBody), CorsHeaders), None)
        else
          var event := ShapeEvent(body.value, project.value.id, now, isoNow);
          var reply := JObj([Member("success", JBool(true)), Member("eventId", event.id)]);
          Outcome(Response(200, Some(reply), CorsHeaders), Some(event))
  }

  /** How the emitted event is shaped from the request: the id and the
      timestamp come from `params` when truthy, name and url fall back to
      "unknown" and "" (neither is rejected), and the event's params are the
      inbound params with `ei_session` present and either the inbound
      truthy value or null. */
  lemma EventShaping(body: Json, now: nat, isoNow: string, k: string)
    requires Post(Some(body), now, isoNow).emitted.Some?
    ensures var e := Post(Some(body), now, isoNow).emitted.value;
      var params := Prop(body, "params");
      && e.id == (if Truthy(OptProp(params, "event_id")) then OptProp(params, "event_id").value
                  else JStr("evt_" + NatToString(now)))
      && e.timestamp == (if Truthy(OptProp(params, "timestamp")) then OptProp(params, "timestamp").value
                         else JStr(isoNow))
      && e.name == (if Truthy(Prop(body, "name")) then Prop(body, "name").value else JStr("unknown"))
      && e.url == (if Truthy(Prop(body, "url")) then Prop(body, "url").value else JStr(""))
      && Lookup(e.params, "ei_session") == Some(if Truthy(OptProp(params, "ei_session"))
                                                then OptProp(params, "ei_session").value else JNull)
      && (params.Some? && params.value.JObj? && k != "ei_session" ==>
            Lookup(e.params, k) == Prop(params.value, k))
      && (params.None? && k != "ei_session" ==> Lookup(e.params, k).None?)
  {
  }

  /** With object params, the event's params keep the inbound members in
      their order, with `ei_session` overwritten in place or appended. */
  lemma ParamsKeepOrder(params: seq<Member>)
    ensures var shaped := ShapeParams(Some(JObj(params)));
      && |shaped| >= |params|
      && (forall i :: 0 <= i < |params| ==> shaped[i].key == params[i].key)
      && (forall i :: 0 <= i < |params| && params[i].key != "ei_session" ==> shaped[i] == params[i])
  {
  }

  /** A page-view body carrying the demo project's write key. */
  const DemoBody: Json := JObj([
    Member("writeKey", JStr("wr_demo_live_demo123demo456")),
    Member("name", JStr("page_view")),
    Member("url", JStr("https://demo.test/"))])

  /** The demo write key is accepted and the event is
      stamped with the demo project, keeps its name and url, and carries
      `ei_session: null` as its only parameter. */
  lemma DemoAccepted(now: nat, isoNow: string)
    ensures var o := Post(Some(DemoBody), now, isoNow);
      && o.response.status == 200
      && o.emitted.Some? && o.emitted.value.projectId == "demo"
      && o.emitted.value.name == JStr("page_view")
      && o.emitted.value.url == JStr("https://demo.test/")
      && o.emitted.value.params == [Member("ei_session", JNull)]
  {
    DemoBodyFields();
    Directory.DemoKeyResolves();
    DemoEvent(now, isoNow);
    AcceptedKey(DemoBody, "wr_demo_live_demo123demo456", now, isoNow);
  }

  /** A body whose write key is a listed one is accepted for that project. */
  lemma AcceptedKey(body: Json, writeKey: string, now: nat, isoNow: string)
    requires Prop(body, "writeKey") == Some(JStr(writeKey))
    requires Directory.GetProjectByWriteKey(writeKey).Some?
    ensures var o := Post(Some(body), now, isoNow);
      && o.response.status == 200
      && o.emitted == Some(ShapeEvent(body, Directory.GetProjectByWriteKey(writeKey).value.id, now, isoNow))
  {
  }

  lemma DemoBodyFields()
    ensures Prop(DemoBody, "writeKey") == Some(JStr("wr_demo_live_demo123demo456"))
    ensures Prop(DemoBody, "name") == Some(JStr("page_view"))
    ensures Prop(DemoBody, "url") == Some(JStr("https://demo.test/"))
    ensures Prop(DemoBody, "params").None?
  {
    var ms := DemoBody.members;
    assert DistinctKeys(ms);
    LookupDistinct(ms, 0);
    LookupDistinct(ms, 1);
    LookupDistinct(ms, 2);
    assert Lookup(ms, "params").None?;
  }

  lemma DemoEvent(now: nat, isoNow: string)
    ensures var e := ShapeEvent(DemoBody, "demo", now, isoNow);
      && e.name == JStr("page_view") && e.url == JStr("https://demo.test/")
      && e.params == [Member("ei_session", JNull)]
  {
    DemoBodyFields();
  }

  /** An unknown key is refused with 401 and echoed back truncated. */
  lemma BogusRejected(now: nat, isoNow: string)
    ensures var o := Post(Some(JObj([Member("writeKey", JStr("bogus"))])), now, isoNow);
      && o.response.status == 401 && o.emitted.None?
      && o.response.body.value.members[2] == Member("received", JStr("bogus..."))
  {
    Directory.DemoKeyResolves();
    assert Prop(JObj([Member("writeKey", JStr("bogus"))]), "writeKey") == Some(JStr("bogus"));
    assert Received("bogus") == "bogus...";
  }

  /** POST as written against the exported `bus` object: `bus.emit` is undefined there, so
      calling it throws inside the try block after the event was built, and
      the catch answers 500 without anything being delivered. */
  function PostAgainstDirectBus(body: Option<Json>, now: nat, isoNow: string): (o: Outcome)
    ensures o.emitted.None?
    ensures o.response.status != 200
    ensures Post(body, now, isoNow).emitted.Some? ==> o.response == Response(500, Some(ServerErrorBody), CorsHeaders)
    ensures Post(body, now, isoNow).emitted.None? ==> o == Post(body, now, isoNow)
  {
    EmitMissing(Post(body, now, isoNow))
  }

  /** The try block's outcome when the bus has no `emit` method: an
      outcome that would emit throws at the call instead and is answered
      500; any other outcome is reached before the call and stands. */
  function EmitMissing(o: Outcome): (r: Outcome)
    requires o.emitted.Some? <==> o.response.status == 200
    ensures r.emitted.None? && r.response.status != 200
    ensures o.emitted.Some? ==> r.response == Response(500, Some(ServerErrorBody), CorsHeaders)
    ensures o.emitted.None? ==> r == o
  {
    if o.emitted.Some? && "emit" !in ChannelBus.Methods then
      Outcome(Response(500, Some(ServerErrorBody), CorsHeaders), None)
    else o
  }

  /** As written, even the valid demo key is answered 500 and nothing is
      emitted, whereas the intended handler answers 200 and emits once. */
  lemma DirectBusRejectsValidKey(now: nat, isoNow: string)
    ensures var body := Some(JObj([Member("writeKey", JStr("wr_demo_live_demo123demo456"))]));
      && PostAgainstDirectBus(body, now, isoNow).response.status == 500
      && Post(body, now, isoNow).response.status == 200
      && Post(body, now, isoNow).emitted.Some?
  {
    Directory.DemoKeyResolves();
  }
}

=== FILE: install.dfy ===
/** The install panel and snippet (`app/components/projects/project-install-panel.tsx`,
    `app/components/projects/install-snippet.tsx`): which environment's write
    key is shown, the application address, and the ingestion endpoint the
    generated snippet posts to. The snippet's template text is not modelled. */
module Install {
  import opened Optional
  import opened Text
  import Directory

  /** The endpoint the snippet uses when none is given. */
  const DefaultIngestEndpoint: string := "/api/ingest"

  /** The absolute endpoint the panel hands to the snippet. */
  const HostedIngestEndpoint: string := "https://" + "event-inspector-pi.vercel.app/api/ingest"

  /** The application address used when none is configured. */
  const DevAppUrl: string := "http://localhost:3000"

  /** `s.replace(/\/$/, "")`: at most one trailing '/' removed. */
  function DropTrailingSlash(s: string): (r: string)
    ensures EndsWith(s, "/") ==> r == s[..|s| - 1]
    ensures !EndsWith(s, "/") ==> r == s
  {
    if s != [] && s[|s| - 1] == '/' then s[..|s| - 1] else s
  }

  /** The endpoint the snippet resolves. `appUrl` is None when the prop is
      missing; the template literal then renders it as "undefined". */
  function SafeIngest(appUrl: Option<string>, ingestEndpoint: Option<string>): (r: string)
    ensures var e := ingestEndpoint.GetOr(DefaultIngestEndpoint);
      && (StartsWith(e, "http") ==> r == e)
      && (!StartsWith(e, "http") && appUrl.Some? ==> r == DropTrailingSlash(Trim(appUrl.value)) + e)
      && (!StartsWith(e, "http") && appUrl.None? ==> r == "undefined" + e)
  {
    var e := ingestEndpoint.GetOr(DefaultIngestEndpoint);
    if StartsWith(e, "http") then e
    else (if appUrl.Some? then DropTrailingSlash(Trim(appUrl.value)) else "undefined") + e
  }

  /** Without an endpoint the snippet posts to the application's own
      "/api/ingest". */
  lemma DefaultEndpoint(appUrl: string)
    ensures SafeIngest(Some(appUrl), None) == DropTrailingSlash(Trim(appUrl)) + "/api/ingest"
  {
    assert DefaultIngestEndpoint[..4][0] == '/';
  }

  /** Only one trailing slash is removed. */
  lemma OneSlashOnly()
    ensures SafeIngest(Some("x//"), None) == "x//api/ingest"
  {
    assert DefaultIngestEndpoint[..4][0] == '/';
    TrimNoop("x//");
    assert DropTrailingSlash("x//") == "x/";
  }

  datatype Environment = Environment(id: string, name: string, status: Directory.EnvStatus, writeKey: string)

  /** `defaultEnvId`: the first environment's id, "prod" without any. */
  function DefaultEnvId(envs: seq<Environment>): (id: string)
    ensures envs != [] ==> id == envs[0].id
    ensures envs == [] ==> id == "prod"
  {
    if envs == [] then "prod" else envs[0].id
  }

  /** The index of the first environment with that id, or `|envs|`. */
  function IndexOfEnv(envs: seq<Environment>, id: string): (i: nat)
    ensures i <= |envs|
    ensures i < |envs| ==> envs[i].id == id
    ensures forall j :: 0 <= j < i ==> envs[j].id != id
    decreases |envs|
  {
    if envs == [] then 0
    else if envs[0].id == id then 0
    else 1 + IndexOfEnv(envs[1..], id)
  }

  /** `selectedEnv`: the environment with the selected id, else the first,
      else none, in which case the panel renders nothing. */
  function SelectedEnv(envs: seq<Environment>, selectedId: string): (r: Option<Environment>)
    ensures r.None? <==> envs == []
    ensures forall j ::
      (0 <= j < |envs| && envs[j].id == selectedId && forall k :: 0 <= k < j ==> envs[k].id != selectedId)
      ==> r == Some(envs[j])
    ensures (exists j :: 0 <= j < |envs| && envs[j].id == selectedId) ==>
      r.Some? && r.value.id == selectedId && r.value in envs
    ensures (forall j :: 0 <= j < |envs| ==> envs[j].id != selectedId) && envs != [] ==>
      r == Some(envs[0])
  {
    var i := IndexOfEnv(envs, selectedId);
    if i < |envs| then Some(envs[i])
    else if envs != [] then Some(envs[0])
    else None
  }

  /** On first render the first environment is selected. */
  lemma InitialSelection(envs: seq<Environment>)
    requires envs != []
    ensures SelectedEnv(envs, DefaultEnvId(envs)) == Some(envs[0])
  {
  }

  /** `appUrl`: the configured address, trimmed and without one trailing
      '/', or the development address when unset or blank. */
  function AppUrl(fromEnv: Option<string>): (r: string)
    ensures fromEnv.None? || Trim(fromEnv.value) == [] ==> r == DevAppUrl
    ensures fromEnv.Some? && Trim(fromEnv.value) != [] ==> r == DropTrailingSlash(Trim(fromEnv.value))
  {
    if fromEnv.Some? && Trim(fromEnv.value) != [] then DropTrailingSlash(Trim(fromEnv.value))
    else DevAppUrl
  }

  /** An address that is already trimmed and has no trailing '/' is used
      exactly as configured, and surrounding whitespace never matters. */
  lemma AppUrlConfigured(v: string)
    ensures v != [] && Trim(v) == v && v[|v| - 1] != '/' ==> AppUrl(Some(v)) == v
    ensures AppUrl(Some(v)) == AppUrl(Some(Trim(v)))
    ensures AllSpace(v) ==> AppUrl(Some(v)) == DevAppUrl
  {
    TrimIdempotent(v);
  }

  /** A configured "/" is kept as set, and becomes the empty address. */
  lemma SlashAppUrl()
    ensures AppUrl(Some("/")) == ""
  {
    var t := Trim("/");
    TrimNoop("/");
    assert t == "/";
    assert t != [] && DropTrailingSlash(t) == [];
  }

  lemma HostedIsAbsolute()
    ensures StartsWith(HostedIngestEndpoint, "http")
  {
    assert HostedIngestEndpoint[..4] == "https://"[..4];
  }

  /** The endpoint in the panel's snippet: the hosted one, whatever the
      application address. */
  function PanelIngest(fromEnv: Option<string>): (r: string)
    ensures r == HostedIngestEndpoint
  {
    HostedIsAbsolute();
    SafeIngest(Some(AppUrl(fromEnv)), Some(HostedIngestEndpoint))
  }

  /** The panel's snippet posts to the same place for any two address
      settings. */
  lemma PanelIgnoresAppUrl(a: Option<string>, b: Option<string>)
    ensures PanelIngest(a) == PanelIngest(b)
  {
  }
}

=== FILE: json.dfy ===
/** JSON-compatible JavaScript values, the operations the code applies to
    them (truthiness, property reads, property assignment, object spread,
    `String(v)`) and the text `JSON.stringify` produces for them. */
module Json {
  import opened Optional
  import opened Text

  /** A JSON value. Objects keep their members in insertion order, as
      JavaScript objects do; numbers are integers. */
  datatype Json =
    | JNull
    | JBool(b: bool)
    | JNum(n: int)
    | JStr(s: string)
    | JArr(items: seq<Json>)
    | JObj(members: seq<Member>)

  datatype Member = Member(key: string, value: Json)

  /** JavaScript truthiness of a value that may be `undefined` (None). */
  predicate Truthy(v: Option<Json>) {
    match v
    case None => false
    case Some(JNull) => false
    case Some(JBool(b)) => b
    case Some(JNum(n)) => n != 0
    case Some(JStr(s)) => s != ""
    case Some(_) => true
  }

  /** `typeof v === "object" && v !== null`: true of objects and of arrays. */
  predicate IsObject(v: Option<Json>) {
    v.Some? && (v.value.JObj? || v.value.JArr?)
  }

  /** `typeof v === "string"`. */
  predicate IsString(v: Option<Json>) {
    v.Some? && v.value.JStr?
  }

  predicate HasKey(ms: seq<Member>, k: string) {
    exists i :: 0 <= i < |ms| && ms[i].key == k
  }

  /** The value of the first member named `k`. */
  function Lookup(ms: seq<Member>, k: string): (r: Option<Json>)
    ensures r.Some? <==> HasKey(ms, k)
    ensures r.Some? ==> exists i :: 0 <= i < |ms| && ms[i] == Member(k, r.value)
  {
    if |ms| == 0 then None
    else if ms[0].key == k then Some(ms[0].value)
    else
      var r := Lookup(ms[1..], k);
      assert HasKey(ms[1..], k) ==> HasKey(ms, k);
      assert r.Some? ==> ms[1..][0..] == ms[1..];
      r
  }

  /** The first member named `k` decides the lookup. */
  lemma {:induction false} LookupAt(ms: seq<Member>, k: string, i: nat)
    requires i < |ms| && ms[i].key == k
    requires forall j :: 0 <= j < i ==> ms[j].key != k
    ensures Lookup(ms, k) == Some(ms[i].value)
  {
    if i > 0 {
      LookupAt(ms[1..], k, i - 1);
    }
  }

  /** Keys that occur once each. */
  predicate DistinctKeys(ms: seq<Member>) {
    forall i, j :: 0 <= i < j < |ms| ==> ms[i].key != ms[j].key
  }

  /** With distinct keys every member is found by its own key. */
  lemma LookupDistinct(ms: seq<Member>, i: nat)
    requires DistinctKeys(ms) && i < |ms|
    ensures Lookup(ms, ms[i].key) == Some(ms[i].value)
  {
    LookupAt(ms, ms[i].key, i);
  }

  /** `v[k]` for a named (non-index, non-`length`) property: objects answer
      from their members, every other value has no such property. */
  function Prop(v: Json, k: string): Option<Json> {
    if v.JObj? then Lookup(v.members, k) else None
  }

  /** Optional chaining `v?.[k]`: `undefined` when `v` is null or undefined. */
  function OptProp(v: Option<Json>, k: string): Option<Json> {
    if v.None? || v.value.JNull? then None else Prop(v.value, k)
  }

  /** The index of the first member named `k`, or `|ms|` when there is none. */
  function KeyIndex(ms: seq<Member>, k: string): (i: nat)
    ensures i <= |ms|
    ensures i < |ms| <==> HasKey(ms, k)
    ensures i < |ms| ==> ms[i].key == k
    ensures forall j :: 0 <= j < i ==> ms[j].key != k
    decreases |ms|
  {
    if |ms| == 0 then 0
    else if ms[0].key == k then 0
    else
      var i := 1 + KeyIndex(ms[1..], k);
      assert HasKey(ms, k) ==> HasKey(ms[1..], k);
      i
  }

  /** Overwriting a member changes the lookup of no other key. */
  lemma {:induction false} LookupUpdate(ms: seq<Member>, i: nat, m: Member, k: string)
    requires i < |ms| && ms[i].key == m.key && k != m.key
    ensures Lookup(ms[i := m], k) == Lookup(ms, k)
  {
    if i > 0 {
      assert ms[i := m][1..] == ms[1..][i - 1 := m];
      LookupUpdate(ms[1..], i - 1, m, k);
    } else {
      assert ms[i := m][1..] == ms[1..];
    }
  }

  /** Appending a member changes the lookup of no other key. */
  lemma {:induction false} LookupAppend(ms: seq<Member>, m: Member, k: string)
    requires k != m.key
    ensures Lookup(ms + [m], k) == Lookup(ms, k)
  {
    if ms != [] {
      assert (ms + [m])[1..] == ms[1..] + [m];
      LookupAppend(ms[1..], m, k);
    }
  }

  /** `obj[k] = v`: overwrite the first member named `k` in place, or append
      a new member at the end when there is none. */
  function Assign(ms: seq<Member>, k: string, v: Json): (r: seq<Member>)
    ensures Lookup(r, k) == Some(v)
    ensures forall k' :: k' != k ==> Lookup(r, k') == Lookup(ms, k')
    ensures HasKey(ms, k) ==> |r| == |ms|
    ensures !HasKey(ms, k) ==> r == ms + [Member(k, v)]
    ensures forall i :: 0 <= i < |ms| ==> r[i].key == ms[i].key
    ensures forall i :: 0 <= i < |ms| && ms[i].key != k ==> r[i] == ms[i]
  {
    var i := KeyIndex(ms, k);
    var r := if i < |ms| then ms[i := Member(k, v)] else ms + [Member(k, v)];
    LookupAt(r, k, i);
    assert forall k' :: k' != k ==> Lookup(r, k') == Lookup(ms, k') by {
      forall k' | k' != k ensures Lookup(r, k') == Lookup(ms, k') {
        if i < |ms| {
          LookupUpdate(ms, i, Member(k, v), k');
        } else {
          LookupAppend(ms, Member(k, v), k');
        }
      }
    }
    r
  }

  /** The own enumerable properties of a value, in order: what `{...v}`
      copies and what `for (k in v)` visits. Arrays and strings contribute
      one member per index; other primitives contribute none. */
  function OwnEntries(v: Json): (r: seq<Member>)
    ensures v.JObj? ==> r == v.members
    ensures v.JArr? ==> |r| == |v.items| && forall i :: 0 <= i < |r| ==> r[i] == Member(NatToString(i), v.items[i])
    ensures v.JStr? ==> |r| == |v.s| && forall i :: 0 <= i < |r| ==> r[i] == Member(NatToString(i), JStr([v.s[i]]))
    ensures !v.JObj? && !v.JArr? && !v.JStr? ==> r == []
  {
    match v
    case JObj(ms) => ms
    case JArr(items) => seq(|items|, i requires 0 <= i < |items| => Member(NatToString(i), items[i]))
    case JStr(s) => seq(|s|, i requires 0 <= i < |s| => Member(NatToString(i), JStr([s[i]])))
    case _ => []
  }

  /** `String(v)`. Array elements that are null become empty strings, as
      `Array.prototype.join` does. */
  function ToJsString(v: Json): string {
    match v
    case JNull => "null"
    case JBool(b) => if b then "true" else "false"
    case JNum(n) => IntToString(n)
    case JStr(s) => s
    case JArr(items) => JoinItems(items)
    case JObj(_) => "[object Object]"
  }

  function JoinItems(items: seq<Json>): string {
    if |items| == 0 then ""
    else
      var first := if items[0].JNull? then "" else ToJsString(items[0]);
      if |items| == 1 then first else first + "," + JoinItems(items[1..])
  }

  /** The escape `JSON.stringify` writes for one character of a string. */
  function EscapeChar(c: char): (r: string)
    ensures |r| > 0
    ensures c as int >= 0x20 && c != '"' && c != '\\' ==> r == [c]
  {
    if c == '"' then "\\\""
    else if c == '\\' then "\\\\"
    else if c == '\U{0008}' then "\\b"
    else if c == '\U{000C}' then "\\f"
    else if c == '\n' then "\\n"
    else if c == '\r' then "\\r"
    else if c == '\t' then "\\t"
    else if c as int < 0x20 then "\\u00" + [HexLower(c as int / 16), HexLower(c as int % 16)]
    else [c]
  }

  function Escape(s: string): string {
    if |s| == 0 then "" else EscapeChar(s[0]) + Escape(s[1..])
  }

  function Quote(s: string): string {
    "\"" + Escape(s) + "\""
  }

  /** `JSON.stringify(v)` without indentation. */
  function Stringify(v: Json): string {
    match v
    case JNull => "null"
    case JBool(b) => if b then "true" else "false"
    case JNum(n) => IntToString(n)
    case JStr(s) => Quote(s)
    case JArr(items) => "[" + StringifyItems(items) + "]"
    case JObj(ms) => "{" + StringifyMembers(ms) + "}"
  }

  function StringifyItems(items: seq<Json>): string {
    if |items| == 0 then ""
    else if |items| == 1 then Stringify(items[0])
    else Stringify(items[0]) + "," + StringifyItems(items[1..])
  }

  function StringifyMembers(ms: seq<Member>): string {
    if |ms| == 0 then ""
    else
      var first := Quote(ms[0].key) + ":" + Stringify(ms[0].value);
      if |ms| == 1 then first else first + "," + StringifyMembers(ms[1..])
  }

  /** No carriage return and no line feed: one line of an event stream. */
  predicate SingleLine(s: string) {
    forall i :: 0 <= i < |s| ==> s[i] != '\n' && s[i] != '\r'
  }

  lemma SingleLineConcat(a: string, b: string)
    requires SingleLine(a) && SingleLine(b)
    ensures SingleLine(a + b)
  {
    forall i | 0 <= i < |a + b| ensures (a + b)[i] != '\n' && (a + b)[i] != '\r' {
      if i >= |a| {
        assert (a + b)[i] == b[i - |a|];
      }
    }
  }

  lemma DigitsSingleLine(s: string)
    requires forall i :: 0 <= i < |s| ==> '0' <= s[i] <= '9'
    ensures SingleLine(s)
  {
  }

  lemma IntToStringSingleLine(n: int)
    ensures SingleLine(IntToString(n))
  {
    if n < 0 {
      SingleLineConcat("-", NatToString(-n));
    }
  }

  lemma EscapeCharSingleLine(c: char)
    ensures SingleLine(EscapeChar(c))
  {
    if c as int < 0x20 && c != '\U{0008}' && c != '\U{000C}' && c != '\n' && c != '\r' && c != '\t' {
      var code := [HexLower(c as int / 16), HexLower(c as int % 16)];
      assert SingleLine(code);
      SingleLineConcat("\\u00", code);
    }
  }

  lemma {:induction false} EscapeSingleLine(s: string)
    ensures SingleLine(Escape(s))
    decreases |s|
  {
    if |s| > 0 {
      EscapeCharSingleLine(s[0]);
      EscapeSingleLine(s[1..]);
      SingleLineConcat(EscapeChar(s[0]), Escape(s[1..]));
    }
  }

  lemma QuoteSingleLine(s: string)
    ensures SingleLine(Quote(s))
  {
    EscapeSingleLine(s);
    SingleLineConcat("\"", Escape(s));
    SingleLineConcat("\"" + Escape(s), "\"");
  }

  /** `JSON.stringify` never writes a raw line break: control characters
      inside strings are escaped and no whitespace is inserted. */
  lemma {:induction false} StringifySingleLine(v: Json)
    ensures SingleLine(Stringify(v))
    decreases v, 1
  {
    match v
    case JNull =>
    case JBool(b) =>
    case JNum(n) => IntToStringSingleLine(n);
    case JStr(s) => QuoteSingleLine(s);
    case JArr(items) =>
      ItemsSingleLine(items);
      SingleLineConcat("[", StringifyItems(items));
      SingleLineConcat("[" + StringifyItems(items), "]");
    case JObj(ms) =>
      MembersSingleLine(ms);
      SingleLineConcat("{", StringifyMembers(ms));
      SingleLineConcat("{" + StringifyMembers(ms), "}");
  }

  lemma {:induction false} ItemsSingleLine(items: seq<Json>)
    ensures SingleLine(StringifyItems(items))
    decreases items, 0
  {
    if |items| == 1 {
      StringifySingleLine(items[0]);
    } else if |items| > 1 {
      StringifySingleLine(items[0]);
      ItemsSingleLine(items[1..]);
      SingleLineConcat(Stringify(items[0]), ",");
      SingleLineConcat(Stringify(items[0]) + ",", StringifyItems(items[1..]));
    }
  }

  lemma {:induction false} MembersSingleLine(ms: seq<Member>)
    ensures SingleLine(StringifyMembers(ms))
    decreases ms, 0
  {
    if |ms| > 0 {
      var m := ms[0];
      QuoteSingleLine(m.key);
      StringifySingleLine(m.value);
      SingleLineConcat(Quote(m.key), ":");
      SingleLineConcat(Quote(m.key) + ":", Stringify(m.value));
      var first := Quote(m.key) + ":" + Stringify(m.value);
      if |ms| > 1 {
        MembersSingleLine(ms[1..]);
        SingleLineConcat(first, ",");
        SingleLineConcat(first + ",", StringifyMembers(ms[1..]));
      }
    }
  }
}

=== FILE: live_feed.dfy ===
/** The viewer's side of the live stream (`app/components/live/live-feed.tsx`):
    how a message's data is validated, how the bounded newest-first list of
    events is kept, which event rows are expanded, and the badge an event
    name gets.

    `parseStreamMessage` receives the message text; `JSON.parse` of that text
    is the input here, None when it throws. */
module LiveFeed {
  import opened Optional
  import opened Text
  import opened Json
  import StreamRoute
  import Ingest

  /** A validated message: the connected notice, or an event. */
  datatype StreamMessage =
    | Connected(timestamp: string, session: Option<string>, projectId: Option<string>)
    | EventMessage(evt: Json)

  /** `typeof v[k] === "string"` for an object `v`. */
  predicate StringProp(v: Json, k: string) {
    IsString(Prop(v, k))
  }

  /** `isEventData`: an object (arrays included) with string id, projectId,
      name, url and timestamp, and object-valued params. */
  predicate IsEventData(v: Option<Json>) {
    && IsObject(v)
    && StringProp(v.value, "id") && StringProp(v.value, "projectId")
    && StringProp(v.value, "name") && StringProp(v.value, "url")
    && StringProp(v.value, "timestamp")
    && IsObject(Prop(v.value, "params"))
  }

  /** A property kept when it is a string or null, null otherwise. */
  function StringOrNull(v: Option<Json>): (r: Option<string>)
    ensures r.Some? <==> IsString(v)
    ensures r.Some? ==> v == Some(JStr(r.value))
  {
    if IsString(v) then Some(v.value.s) else None
  }

  /** `parseStreamMessage`, from the parsed data on. */
  function ParseStreamMessage(data: Option<Json>): (r: Option<StreamMessage>)
    ensures !IsObject(data) ==> r.None?
    ensures r.Some? && r.value.Connected? ==> Prop(data.value, "type") == Some(JStr("connected"))
    ensures IsObject(data) && Prop(data.value, "type") == Some(JStr("connected")) ==>
      var ts := Prop(data.value, "timestamp");
      r == Some(Connected(if IsString(ts) then ts.value.s else "",
                          StringOrNull(Prop(data.value, "session")),
                          StringOrNull(Prop(data.value, "projectId"))))
    ensures IsObject(data) && Prop(data.value, "type") == Some(JStr("event")) ==>
      (r.Some? <==> data.value.JObj? && HasKey(data.value.members, "evt") && IsEventData(Prop(data.value, "evt")))
    ensures r.Some? && r.value.EventMessage? ==>
      Prop(data.value, "type") == Some(JStr("event")) && IsEventData(Some(r.value.evt))
      && Prop(data.value, "evt") == Some(r.value.evt)
    ensures (IsObject(data) && Prop(data.value, "type") != Some(JStr("connected"))
             && Prop(data.value, "type") != Some(JStr("event"))) ==> r.None?
  {
    if !IsObject(data) then None
    else
      var d := data.value;
      var kind := Prop(d, "type");
      if kind == Some(JStr("connected")) then
        var ts := Prop(d, "timestamp");
        Some(Connected(if IsString(ts) then ts.value.s else "",
                       StringOrNull(Prop(d, "session")),
                       StringOrNull(Prop(d, "projectId"))))
      else if kind == Some(JStr("event")) && d.JObj? && HasKey(d.members, "evt") && IsEventData(Prop(d, "evt")) then
        Some(EventMessage(Prop(d, "evt").value))
      else None
  }

  /** The value the `maxEvents` prop takes: 100 when it is not given. */
  function MaxEvents(prop: Option<int>): int {
    prop.GetOr(100)
  }

  /** `xs.slice(0, end)`: a negative end counts from the back, and both ends
      are clamped to the list. */
  function SliceTo<T>(xs: seq<T>, end: int): (r: seq<T>)
    ensures end >= 0 ==> r == xs[..if end <= |xs| then end else |xs|]
    ensures end < 0 ==> r == xs[..if |xs| + end >= 0 then |xs| + end else 0]
  {
    var k := if end < 0 then (if |xs| + end >= 0 then |xs| + end else 0)
             else (if end <= |xs| then end else |xs|);
    xs[..k]
  }

  /** `onmessage`: an event is put in front and the list cut to
      `maxEvents`; anything else leaves the list as it is. */
  function OnMessage(events: seq<Json>, data: Option<Json>, maxEvents: int): (r: seq<Json>)
  {
    var msg := ParseStreamMessage(data);
    if msg.Some? && msg.value.EventMessage? then SliceTo([msg.value.evt] + events, maxEvents)
    else events
  }

  /** The list after an accepted event: at most `maxEvents` long, the newest
      first, followed by the previous events in their order. */
  lemma FeedBuffer(events: seq<Json>, data: Option<Json>, maxEvents: int)
    requires maxEvents >= 0
    ensures var r := OnMessage(events, data, maxEvents);
      var msg := ParseStreamMessage(data);
      && (msg.None? || msg.value.Connected? ==> r == events)
      && (msg.Some? && msg.value.EventMessage? ==>
            && |r| <= maxEvents
            && |r| == (if |events| + 1 <= maxEvents then |events| + 1 else maxEvents)
            && (maxEvents > 0 ==> r[0] == msg.value.evt)
            && (forall i :: 1 <= i < |r| ==> r[i] == events[i - 1]))
  {
    var msg := ParseStreamMessage(data);
    if msg.Some? && msg.value.EventMessage? {
      PrependCapped(msg.value.evt, events, maxEvents);
    }
  }

  /** The list after a sequence of `onmessage` calls, in order. */
  function OnMessages(events: seq<Json>, ds: seq<Option<Json>>, maxEvents: int): seq<Json>
    decreases |ds|
  {
    if ds == [] then events else OnMessages(OnMessage(events, ds[0], maxEvents), ds[1..], maxEvents)
  }

  /** Without the `maxEvents` prop the feed never holds more than 100
      events, whatever messages arrive. */
  lemma {:induction false} DefaultCap(events: seq<Json>, ds: seq<Option<Json>>)
    requires |events| <= 100
    ensures MaxEvents(None) == 100
    ensures |OnMessages(events, ds, MaxEvents(None))| <= 100
    decreases |ds|
  {
    if ds != [] {
      FeedBuffer(events, ds[0], 100);
      DefaultCap(OnMessage(events, ds[0], 100), ds[1..]);
    }
  }

  /** Putting one value in front of a list and cutting it to `maxEvents`. */
  lemma PrependCapped(x: Json, xs: seq<Json>, maxEvents: int)
    requires maxEvents >= 0
    ensures var r := SliceTo([x] + xs, maxEvents);
      && |r| == (if |xs| + 1 <= maxEvents then |xs| + 1 else maxEvents)
      && (maxEvents > 0 ==> r[0] == x)
      && (forall i :: 1 <= i < |r| ==> r[i] == xs[i - 1])
  {
    var l := [x] + xs;
    var r := SliceTo(l, maxEvents);
    assert forall i :: 1 <= i < |r| ==> r[i] == l[i] == xs[i - 1];
  }

  /** Once the list is full it stays full: an event in, the oldest out. */
  lemma FullFeedDropsOldest(events: seq<Json>, data: Option<Json>, maxEvents: int)
    requires maxEvents > 0 && |events| == maxEvents
    requires ParseStreamMessage(data).Some? && ParseStreamMessage(data).value.EventMessage?
    ensures OnMessage(events, data, maxEvents) == [ParseStreamMessage(data).value.evt] + events[..maxEvents - 1]
  {
  }

  /** With a negative `maxEvents` the slice counts from the back: an empty
      list stays empty however many events arrive. */
  lemma NegativeMaxEventsKeepsEmpty(data: Option<Json>, maxEvents: int)
    requires maxEvents < 0
    ensures OnMessage([], data, maxEvents) == []
  {
  }

  /** `toggleExpanded`. */
  function ToggleExpanded(expanded: set<string>, id: string): (r: set<string>)
    ensures id in r <==> id !in expanded
    ensures forall other :: other != id ==> (other in r <==> other in expanded)
  {
    if id in expanded then expanded - {id} else expanded + {id}
  }

  /** Toggling twice restores the set. */
  lemma ToggleTwice(expanded: set<string>, id: string)
    ensures ToggleExpanded(ToggleExpanded(expanded, id), id) == expanded
  {
  }

  datatype Badge = Secondary | Destructive | Default | Outline

  /** `getEventBadgeVariant`. */
  function BadgeFor(name: string): Badge {
    if name == "page_view" then Secondary
    else if Contains(name, "error") then Destructive
    else if Contains(name, "click") || Contains(name, "submit") then Default
    else Outline
  }

  /** The badge rules, each with the precedence of the earlier ones. */
  lemma BadgePrecedence(name: string)
    ensures BadgeFor(name) == Secondary <==> name == "page_view"
    ensures BadgeFor(name) == Destructive <==> name != "page_view" && Contains(name, "error")
    ensures BadgeFor(name) == Default <==>
      name != "page_view" && !Contains(name, "error") && (Contains(name, "click") || Contains(name, "submit"))
    ensures BadgeFor(name) == Outline <==>
      name != "page_view" && !Contains(name, "error") && !Contains(name, "click") && !Contains(name, "submit")
  {
  }

  /** How alarming a badge is; "page_view" stands apart. */
  function Rank(b: Badge): nat {
    match b
    case Outline => 0
    case Default => 1
    case Destructive => 2
    case Secondary => 0
  }

  /** Adding text around a name never makes its badge less alarming: every
      rule but the "page_view" one looks for a substring, and a substring
      stays. */
  lemma BadgeMonotone(a: string, name: string, b: string)
    requires name != "page_view" && a + name + b != "page_view"
    ensures BadgeFor(name) != Secondary
    ensures Rank(BadgeFor(name)) <= Rank(BadgeFor(a + name + b))
  {
    if Contains(name, "error") { ContainsInfix(a, name, b, "error"); }
    if Contains(name, "click") { ContainsInfix(a, name, b, "click"); }
    if Contains(name, "submit") { ContainsInfix(a, name, b, "submit"); }
  }

  /** "page_view" itself is matched exactly: a longer name containing it is
      classified by the other rules. */
  lemma PageViewExact()
    ensures BadgeFor("page_view") == Secondary
    ensures BadgeFor("page_view_error") == Destructive
  {
    assert "page_view_error"[10..15] == "error";
    ContainsAt("page_view_error", "error", 10);
  }

  /** The connected notice the stream route writes reads back as such, with
      the query's session and project. */
  lemma ConnectedRoundTrip(q: StreamRoute.Query, isoNow: string)
    ensures ParseStreamMessage(Some(StreamRoute.ConnectedMessage(q, isoNow)))
         == Some(Connected(isoNow, q.session, q.projectId))
  {
    var ms := StreamRoute.ConnectedMessage(q, isoNow).members;
    assert DistinctKeys(ms);
    LookupDistinct(ms, 0);
    LookupDistinct(ms, 1);
    LookupDistinct(ms, 2);
    LookupDistinct(ms, 3);
  }

  /** An event the ingestion route accepted and the stream forwarded reaches
      the list exactly when its id, name, url and timestamp are strings: the
      route keeps whatever truthy values the caller sent, and the viewer
      drops an event whose fields are not all strings. */
  lemma EventRoundTrip(e: Ingest.Event)
    ensures var data := Some(StreamRoute.EventMessage(Ingest.EventToJson(e)));
      ParseStreamMessage(data) == (if e.id.JStr? && e.name.JStr? && e.url.JStr? && e.timestamp.JStr?
                                   then Some(EventMessage(Ingest.EventToJson(e))) else None)
  {
    var evt := Ingest.EventToJson(e);
    EventMessageFields(evt);
    EventDataIff(e);
  }

  lemma EventMessageFields(evt: Json)
    ensures var d := StreamRoute.EventMessage(evt);
      && Prop(d, "type") == Some(JStr("event"))
      && Prop(d, "evt") == Some(evt)
      && HasKey(d.members, "evt")
  {
    var ms := StreamRoute.EventMessage(evt).members;
    assert DistinctKeys(ms);
    LookupDistinct(ms, 0);
    LookupDistinct(ms, 1);
    assert ms[1].key == "evt";
  }

  lemma EventDataIff(e: Ingest.Event)
    ensures IsEventData(Some(Ingest.EventToJson(e))) <==>
      e.id.JStr? && e.name.JStr? && e.url.JStr? && e.timestamp.JStr?
  {
  }
}

=== FILE: optional.dfy ===
/** The JavaScript "value or nothing" results used throughout the model:
    `undefined`, `null` and not-found lookups all become `None`. */
module Optional {

  datatype Option<+T> = None | Some(value: T) {

    /** The contained value, or `default` when there is none (JavaScript's `??`). */
    function GetOr(default: T): T {
      match this
      case Some(v) => v
      case None => default
    }
  }

  /** The outcome of an operation that can fail: a value, or the message of
      the error it raised (a rejected promise, a thrown exception). */
  datatype Result<+T> = Success(value: T) | Failure(error: string)
}

=== FILE: preview.dfy ===
/** The live preview panel (`app/components/live/live-preview-panel.tsx`):
    the site address derived from the project's domain, the session id a
    preview starts with, and the address the preview frame opens.

    `Math.random()` and `Date.now()` are parameters: the hexadecimal
    fraction digits of the random number, and the clock in milliseconds. */
module Preview {
  import opened Text

  /** `toHttpsUrl`. */
  function ToHttpsUrl(domain: string): (r: string)
    ensures r == [] <==> AllSpace(domain)
    ensures r != [] ==> StartsWith(r, "http://") || StartsWith(r, "https://")
    ensures StartsWith(Trim(domain), "http://") || StartsWith(Trim(domain), "https://") ==> r == Trim(domain)
    ensures Trim(domain) != [] && !StartsWith(Trim(domain), "http://") && !StartsWith(Trim(domain), "https://")
            ==> r == "https://" + Trim(domain)
  {
    var d := Trim(domain);
    if d == [] then []
    else if StartsWith(d, "http://") || StartsWith(d, "https://") then d
    else
      assert ("https://" + d)[..8] == "https://";
      "https://" + d
  }

  /** Applying `toHttpsUrl` to its own result changes nothing. */
  lemma ToHttpsUrlIdempotent(domain: string)
    ensures ToHttpsUrl(ToHttpsUrl(domain)) == ToHttpsUrl(domain)
  {
    var r := ToHttpsUrl(domain);
    if r != [] {
      var d := Trim(domain);
      assert r[0] == 'h';
      assert r[|r| - 1] == d[|d| - 1];
      TrimNoop(r);
    }
  }

  /** The scheme test is case-sensitive: an address with an upper-case
      scheme gets a second scheme in front. */
  lemma UpperCaseScheme(host: string)
    requires host != [] && !IsSpace(host[|host| - 1])
    ensures ToHttpsUrl("HTTP://" + host) == "https://" + ("HTTP://" + host)
  {
    var d := "HTTP://" + host;
    assert d[0] == 'H' && d[|d| - 1] == host[|host| - 1];
    TrimNoop(d);
    assert !StartsWith(d, "http://") by {
      assert d[..7][0] == 'H';
    }
    assert !StartsWith(d, "https://") by {
      assert |d| >= 8 ==> d[..8][0] == 'H';
    }
  }

  /** The characters `encodeURIComponent` leaves alone. */
  predicate IsUnreserved(c: char) {
    || ('A' <= c <= 'Z') || ('a' <= c <= 'z') || ('0' <= c <= '9')
    || c == '-' || c == '_' || c == '.' || c == '!' || c == '~'
    || c == '*' || c == '\'' || c == '(' || c == ')'
  }

  /** An octet. */
  type Byte = b: nat | b < 256

  /** The UTF-8 encoding of one code point. */
  function Utf8(c: char): (bs: seq<Byte>)
    ensures 1 <= |bs| <= 4
    ensures c as int < 0x80 ==> bs == [c as int]
  {
    var cp := c as int;
    if cp < 0x80 then [cp]
    else if cp < 0x800 then [0xC0 + cp / 64, 0x80 + cp % 64]
    else if cp < 0x10000 then [0xE0 + cp / 4096, 0x80 + (cp / 64) % 64, 0x80 + cp % 64]
    else [0xF0 + cp / 262144, 0x80 + (cp / 4096) % 64, 0x80 + (cp / 64) % 64, 0x80 + cp % 64]
  }

  function Utf8String(s: string): seq<Byte>
    decreases |s|
  {
    if s == [] then [] else Utf8(s[0]) + Utf8String(s[1..])
  }

  /** "%XY" for one byte, upper-case hexadecimal. */
  function PercentByte(b: Byte): (r: string)
    ensures |r| == 3 && r[0] == '%'
  {
    ['%', HexUpper(b / 16), HexUpper(b % 16)]
  }

  function PercentBytes(bs: seq<Byte>): string
    decreases |bs|
  {
    if bs == [] then [] else PercentByte(bs[0]) + PercentBytes(bs[1..])
  }

  function EncodeChar(c: char): string {
    if IsUnreserved(c) then [c] else PercentBytes(Utf8(c))
  }

  /** `encodeURIComponent`. */
  function EncodeUriComponent(s: string): string
    decreases |s|
  {
    if s == [] then [] else EncodeChar(s[0]) + EncodeUriComponent(s[1..])
  }

  /** The value of an upper-case hexadecimal digit. */
  function HexValue(c: char): nat {
    if '0' <= c <= '9' then c as int - '0' as int
    else if 'A' <= c <= 'F' then c as int - 'A' as int + 10
    else 0
  }

  predicate IsHexUpper(c: char) {
    ('0' <= c <= '9') || ('A' <= c <= 'F')
  }

  /** The bytes an encoded component stands for: each "%XY" is one byte,
      any other character is its own code. */
  function Octets(t: string): seq<nat>
    decreases |t|
  {
    if t == [] then []
    else if |t| >= 3 && t[0] == '%' && IsHexUpper(t[1]) && IsHexUpper(t[2]) then
      [16 * HexValue(t[1]) + HexValue(t[2])] + Octets(t[3..])
    else [t[0] as int] + Octets(t[1..])
  }

  lemma HexDigitRoundTrip(d: nat)
    requires d < 16
    ensures IsHexUpper(HexUpper(d)) && HexValue(HexUpper(d)) == d
  {
  }

  lemma PercentByteOctets(b: Byte, rest: string)
    ensures Octets(PercentByte(b) + rest) == [b] + Octets(rest)
  {
    HexDigitRoundTrip(b / 16);
    HexDigitRoundTrip(b % 16);
    assert (PercentByte(b) + rest)[3..] == rest;
  }

  lemma PercentBytesCons(bs: seq<Byte>, rest: string)
    requires bs != []
    ensures PercentBytes(bs) + rest == PercentByte(bs[0]) + (PercentBytes(bs[1..]) + rest)
  {
  }

  lemma {:induction false} PercentBytesOctets(bs: seq<Byte>, rest: string)
    ensures Octets(PercentBytes(bs) + rest) == bs + Octets(rest)
    decreases |bs|
  {
    if bs == [] {
      assert PercentBytes(bs) + rest == rest;
    } else {
      var tail := PercentBytes(bs[1..]) + rest;
      calc {
        Octets(PercentBytes(bs) + rest);
        { PercentBytesCons(bs, rest); }
        Octets(PercentByte(bs[0]) + tail);
        { PercentByteOctets(bs[0], tail); }
        [bs[0]] + Octets(tail);
        { PercentBytesOctets(bs[1..], rest); }
        [bs[0]] + (bs[1..] + Octets(rest));
        { assert bs == [bs[0]] + bs[1..]; }
        bs + Octets(rest);
      }
    }
  }

  lemma EncodeCharOctets(c: char, rest: string)
    ensures Octets(EncodeChar(c) + rest) == Utf8(c) + Octets(rest)
  {
    if IsUnreserved(c) {
      assert ([c] + rest)[1..] == rest;
    } else {
      PercentBytesOctets(Utf8(c), rest);
    }
  }

  /** Reading the escapes back gives exactly the UTF-8 bytes of the input:
      nothing is lost or added by the encoding. */
  lemma {:induction false} EncodeOctets(s: string)
    ensures Octets(EncodeUriComponent(s)) == Utf8String(s)
    decreases |s|
  {
    if s != [] {
      EncodeCharOctets(s[0], EncodeUriComponent(s[1..]));
      EncodeOctets(s[1..]);
    }
  }

  /** A component made of unreserved characters is encoded as itself. */
  lemma {:induction false} EncodeUnreserved(s: string)
    requires forall i :: 0 <= i < |s| ==> IsUnreserved(s[i])
    ensures EncodeUriComponent(s) == s
    decreases |s|
  {
    if s != [] {
      EncodeUnreserved(s[1..]);
    }
  }

  /** `n.toString(16)`. */
  function ToHex(n: nat): (r: string)
    ensures r != []
    ensures forall i :: 0 <= i < |r| ==> ('0' <= r[i] <= '9') || ('a' <= r[i] <= 'f')
  {
    if n < 16 then [HexLower(n)] else ToHex(n / 16) + [HexLower(n % 16)]
  }

  predicate IsLowerHex(s: string) {
    forall i :: 0 <= i < |s| ==> ('0' <= s[i] <= '9') || ('a' <= s[i] <= 'f')
  }

  /** `randomSessionId`: the random number's hexadecimal fraction digits, a
      dash, and the clock in hexadecimal. */
  function RandomSessionId(fraction: string, now: nat): (sid: string)
    requires IsLowerHex(fraction)
    ensures forall i :: 0 <= i < |sid| ==> IsUnreserved(sid[i])
  {
    fraction + "-" + ToHex(now)
  }

  /** The preview can start only once there is a site address. */
  predicate StartEnabled(base: string) {
    base != []
  }

  /** The address `start` opens. */
  function PreviewUrl(base: string, sid: string): string {
    base + "/?ei_session=" + EncodeUriComponent(sid)
  }

  /** The session id travels in the address unescaped. */
  lemma PreviewCarriesSession(base: string, fraction: string, now: nat)
    requires IsLowerHex(fraction)
    ensures PreviewUrl(base, RandomSessionId(fraction, now)) == base + "/?ei_session=" + RandomSessionId(fraction, now)
  {
    EncodeUnreserved(RandomSessionId(fraction, now));
  }

  /** Start is disabled exactly when the domain is blank. */
  lemma StartNeedsDomain(domain: string)
    ensures StartEnabled(ToHttpsUrl(domain)) <==> !AllSpace(domain)
  {
  }
}

=== FILE: project_form.dfy ===
/** The "create project" form (`app/components/projects/create-project-form.tsx`):
    the project id derived from the name, the domain clean-up, the error set
    and the project a valid submit hands to `onCreate`.

    Each global regular-expression replacement is a left-to-right scan of
    the input that rewrites every match and does not look at its own
    output again. */
module ProjectForm {
  import opened Optional
  import opened Text
  import Directory

  /** `/https?:\/\//g` replaced by "": every "http://" and "https://". */
  function StripSchemes(s: string): (r: string)
    ensures |r| <= |s|
    ensures forall c :: c in r ==> c in s
    decreases |s|
  {
    if s == [] then []
    else if StartsWith(s, "http://") then StripSchemes(s[7..])
    else if StartsWith(s, "https://") then StripSchemes(s[8..])
    else [s[0]] + StripSchemes(s[1..])
  }

  /** `p` occurs in `s` starting at index `i`. */
  predicate OccursAt(s: string, p: string, i: nat) {
    i + |p| <= |s| && s[i..i + |p|] == p
  }

  /** A scheme "http://" or "https://" starts at index `i`. */
  predicate SchemeAt(s: string, i: nat) {
    OccursAt(s, "http://", i) || OccursAt(s, "https://", i)
  }

  /** The scan copies every character before the first position where a
      scheme starts. */
  lemma {:induction false} StripSchemesCopies(s: string, k: nat)
    requires k <= |s|
    requires forall i :: 0 <= i < k ==> !SchemeAt(s, i)
    ensures StripSchemes(s) == s[..k] + StripSchemes(s[k..])
    decreases k
  {
    if k > 0 {
      var t := s[1..];
      StripSchemesStep(s);
      SchemeFreeTail(s, k);
      StripSchemesCopies(t, k - 1);
      ConsSplit(s, k, StripSchemes(s[k..]));
    }
  }

  /** Where no scheme starts, the first character is copied. */
  lemma StripSchemesStep(s: string)
    requires s != [] && !SchemeAt(s, 0)
    ensures StripSchemes(s) == [s[0]] + StripSchemes(s[1..])
  {
    assert |s| >= 7 ==> s[..7] == s[0..7];
    assert |s| >= 8 ==> s[..8] == s[0..8];
  }

  lemma SchemeFreeTail(s: string, k: nat)
    requires 0 < k <= |s|
    requires forall i :: 0 <= i < k ==> !SchemeAt(s, i)
    ensures forall i :: 0 <= i < k - 1 ==> !SchemeAt(s[1..], i)
  {
    forall i | 0 <= i < k - 1 ensures !SchemeAt(s[1..], i) {
      SchemeShift(s, i);
    }
  }

  lemma SchemeShift(s: string, i: nat)
    requires s != []
    ensures SchemeAt(s[1..], i) <==> SchemeAt(s, i + 1)
  {
    var t := s[1..];
    assert i + 7 <= |t| ==> t[i..i + 7] == s[i + 1..i + 8];
    assert i + 8 <= |t| ==> t[i..i + 8] == s[i + 1..i + 9];
  }

  /** Splitting off the first character, then `k - 1` more, is splitting
      off `k`. */
  lemma ConsSplit(s: string, k: nat, x: string)
    requires 0 < k <= |s|
    ensures s[1..][k - 1..] == s[k..]
    ensures [s[0]] + (s[1..][..k - 1] + x) == s[..k] + x
  {
    assert [s[0]] + s[1..][..k - 1] == s[..k];
  }

  /** Text in which no scheme starts is left as it is. */
  lemma StripSchemesNone(s: string)
    requires forall i :: 0 <= i < |s| ==> !SchemeAt(s, i)
    ensures StripSchemes(s) == s
  {
    StripSchemesCopies(s, |s|);
    assert s[..|s|] == s;
  }

  /** The first scheme is removed, the text before it is kept, and the scan
      resumes right after it. */
  lemma StripSchemesFirst(s: string, k: nat)
    requires k <= |s|
    requires forall i :: 0 <= i < k ==> !SchemeAt(s, i)
    ensures OccursAt(s, "http://", k) ==> StripSchemes(s) == s[..k] + StripSchemes(s[k + 7..])
    ensures OccursAt(s, "https://", k) ==> StripSchemes(s) == s[..k] + StripSchemes(s[k + 8..])
  {
    StripSchemesCopies(s, k);
    var t := s[k..];
    if OccursAt(s, "http://", k) {
      DropHttp(t, s[k + 7..]);
    }
    if OccursAt(s, "https://", k) {
      DropHttps(t, s[k + 8..]);
    }
  }

  lemma DropHttp(t: string, rest: string)
    requires |t| >= 7 && t[..7] == "http://" && t[7..] == rest
    ensures StripSchemes(t) == StripSchemes(rest)
  {
  }

  lemma DropHttps(t: string, rest: string)
    requires |t| >= 8 && t[..8] == "https://" && t[8..] == rest
    ensures StripSchemes(t) == StripSchemes(rest)
  {
    assert t[..7][4] == 's';
  }

  /** Without a ':' there is no scheme to remove. */
  lemma {:induction false} StripSchemesNoop(s: string)
    requires ':' !in s
    ensures StripSchemes(s) == s
    decreases |s|
  {
    if s != [] {
      assert |s| >= 7 ==> s[..7][4] == s[4];
      assert |s| >= 8 ==> s[..8][5] == s[5];
      StripSchemesNoop(s[1..]);
    }
  }

  /** The scan does not rescan what is left after a removal, so a scheme can
      survive when it straddles one. */
  lemma SchemeStraddlingRemoval()
    ensures StripSchemes("h" + "http://" + "ttp://") == "h" + "ttp://"
  {
    var s := "h" + "http://" + "ttp://";
    assert s[1..] == "http://" + "ttp://";
    KeepHead(s);
    DropScheme(s[1..], "ttp://");
    ShortStripSchemes("ttp://");
  }

  lemma KeepHead(s: string)
    requires |s| >= 2 && s[0] == 'h' && s[1] == 'h'
    ensures StripSchemes(s) == [s[0]] + StripSchemes(s[1..])
  {
    assert |s| >= 7 ==> s[..7][1] == s[1];
    assert |s| >= 8 ==> s[..8][1] == s[1];
  }

  lemma DropScheme(s: string, rest: string)
    requires s == "http://" + rest
    ensures StripSchemes(s) == StripSchemes(rest)
  {
    assert s[..7] == "http://" && s[7..] == rest;
  }

  /** Nothing shorter than "http://" holds a scheme. */
  lemma {:induction false} ShortStripSchemes(s: string)
    requires |s| < 7
    ensures StripSchemes(s) == s
    decreases |s|
  {
    if s != [] {
      ShortStripSchemes(s[1..]);
    }
  }

  /** `/www\./g` replaced by "". */
  function StripWww(s: string): (r: string)
    ensures |r| <= |s|
    ensures forall c :: c in r ==> c in s
    decreases |s|
  {
    if s == [] then []
    else if StartsWith(s, "www.") then StripWww(s[4..])
    else [s[0]] + StripWww(s[1..])
  }

  /** The scan copies every character before the first "www.". */
  lemma {:induction false} StripWwwCopies(s: string, k: nat)
    requires k <= |s|
    requires forall i :: 0 <= i < k ==> !OccursAt(s, "www.", i)
    ensures StripWww(s) == s[..k] + StripWww(s[k..])
    decreases k
  {
    if k > 0 {
      var t := s[1..];
      StripWwwStep(s);
      WwwFreeTail(s, k);
      StripWwwCopies(t, k - 1);
      ConsSplit(s, k, StripWww(s[k..]));
    }
  }

  /** Where no "www." starts, the first character is copied. */
  lemma StripWwwStep(s: string)
    requires s != [] && !OccursAt(s, "www.", 0)
    ensures StripWww(s) == [s[0]] + StripWww(s[1..])
  {
    assert |s| >= 4 ==> s[..4] == s[0..4];
  }

  lemma WwwFreeTail(s: string, k: nat)
    requires 0 < k <= |s|
    requires forall i :: 0 <= i < k ==> !OccursAt(s, "www.", i)
    ensures forall i :: 0 <= i < k - 1 ==> !OccursAt(s[1..], "www.", i)
  {
    forall i | 0 <= i < k - 1 ensures !OccursAt(s[1..], "www.", i) {
      WwwShift(s, i);
    }
  }

  lemma WwwShift(s: string, i: nat)
    requires s != []
    ensures OccursAt(s[1..], "www.", i) <==> OccursAt(s, "www.", i + 1)
  {
    var t := s[1..];
    assert i + 4 <= |t| ==> t[i..i + 4] == s[i + 1..i + 5];
  }

  /** Every "www." is removed, wherever it occurs: the text before the first
      one is kept and the scan resumes right after it; text without one is
      left as it is. */
  lemma StripWwwFirst(s: string, k: nat)
    requires k <= |s|
    requires forall i :: 0 <= i < k ==> !OccursAt(s, "www.", i)
    ensures OccursAt(s, "www.", k) ==> StripWww(s) == s[..k] + StripWww(s[k + 4..])
    ensures k == |s| ==> StripWww(s) == s
  {
    StripWwwCopies(s, k);
    var t := s[k..];
    if OccursAt(s, "www.", k) {
      assert t[..4] == s[k..k + 4] && t[4..] == s[k + 4..];
    }
    assert s[..|s|] == s;
  }

  /** Not only a leading "www." goes: one in the middle of the text does too. */
  lemma InnerWwwRemoved()
    ensures StripWww("a.www.b") == "a.b"
  {
    var s := "a.www.b";
    assert !OccursAt(s, "www.", 0) && !OccursAt(s, "www.", 1);
    assert OccursAt(s, "www.", 2);
    StripWwwFirst(s, 2);
    assert s[6..] == "b";
    StripWwwCopies("b", 1);
  }

  lemma {:induction false} StripWwwNoop(s: string)
    requires '.' !in s
    ensures StripWww(s) == s
    decreases |s|
  {
    if s != [] {
      assert |s| >= 4 ==> s[..4][3] == s[3];
      StripWwwNoop(s[1..]);
    }
  }

  /** The characters a project id is made of. */
  predicate IsSlugChar(c: char) {
    ('a' <= c <= 'z') || ('0' <= c <= '9') || c == '-'
  }

  predicate AllSlugChars(s: string) {
    forall i :: 0 <= i < |s| ==> IsSlugChar(s[i])
  }

  predicate NoDoubleDash(s: string) {
    forall i :: 0 <= i < |s| - 1 ==> !(s[i] == '-' && s[i + 1] == '-')
  }

  /** A well-formed id: slug characters, no "--", no dash at either end. */
  predicate IsSlug(s: string) {
    && AllSlugChars(s)
    && NoDoubleDash(s)
    && (s == [] || (s[0] != '-' && s[|s| - 1] != '-'))
  }

  /** The end of the run of characters outside the slug alphabet that
      starts at `i`. */
  function OtherRunEnd(s: string, i: nat): (e: nat)
    requires i <= |s|
    ensures i <= e <= |s|
    ensures e == |s| || IsSlugChar(s[e])
    decreases |s| - i
  {
    if i < |s| && !IsSlugChar(s[i]) then OtherRunEnd(s, i + 1) else i
  }

  /** `/[^a-z0-9-]+/g` replaced by "-": each maximal run of other
      characters becomes one dash. */
  function DashRuns(s: string): (r: string)
    ensures AllSlugChars(r)
    ensures |r| <= |s|
    ensures r == [] <==> s == []
    ensures s != [] && IsSlugChar(s[0]) ==> r[0] == s[0]
    ensures s != [] && !IsSlugChar(s[0]) ==> r[0] == '-'
    decreases |s|
  {
    if s == [] then []
    else if IsSlugChar(s[0]) then [s[0]] + DashRuns(s[1..])
    else "-" + DashRuns(s[OtherRunEnd(s, 1)..])
  }

  lemma {:induction false} DashRunsNoop(s: string)
    requires AllSlugChars(s)
    ensures DashRuns(s) == s
    decreases |s|
  {
    if s != [] {
      DashRunsNoop(s[1..]);
    }
  }

  /** Slug characters are copied as they are, in order. */
  lemma {:induction false} DashRunsKeeps(a: string, b: string)
    requires AllSlugChars(a)
    ensures DashRuns(a + b) == a + DashRuns(b)
    decreases |a|
  {
    if a != [] {
      var s := a + b;
      assert s[0] == a[0] && IsSlugChar(s[0]);
      assert s[1..] == a[1..] + b;
      assert DashRuns(s) == [a[0]] + DashRuns(a[1..] + b);
      DashRunsKeeps(a[1..], b);
      assert a == [a[0]] + a[1..];
    } else {
      assert a + b == b;
    }
  }

  /** A maximal run of other characters becomes exactly one '-'. */
  lemma DashRunsRun(o: string, b: string)
    requires o != [] && forall i :: 0 <= i < |o| ==> !IsSlugChar(o[i])
    requires b == [] || IsSlugChar(b[0])
    ensures DashRuns(o + b) == "-" + DashRuns(b)
  {
    var s := o + b;
    RunEndAt(s, |o|, 1);
    assert s[|o|..] == b;
  }

  lemma {:induction false} RunEndAt(s: string, n: nat, i: nat)
    requires 1 <= i <= n <= |s|
    requires forall j :: 0 <= j < n ==> !IsSlugChar(s[j])
    requires n == |s| || IsSlugChar(s[n])
    ensures OtherRunEnd(s, i) == n
    decreases n - i
  {
    if i < n {
      RunEndAt(s, n, i + 1);
    }
  }

  /** The end of the run of dashes that starts at `i`. */
  function DashRunEnd(s: string, i: nat): (e: nat)
    requires i <= |s|
    ensures i <= e <= |s|
    ensures e == |s| || s[e] != '-'
    ensures forall k :: i <= k < e ==> s[k] == '-'
    decreases |s| - i
  {
    if i < |s| && s[i] == '-' then DashRunEnd(s, i + 1) else i
  }

  /** Putting a character in front keeps a string free of "--" unless both
      it and the string's first character are dashes. */
  lemma ConsNoDoubleDash(c: char, t: string)
    requires NoDoubleDash(t)
    requires c != '-' || t == [] || t[0] != '-'
    ensures NoDoubleDash([c] + t)
  {
    var r := [c] + t;
    forall i | 0 <= i < |r| - 1 ensures !(r[i] == '-' && r[i + 1] == '-') {
      if i > 0 {
        assert r[i] == t[i - 1] && r[i + 1] == t[i];
      }
    }
  }

  /** `/-+/g` replaced by "-": each run of dashes becomes one. */
  function Collapse(s: string): (r: string)
    ensures NoDoubleDash(r)
    ensures AllSlugChars(s) ==> AllSlugChars(r)
    ensures |r| <= |s|
    ensures r == [] <==> s == []
    ensures r != [] ==> r[0] == s[0]
    decreases |s|
  {
    if s == [] then []
    else
      var k := if s[0] == '-' then DashRunEnd(s, 1) else 1;
      var t := Collapse(s[k..]);
      assert AllSlugChars(s) ==> AllSlugChars(s[k..]);
      ConsNoDoubleDash(s[0], t);
      [s[0]] + t
  }

  /** Characters other than '-' are copied unchanged and in order. */
  lemma {:induction false} CollapseKeeps(a: string, b: string)
    requires '-' !in a
    ensures Collapse(a + b) == a + Collapse(b)
    decreases |a|
  {
    if a != [] {
      var s := a + b;
      assert s[0] == a[0] && s[0] != '-';
      assert s[1..] == a[1..] + b;
      assert Collapse(s) == [a[0]] + Collapse(a[1..] + b);
      CollapseKeeps(a[1..], b);
      assert a == [a[0]] + a[1..];
    } else {
      assert a + b == b;
    }
  }

  /** A maximal run of dashes becomes exactly one '-'. */
  lemma CollapseRun(d: string, b: string)
    requires d != [] && forall i :: 0 <= i < |d| ==> d[i] == '-'
    requires b == [] || b[0] != '-'
    ensures Collapse(d + b) == "-" + Collapse(b)
  {
    var s := d + b;
    DashRunEndAt(s, |d|, 1);
    assert s[|d|..] == b;
  }

  lemma {:induction false} DashRunEndAt(s: string, n: nat, i: nat)
    requires 1 <= i <= n <= |s|
    requires forall j :: 0 <= j < n ==> s[j] == '-'
    requires n == |s| || s[n] != '-'
    ensures DashRunEnd(s, i) == n
    decreases n - i
  {
    if i < n {
      DashRunEndAt(s, n, i + 1);
    }
  }

  lemma {:induction false} CollapseNoop(s: string)
    requires NoDoubleDash(s)
    ensures Collapse(s) == s
    decreases |s|
  {
    if s != [] {
      assert s[0] == '-' && |s| > 1 ==> s[1] != '-';
      assert NoDoubleDash(s[1..]);
      CollapseNoop(s[1..]);
    }
  }

  /** `/^-|-$/g` replaced by "": one leading and one trailing dash. */
  function TrimDashes(s: string): (r: string)
    ensures |s| - 2 <= |r| <= |s|
    ensures s != [] && s[0] == '-' ==> |r| < |s| && r == s[1..1 + |r|]
    ensures (s == [] || s[0] != '-') ==> r == s[..|r|]
    ensures r == s <==> s == [] || (s[0] != '-' && s[|s| - 1] != '-')
    ensures s != [] && s[|s| - 1] == '-' && (s[0] != '-' || |s| >= 2) ==>
      |r| == |s| - 1 - (if s[0] == '-' then 1 else 0)
    ensures s != [] && s[|s| - 1] != '-' ==> |r| == |s| - (if s[0] == '-' then 1 else 0)
    ensures NoDoubleDash(s) ==> r == [] || (r[0] != '-' && r[|r| - 1] != '-')
    ensures exists i, j :: 0 <= i <= j <= |s| && r == s[i..j]
  {
    var t := if s != [] && s[0] == '-' then s[1..] else s;
    var u := if t != [] && t[|t| - 1] == '-' then t[..|t| - 1] else t;
    assert u == s[|s| - |t|..|s| - |t| + |u|];
    assert NoDoubleDash(s) && |t| < |s| && t != [] ==> t[0] != '-' by {
      if NoDoubleDash(s) && |t| < |s| && t != [] { assert t[0] == s[1]; }
    }
    assert NoDoubleDash(s) && |u| < |t| && u != [] ==> u[|u| - 1] != '-' by {
      if NoDoubleDash(s) && |u| < |t| && u != [] {
        var k := |s| - |t| + |u| - 1;
        assert u[|u| - 1] == s[k] && t[|t| - 1] == s[k + 1];
      }
    }
    u
  }

  /** Taking a slice keeps both properties of the scan before it. */
  lemma SliceKeeps(s: string, i: int, j: int)
    requires 0 <= i <= j <= |s|
    requires AllSlugChars(s) && NoDoubleDash(s)
    ensures AllSlugChars(s[i..j]) && NoDoubleDash(s[i..j])
  {
    var t := s[i..j];
    forall k | 0 <= k < |t| - 1 ensures !(t[k] == '-' && t[k + 1] == '-') {
      assert t[k] == s[i + k] && t[k + 1] == s[i + k + 1];
    }
  }

  /** `slugify`. */
  function Slugify(input: string): string {
    TrimDashes(Collapse(DashRuns(StripWww(StripSchemes(ToLower(Trim(input)))))))
  }

  /** Every id `slugify` produces is well formed: a–z, 0–9 and single inner
      dashes only. */
  lemma SlugifyWellFormed(input: string)
    ensures IsSlug(Slugify(input))
  {
    var c := Collapse(DashRuns(StripWww(StripSchemes(ToLower(Trim(input))))));
    var i, j :| 0 <= i <= j <= |c| && Slugify(input) == c[i..j];
    SliceKeeps(c, i, j);
  }

  /** A well-formed id is left as it is. */
  lemma SlugNoop(s: string)
    requires IsSlug(s)
    ensures Slugify(s) == s
  {
    calc {
      Slugify(s);
      TrimDashes(Collapse(DashRuns(StripWww(StripSchemes(ToLower(Trim(s)))))));
      { SlugTrimLower(s); }
      TrimDashes(Collapse(DashRuns(StripWww(StripSchemes(s)))));
      { SlugPunctuation(s); StripSchemesNoop(s); }
      TrimDashes(Collapse(DashRuns(StripWww(s))));
      { SlugPunctuation(s); StripWwwNoop(s); }
      TrimDashes(Collapse(DashRuns(s)));
      { DashRunsNoop(s); }
      TrimDashes(Collapse(s));
      { CollapseNoop(s); }
      TrimDashes(s);
      s;
    }
  }

  lemma SlugTrimLower(s: string)
    requires AllSlugChars(s)
    ensures ToLower(Trim(s)) == s
  {
    assert s != [] ==> IsSlugChar(s[0]) && IsSlugChar(s[|s| - 1]);
    TrimNoop(s);
    LowerNoop(s);
  }

  lemma LowerNoop(s: string)
    requires AllSlugChars(s)
    ensures ToLower(s) == s
  {
    var l := ToLower(s);
    forall i | 0 <= i < |s| ensures l[i] == s[i] {
      assert IsSlugChar(s[i]);
    }
  }

  lemma SlugPunctuation(s: string)
    requires AllSlugChars(s)
    ensures ':' !in s && '.' !in s
  {
    assert forall k :: 0 <= k < |s| ==> s[k] != ':' && s[k] != '.';
  }

  /** `slugify` is idempotent. */
  lemma SlugifyIdempotent(input: string)
    ensures Slugify(Slugify(input)) == Slugify(input)
  {
    SlugifyWellFormed(input);
    SlugNoop(Slugify(input));
  }

  /** `computedId`: the slug of the name, "new-project" when that is empty. */
  function ComputedId(name: string): (id: string)
    ensures id != [] && IsSlug(id)
    ensures Slugify(name) != [] ==> id == Slugify(name)
    ensures Slugify(name) == [] ==> id == "new-project"
  {
    SlugifyWellFormed(name);
    var slug := Slugify(name);
    if slug == [] then "new-project" else slug
  }

  predicate NoLineTerminator(s: string) {
    forall i :: 0 <= i < |s| ==> !IsLineTerminator(s[i])
  }

  /** `/\/.*$/g` replaced by "": from the first '/' after which only one line
      remains, to the end. */
  function CutAtSlash(s: string): (r: string)
    ensures |r| <= |s| && r == s[..|r|]
    ensures NoLineTerminator(s) ==> '/' !in r && (|r| == |s| || s[|r|] == '/')
    decreases |s|
  {
    if s == [] then []
    else if s[0] == '/' && NoLineTerminator(s[1..]) then []
    else
      var tail := CutAtSlash(s[1..]);
      assert NoLineTerminator(s) ==> NoLineTerminator(s[1..]);
      [s[0]] + tail
  }

  /** `normalizeDomain`. */
  function NormalizeDomain(input: string): string {
    CutAtSlash(StripSchemes(ToLower(Trim(input))))
  }

  /** For input on one line the domain is the trimmed, lower-cased input
      without schemes, up to its first '/', and contains no '/'. */
  lemma NormalizeDomainSingleLine(input: string)
    requires NoLineTerminator(input)
    ensures var s := StripSchemes(ToLower(Trim(input)));
      var d := NormalizeDomain(input);
      && '/' !in d
      && d == s[..|d|]
      && (|d| == |s| || s[|d|] == '/')
  {
    var s := StripSchemes(ToLower(Trim(input)));
    SingleLineKept(input);
    var d := CutAtSlash(s);
  }

  lemma SingleLineKept(input: string)
    requires NoLineTerminator(input)
    ensures NoLineTerminator(StripSchemes(ToLower(Trim(input))))
  {
    var t := Trim(input);
    var k := TrimLeft(input);
    forall i | 0 <= i < |t| ensures !IsLineTerminator(t[i]) {
      assert t[i] == input[k + i];
    }
    var l := ToLower(t);
    assert NoLineTerminator(l);
    var s := StripSchemes(l);
    forall i | 0 <= i < |s| ensures !IsLineTerminator(s[i]) {
      assert s[i] in s;
      assert s[i] in l;
      var j :| 0 <= j < |l| && l[j] == s[i];
    }
  }

  /** `looksLikeDomain`. */
  function LooksLikeDomain(domain: string): bool {
    Contains(domain, ".") && !Contains(domain, " ")
  }

  lemma LooksLikeDomainChars(domain: string)
    ensures LooksLikeDomain(domain) <==> '.' in domain && ' ' !in domain
  {
    ContainsChar(domain, '.');
    ContainsChar(domain, ' ');
  }

  const NameRequired: string := "Project name is required."
  const DomainRequired: string := "Domain is required."
  const DomainInvalid: string := "Enter a valid domain (e.g. jacson.se)."
  const IdTaken: string := "A project with this id already exists. Try a different name."

  /** The `errors` object: a message per field that has one. */
  datatype Errors = Errors(name: Option<string>, domain: Option<string>, id: Option<string>)

  function FormErrors(name: string, domain: string, existingIds: seq<string>): (e: Errors)
    ensures e.name.Some? <==> Trim(name) == []
    ensures e.domain == Some(DomainRequired) <==> NormalizeDomain(domain) == []
    ensures e.domain == Some(DomainInvalid) <==>
      NormalizeDomain(domain) != [] && !('.' in NormalizeDomain(domain) && ' ' !in NormalizeDomain(domain))
    ensures e.domain.None? <==> NormalizeDomain(domain) != [] && LooksLikeDomain(NormalizeDomain(domain))
    ensures e.id.Some? <==> ComputedId(name) in existingIds
  {
    var nd := NormalizeDomain(domain);
    LooksLikeDomainChars(nd);
    Errors(
      if Trim(name) == [] then Some(NameRequired) else None,
      if nd == [] then Some(DomainRequired) else if !LooksLikeDomain(nd) then Some(DomainInvalid) else None,
      if ComputedId(name) in existingIds then Some(IdTaken) else None)
  }

  /** `canSubmit`: the errors object has no keys. */
  predicate CanSubmit(e: Errors) {
    e.name.None? && e.domain.None? && e.id.None?
  }

  datatype Environment = Environment(id: string, name: string, status: Directory.EnvStatus)

  /** The project the form builds. */
  datatype NewProject = NewProject(id: string, name: string, domain: string, environments: seq<Environment>)

  /** `handleSubmit`: None when there are errors and `onCreate` is not
      called; otherwise the project it is called with. */
  function Submit(name: string, domain: string, includeStaging: bool, existingIds: seq<string>): (r: Option<NewProject>)
    ensures r.Some? <==> CanSubmit(FormErrors(name, domain, existingIds))
    ensures r.Some? ==>
      && r.value.id == ComputedId(name) && r.value.id !in existingIds
      && r.value.name == Trim(name) && r.value.name != []
      && r.value.domain == NormalizeDomain(domain) && LooksLikeDomain(r.value.domain)
      && |r.value.environments| == (if includeStaging then 2 else 1)
      && r.value.environments[0] == Environment("prod", "Production", Directory.Live)
      && (includeStaging ==> r.value.environments[1] == Environment("stage", "Staging", Directory.Paused))
  {
    if !CanSubmit(FormErrors(name, domain, existingIds)) then None
    else
      var envs := [Environment("prod", "Production", Directory.Live)]
        + (if includeStaging then [Environment("stage", "Staging", Directory.Paused)] else []);
      Some(NewProject(ComputedId(name), Trim(name), NormalizeDomain(domain), envs))
  }

  /** A submitted project's id is a well-formed slug, never empty. */
  lemma SubmittedIdWellFormed(name: string, domain: string, includeStaging: bool, existingIds: seq<string>)
    ensures var r := Submit(name, domain, includeStaging, existingIds);
      r.Some? ==> r.value.id != [] && IsSlug(r.value.id) && Slugify(r.value.id) == r.value.id
  {
    SlugNoop(ComputedId(name));
  }
}

=== FILE: reconnect.dfy ===
/** The live feed's connection handling (`app/components/live/live-feed.tsx`,
    `connect`, `es.onerror` and the effect's cleanup) as a state machine.

    The browser's `EventSource` objects are numbered in the order they are
    created; `sources[i]` says whether source `i` is still open (a closed
    source fires nothing more). `current` is `eventSourceRef.current`,
    `timerRef` is whether `reconnectTimeoutRef.current` is set and
    `pending` whether the timer it names is still scheduled. Timer delays
    are not modelled beyond their constant: a scheduled timer fires when the
    `TimerFires` event comes. */
module Reconnect {
  import opened Optional
  import StreamRoute

  /** The delay before a reconnect, in milliseconds. */
  const ReconnectDelay: nat := 3000

  const LostMessage: string := "Connection lost. Reconnecting..."

  datatype Controller = Controller(
    sources: seq<bool>,
    current: Option<nat>,
    timerRef: bool,
    pending: bool,
    connected: bool,
    error: Option<string>,
    mounted: bool)

  const Unmounted: Controller := Controller([], None, false, false, false, None, false)

  datatype Event =
    | Mount            // the effect runs: `connect()`
    | Teardown         // the effect's cleanup
    | SourceOpens(i: nat)
    | SourceFails(i: nat)
    | TimerFires

  /** The stream request a source is created with: the project always, the
      session only when it is truthy (`params.set` is skipped otherwise). */
  function StreamQuery(projectId: string, sessionId: Option<string>): (q: StreamRoute.Query)
    ensures q.projectId == Some(projectId)
    ensures q.session.Some? <==> sessionId.Some? && sessionId.value != ""
    ensures q.session.Some? ==> q.session == sessionId
  {
    StreamRoute.Query(if sessionId.Some? && sessionId.value != "" then sessionId else None, Some(projectId))
  }

  function CountOpen(sources: seq<bool>): nat {
    if sources == [] then 0 else (if sources[0] then 1 else 0) + CountOpen(sources[1..])
  }

  /** Close the source `ref` names, if any. */
  function CloseRef(sources: seq<bool>, ref: Option<nat>): seq<bool> {
    if ref.Some? && ref.value < |sources| then sources[ref.value := false] else sources
  }

  /** `connect`: close the current source, cancel a pending reconnect, and
      open one new source. */
  function Connect(c: Controller): (r: Controller)
    ensures |r.sources| == |c.sources| + 1 && r.sources[|c.sources|]
    ensures r.current == Some(|c.sources|) && !r.timerRef && !r.pending
  {
    c.(sources := CloseRef(c.sources, c.current) + [true], current := Some(|c.sources|),
       timerRef := false, pending := false)
  }

  /** The effect's cleanup: close the current source and cancel a pending
      reconnect. */
  function Cleanup(c: Controller): (r: Controller)
    ensures |r.sources| == |c.sources| && r.current.None? && !r.timerRef && !r.pending && !r.mounted
  {
    c.(sources := CloseRef(c.sources, c.current), current := None,
       timerRef := false, pending := false, mounted := false)
  }

  /** One event. Events of a closed source are not delivered. */
  function Step(c: Controller, e: Event): Controller {
    match e
    case Mount => Connect(c.(mounted := true))
    case Teardown => Cleanup(c)
    case SourceOpens(i) =>
      if i < |c.sources| && c.sources[i] then c.(connected := true, error := None) else c
    case SourceFails(i) =>
      if i < |c.sources| && c.sources[i] then
        c.(connected := false, error := Some(LostMessage), sources := c.sources[i := false],
           timerRef := true, pending := true)
      else c
    case TimerFires => if c.pending then Connect(c.(pending := false)) else c
  }

  function Run(c: Controller, es: seq<Event>): Controller
    decreases |es|
  {
    if es == [] then c else Run(Step(c, es[0]), es[1..])
  }

  /** At most one source is open, and it is the current one; a scheduled
      reconnect means no source is open; nothing is open or scheduled while
      unmounted. */
  predicate Inv(c: Controller) {
    && (c.current.Some? ==> c.current.value < |c.sources|)
    && (forall i :: 0 <= i < |c.sources| && c.sources[i] ==> c.current == Some(i))
    && (c.pending ==> c.timerRef && forall i :: 0 <= i < |c.sources| ==> !c.sources[i])
    && (!c.mounted ==> !c.pending && forall i :: 0 <= i < |c.sources| ==> !c.sources[i])
  }

  lemma {:induction false} CountOpenAtMostOne(sources: seq<bool>, k: nat)
    requires forall i :: 0 <= i < |sources| && sources[i] ==> i == k
    ensures CountOpen(sources) <= 1
    ensures k >= |sources| || !sources[k] ==> CountOpen(sources) == 0
    decreases |sources|
  {
    if sources != [] {
      if k == 0 {
        CountOpenAtMostOne(sources[1..], |sources|);
      } else {
        CountOpenAtMostOne(sources[1..], k - 1);
      }
    }
  }

  lemma StepKeepsInv(c: Controller, e: Event)
    requires Inv(c)
    ensures Inv(Step(c, e))
  {
    match e {
      case Mount =>
      case Teardown =>
      case SourceOpens(i) =>
      case SourceFails(i) =>
      case TimerFires =>
    }
  }

  lemma {:induction false} RunKeepsInv(c: Controller, es: seq<Event>)
    requires Inv(c)
    ensures Inv(Run(c, es))
    decreases |es|
  {
    if es != [] {
      StepKeepsInv(c, es[0]);
      RunKeepsInv(Step(c, es[0]), es[1..]);
    }
  }

  /** From mounting on, whatever the sources and timers do, at most one
      source is open at any time. */
  lemma AtMostOneOpen(es: seq<Event>)
    ensures Inv(Run(Unmounted, es))
    ensures CountOpen(Run(Unmounted, es).sources) <= 1
  {
    RunKeepsInv(Unmounted, es);
    var c := Run(Unmounted, es);
    if c.current.Some? {
      CountOpenAtMostOne(c.sources, c.current.value);
    } else {
      CountOpenAtMostOne(c.sources, |c.sources|);
    }
  }

  /** An error on the open source closes it, reports the loss and schedules
      exactly one reconnect; when that timer fires exactly one new source
      is opened. */
  lemma ErrorSchedulesOneReconnect(c: Controller, i: nat)
    requires Inv(c) && i < |c.sources| && c.sources[i]
    ensures var d := Step(c, SourceFails(i));
      && !d.connected && d.error == Some(LostMessage)
      && d.pending && CountOpen(d.sources) == 0 && |d.sources| == |c.sources|
      && var f := Step(d, TimerFires);
         |f.sources| == |c.sources| + 1 && CountOpen(f.sources) == 1 && !f.pending
  {
    var d := Step(c, SourceFails(i));
    StepKeepsInv(c, SourceFails(i));
    CountOpenAtMostOne(d.sources, |d.sources|);
    var closed := CloseRef(d.sources, d.current);
    CountOpenAtMostOne(closed, |d.sources|);
    CountOpenLast(closed);
  }

  lemma {:induction false} CountOpenLast(sources: seq<bool>)
    ensures CountOpen(sources + [true]) == CountOpen(sources) + 1
    decreases |sources|
  {
    if sources == [] {
      assert [] + [true] == [true];
    } else {
      assert (sources + [true])[1..] == sources[1..] + [true];
      CountOpenLast(sources[1..]);
    }
  }

  /** After teardown no reconnect fires and no source opens, whatever the
      old sources and timers do, until the effect runs again. */
  lemma NothingAfterTeardown(c: Controller, es: seq<Event>)
    requires Inv(c)
    requires forall k :: 0 <= k < |es| ==> es[k] != Mount
    ensures var d := Run(Step(c, Teardown), es);
      |d.sources| == |c.sources| && !d.pending && CountOpen(d.sources) == 0
  {
    var t := Step(c, Teardown);
    StepKeepsInv(c, Teardown);
    QuietWhileUnmounted(t, es);
  }

  lemma {:induction false} QuietWhileUnmounted(c: Controller, es: seq<Event>)
    requires Inv(c) && !c.mounted
    requires forall k :: 0 <= k < |es| ==> es[k] != Mount
    ensures var d := Run(c, es);
      |d.sources| == |c.sources| && !d.pending && !d.mounted && CountOpen(d.sources) == 0
    decreases |es|
  {
    if es == [] {
      CountOpenAtMostOne(c.sources, |c.sources|);
    } else {
      var c1 := Step(c, es[0]);
      StepKeepsInv(c, es[0]);
      assert |c1.sources| == |c.sources| && !c1.mounted;
      QuietWhileUnmounted(c1, es[1..]);
    }
  }
}

=== FILE: sidebar.dfy ===
/** The application sidebar (`app/components/app-shell/sidebar.tsx`): which
    navigation entry is highlighted for the current path. */
module Sidebar {
  import opened Text

  datatype NavItem = NavItem(caption: string, href: string)

  /** The fixed `nav` list, in display order. */
  const Nav: seq<NavItem> := [
    NavItem("Dashboard", "/dashboard"),
    NavItem("Projects", "/projects"),
    NavItem("Measurement Plan", "/plan"),
    NavItem("Settings", "/settings")
  ]

  /** `isActive`: the dashboard only on its own path, every other entry on
      its path and anything below it. */
  predicate IsActive(pathname: string, href: string) {
    if href == "/dashboard" then pathname == "/dashboard"
    else pathname == href || StartsWith(pathname, href + "/")
  }

  /** The highlight of each entry, as the list renders it. */
  function ActiveFlags(pathname: string): (r: seq<bool>)
    ensures |r| == |Nav|
    ensures forall i :: 0 <= i < |Nav| ==> (r[i] <==> IsActive(pathname, Nav[i].href))
  {
    seq(|Nav|, i requires 0 <= i < |Nav| => IsActive(pathname, Nav[i].href))
  }

  /** The dashboard is not active on its sub-paths. */
  lemma DashboardExact(rest: string)
    ensures IsActive("/dashboard", "/dashboard")
    ensures !IsActive("/dashboard/" + rest, "/dashboard")
  {
    assert |"/dashboard/" + rest| > |"/dashboard"|;
  }

  /** Any other entry is active on its own path and on every path below it. */
  lemma SubpathsActive(href: string, rest: string)
    requires href != "/dashboard"
    ensures IsActive(href, href)
    ensures IsActive(href + "/" + rest, href)
  {
    assert (href + "/" + rest)[..|href + "/"|] == href + "/";
  }

  /** A path that merely begins with the entry's text, without a '/'
      boundary, does not activate it. */
  lemma NoBoundaryNoMatch(href: string, rest: string)
    requires href != "/dashboard"
    requires rest != [] && rest[0] != '/'
    ensures !IsActive(href + rest, href)
  {
    assert (href + rest)[|href|] == rest[0];
    assert |href + "/"| <= |href + rest| ==> (href + rest)[..|href + "/"|][|href|] == rest[0];
  }

  /** "/projectsX" is not a projects page. */
  lemma ProjectsX()
    ensures !IsActive("/projectsX", "/projects")
  {
    assert "/projectsX" == "/projects" + "X";
    NoBoundaryNoMatch("/projects", "X");
  }

  /** Two prefixes of one string: the shorter is a prefix of the longer. */
  lemma PrefixesNest(p: string, a: string, b: string)
    requires StartsWith(p, a) && StartsWith(p, b) && |a| <= |b|
    ensures StartsWith(b, a)
  {
    assert b[..|a|] == p[..|b|][..|a|] == p[..|a|];
  }

  /** An active entry's path is a prefix of the current path. */
  lemma ActivePrefix(pathname: string, href: string)
    requires IsActive(pathname, href)
    ensures StartsWith(pathname, href)
  {
    if pathname != href && href != "/dashboard" {
      assert pathname[..|href|] == pathname[..|href + "/"|][..|href|];
    }
  }

  /** No entry's path is a prefix of another's. */
  lemma HrefsUnrelated(i: int, j: int)
    requires 0 <= i < |Nav| && 0 <= j < |Nav| && i != j
    requires |Nav[i].href| <= |Nav[j].href|
    ensures !StartsWith(Nav[j].href, Nav[i].href)
  {
    var a := Nav[i].href;
    var b := Nav[j].href;
    assert b[..|a|][1] == b[1] && b[..|a|][2] == b[2];
  }

  /** Whatever the path, at most one entry is highlighted. */
  lemma AtMostOneActive(pathname: string, i: int, j: int)
    requires 0 <= i < |Nav| && 0 <= j < |Nav|
    requires IsActive(pathname, Nav[i].href) && IsActive(pathname, Nav[j].href)
    ensures i == j
  {
    if i != j {
      ActivePrefix(pathname, Nav[i].href);
      ActivePrefix(pathname, Nav[j].href);
      if |Nav[i].href| <= |Nav[j].href| {
        PrefixesNest(pathname, Nav[i].href, Nav[j].href);
        HrefsUnrelated(i, j);
      } else {
        PrefixesNest(pathname, Nav[j].href, Nav[i].href);
        HrefsUnrelated(j, i);
      }
    }
  }
}

=== FILE: stream.dfy ===
/** The live stream endpoint (`app/api/stream/route.ts`): one connection's
    life. It opens with a "connected" frame, forwards every payload the
    emitter hands its handler that passes the session and project filters,
    sends a heartbeat comment on every timer tick, and cleans up once when
    the request is aborted after `start` added its abort listener.

    Frames are values of `EventStream.Frame`; the bytes on the wire are
    their rendering. The controller's state is the flag `writable`: an
    enqueue on a closed or cancelled stream throws, and both the handler and
    the heartbeat catch that. */
module StreamRoute {
  import opened Optional
  import opened Json
  import opened EventStream
  import ChannelBus

  /** The query parameters `session` and `projectId`; None when absent. */
  datatype Query = Query(session: Option<string>, projectId: Option<string>)

  /** A query parameter used as a filter: present and not empty. */
  predicate Given(v: Option<string>) {
    v.Some? && v.value != ""
  }

  /** A parameter as a JSON value: its string, or null when absent. */
  function Nullable(v: Option<string>): (j: Json)
    ensures v.Some? <==> j.JStr?
    ensures v.Some? ==> j == JStr(v.value)
    ensures v.None? ==> j == JNull
  {
    if v.Some? then JStr(v.value) else JNull
  }

  datatype Header = Header(name: string, value: string)

  const StreamHeaders: seq<Header> := [
    Header("Content-Type", "text/event-stream; charset=utf-8"),
    Header("Cache-Control", "no-cache, no-transform"),
    Header("Connection", "keep-alive"),
    Header("Access-Control-Allow-Origin", "*")
  ]

  /** `{type: "connected", timestamp, session, projectId}`. */
  function ConnectedMessage(q: Query, isoNow: string): Json {
    JObj([
      Member("type", JStr("connected")),
      Member("timestamp", JStr(isoNow)),
      Member("session", Nullable(q.session)),
      Member("projectId", Nullable(q.projectId))])
  }

  /** `{type: "event", evt}`. */
  function EventMessage(evt: Json): Json {
    JObj([Member("type", JStr("event")), Member("evt", evt)])
  }

  /** `data: <json>` followed by a blank line. */
  function JsonFrame(v: Json): (f: Frame)
    ensures f.Data? && f.payload == Stringify(v)
    ensures FramesWellFormed([f])
  {
    StringifySingleLine(v);
    Data(Stringify(v))
  }

  function EventFrame(evt: Json): Frame {
    JsonFrame(EventMessage(evt))
  }

  /** `: heartbeat` followed by a blank line. */
  const Heartbeat: Frame := Comment(" heartbeat")

  /** `isLiveEvent`: an object or an array. */
  predicate IsLiveEvent(payload: Json) {
    payload.JObj? || payload.JArr?
  }

  /** `evt.params?.ei_session` when it is a string. */
  function EventSession(evt: Json): (r: Option<string>)
    ensures r.Some? <==> IsString(OptProp(Prop(evt, "params"), "ei_session"))
    ensures r.Some? ==> OptProp(Prop(evt, "params"), "ei_session") == Some(JStr(r.value))
  {
    var s := OptProp(Prop(evt, "params"), "ei_session");
    if IsString(s) then Some(s.value.s) else None
  }

  /** The handler's three tests, in order: an object payload, the session
      filter (the event's session string must equal it, so a missing, null
      or non-string session never passes) and the project filter (strict
      equality with the event's `projectId`). */
  predicate Accepts(q: Query, payload: Json) {
    && IsLiveEvent(payload)
    && (Given(q.session) ==> EventSession(payload) == q.session)
    && (Given(q.projectId) ==> Prop(payload, "projectId") == Some(JStr(q.projectId.value)))
  }

  /** One open connection: the frames enqueued so far, whether the handler
      is registered with the emitter, whether the heartbeat interval is
      running, whether the stream still accepts enqueues, whether the abort
      listener can still fire, and whether it has already run. */
  datatype Conn = Conn(query: Query, frames: seq<Frame>, listening: bool, ticking: bool, writable: bool,
                       armed: bool, cleanedUp: bool)

  /** `GET`: the response headers and the connection after `start`.
      `signalAborted` says whether the request's signal had already fired
      when `start` added its abort listener. An `AbortSignal` fires "abort"
      once, and a listener added afterwards is never called, so in that case
      the listener is not armed (the "signal abort" algorithm of `AbortSignal`
      in the DOM Living Standard). */
  function Open(q: Query, isoNow: string, signalAborted: bool): (r: (seq<Header>, Conn))
    ensures r.0 == StreamHeaders
    ensures r.1.frames == [JsonFrame(ConnectedMessage(q, isoNow))]
    ensures r.1.listening && r.1.ticking && r.1.writable && !r.1.cleanedUp
    ensures r.1.armed <==> !signalAborted
  {
    (StreamHeaders, Conn(q, [JsonFrame(ConnectedMessage(q, isoNow))], true, true, true, !signalAborted, false))
  }

  /** `start` with the check the listener needs: when the signal has
      already fired, `cleanup` runs at once. Otherwise it is the same as
      `Open`. */
  function OpenGuarded(q: Query, isoNow: string, signalAborted: bool): (r: (seq<Header>, Conn))
    ensures r.0 == StreamHeaders
    ensures r.1.query == q && r.1.frames == [JsonFrame(ConnectedMessage(q, isoNow))]
    ensures Coherent(r.1)
    ensures r.1.listening <==> !signalAborted
    ensures r.1.cleanedUp <==> signalAborted
    ensures !signalAborted ==> r.1.ticking && r.1.writable && r.1.armed
  {
    var (hs, c) := Open(q, isoNow, false);
    if signalAborted then (hs, Abort(c)) else (hs, c)
  }

  /** `GET` as written against the exported `bus` object: `start` enqueues
      the connected frame and then calls `bus.on`, which that object lacks.
      The TypeError leaves `start`, the `ReadableStream` constructor rethrows
      what `start` throws (WHATWG Streams Standard,
      SetUpReadableStreamDefaultController), and GET rejects before any
      response exists. */
  function OpenAgainstDirectBus(q: Query, isoNow: string): (r: Option<(seq<Header>, Conn)>)
    ensures r.None?
  {
    if "on" in ChannelBus.Methods then Some(Open(q, isoNow, false)) else None
  }

  /** As written no viewer ever gets a stream, whereas the intended GET
      answers at once with a stream whose first and only message so far is
      the connected notice. */
  lemma DirectBusStreamFails(q: Query, isoNow: string)
    ensures OpenAgainstDirectBus(q, isoNow).None?
    ensures Delivered(Open(q, isoNow, false).1.frames) == [Message("message", Stringify(ConnectedMessage(q, isoNow)))]
  {
  }

  /** `eventHandler`: frame the payload if it passes the filters; a failed
      enqueue is caught and changes nothing. */
  function Handle(c: Conn, payload: Json): (r: Conn)
    ensures r.(frames := c.frames) == c
    ensures c.writable && Accepts(c.query, payload) ==> r.frames == c.frames + [EventFrame(payload)]
    ensures !(c.writable && Accepts(c.query, payload)) ==> r == c
  {
    if !Accepts(c.query, payload) then c
    else if c.writable then c.(frames := c.frames + [EventFrame(payload)])
    else c
  }

  /** One firing of the heartbeat interval: enqueue the comment, or clear
      the interval when the enqueue throws. */
  function Tick(c: Conn): (r: Conn)
    ensures !c.ticking ==> r == c
    ensures c.ticking && c.writable ==> r == c.(frames := c.frames + [Heartbeat])
    ensures c.ticking && !c.writable ==> r == c.(ticking := false)
  {
    if !c.ticking then c
    else if c.writable then c.(frames := c.frames + [Heartbeat])
    else c.(ticking := false)
  }

  /** The consumer cancelled the stream: enqueues throw from now on, but
      nothing else happens until the request's abort signal fires. */
  function Cancel(c: Conn): (r: Conn)
    ensures !r.writable && r.(writable := c.writable) == c
  {
    c.(writable := false)
  }

  /** The abort listener, registered with `{ once: true }`: the first abort
      runs `cleanup` (remove the handler, clear the heartbeat, close the
      controller; a close that throws is ignored), later aborts do nothing,
      and an abort that came before the listener was added does nothing. */
  function Abort(c: Conn): (r: Conn)
    ensures !c.armed ==> r == c
    ensures c.armed ==>
      r == c.(listening := false, ticking := false, writable := false, armed := false, cleanedUp := true)
  {
    if !c.armed then c
    else c.(listening := false, ticking := false, writable := false, armed := false, cleanedUp := true)
  }

  /** Everything that can happen to a connection after it opened. */
  datatype Action = Deliver(payload: Json) | TimerFires | ConsumerCancels | RequestAborts

  /** The emitter calls the handler only while it is registered. */
  function Apply(c: Conn, a: Action): Conn {
    match a
    case Deliver(payload) => if c.listening then Handle(c, payload) else c
    case TimerFires => Tick(c)
    case ConsumerCancels => Cancel(c)
    case RequestAborts => Abort(c)
  }

  function Run(c: Conn, actions: seq<Action>): Conn
    decreases |actions|
  {
    if actions == [] then c else Run(Apply(c, actions[0]), actions[1..])
  }

  /** The frames a connection writes, in order: the connected frame first,
      then only event frames for accepted payloads and heartbeats. */
  ghost predicate FramesShape(c: Conn, isoNow: string) {
    && |c.frames| >= 1
    && c.frames[0] == JsonFrame(ConnectedMessage(c.query, isoNow))
    && (forall i :: 1 <= i < |c.frames| ==>
          c.frames[i] == Heartbeat
          || exists p: Json :: Accepts(c.query, p) && c.frames[i] == EventFrame(p))
    && FramesWellFormed(c.frames)
  }

  /** The invariant of a connection whose listener was armed when it
      opened: it is armed until cleanup runs, and once cleaned up it is no
      longer registered, ticking or writable. */
  predicate Coherent(c: Conn) {
    && (c.armed <==> !c.cleanedUp)
    && (c.cleanedUp ==> !c.listening && !c.ticking && !c.writable)
  }

  lemma WellFormedAppend(fs: seq<Frame>, f: Frame)
    requires FramesWellFormed(fs) && FramesWellFormed([f])
    ensures FramesWellFormed(fs + [f])
  {
    assert [f][0] == f;
    forall i | 0 <= i < |fs + [f]| ensures (fs + [f])[i] == if i < |fs| then fs[i] else f {}
  }

  lemma ApplyKeepsShape(c: Conn, a: Action, isoNow: string)
    requires FramesShape(c, isoNow) && Coherent(c)
    ensures FramesShape(Apply(c, a), isoNow) && Coherent(Apply(c, a))
    ensures Apply(c, a).query == c.query
  {
    var r := Apply(c, a);
    if r.frames != c.frames {
      var f := r.frames[|c.frames|];
      assert r.frames == c.frames + [f];
      if a.Deliver? {
        assert f == EventFrame(a.payload) && Accepts(c.query, a.payload);
        assert FramesWellFormed([f]);
      } else {
        assert f == Heartbeat;
        assert FramesWellFormed([f]) by {
          assert [f][0] == Comment(" heartbeat");
        }
      }
      WellFormedAppend(c.frames, f);
    }
  }

  /** Whatever happens after `GET`, the stream is the connected frame
      followed by heartbeats and frames of accepted payloads, every frame
      is a single data or comment line, and the listener in the browser
      receives one message per data frame, in the order they were written. */
  lemma {:induction false} StreamShape(q: Query, isoNow: string, signalAborted: bool, actions: seq<Action>)
    ensures var c := Run(OpenGuarded(q, isoNow, signalAborted).1, actions);
      && FramesShape(c, isoNow) && Coherent(c)
      && Feed(Initial, RenderAll(c.frames)).out == Delivered(c.frames)
      && Delivered(c.frames)[0] == Message("message", Stringify(ConnectedMessage(q, isoNow)))
  {
    var c0 := OpenGuarded(q, isoNow, signalAborted).1;
    RunKeepsShape(c0, actions, isoNow);
    var c := Run(c0, actions);
    StreamParses(c.frames);
    assert c.frames == [c.frames[0]] + c.frames[1..];
  }

  lemma {:induction false} RunKeepsShape(c: Conn, actions: seq<Action>, isoNow: string)
    requires FramesShape(c, isoNow) && Coherent(c)
    ensures FramesShape(Run(c, actions), isoNow) && Coherent(Run(c, actions))
    ensures Run(c, actions).query == c.query
    decreases |actions|
  {
    if actions != [] {
      ApplyKeepsShape(c, actions[0], isoNow);
      RunKeepsShape(Apply(c, actions[0]), actions[1..], isoNow);
    }
  }

  /** After the abort nothing more is written, whatever the emitter and the
      timer do. */
  lemma {:induction false} NothingAfterAbort(c: Conn, actions: seq<Action>)
    requires Coherent(c) && c.cleanedUp
    ensures Run(c, actions) == c
    decreases |actions|
  {
    if actions != [] {
      assert Apply(c, actions[0]) == c;
      NothingAfterAbort(c, actions[1..]);
    }
  }

  /** Cleanup runs once: a second abort changes nothing. */
  lemma AbortOnce(c: Conn)
    ensures Abort(Abort(c)) == Abort(c)
  {
  }

  /** As written, a request whose signal fired before `start` added its
      listener is never cleaned up: whatever the emitter, the timer and the
      consumer do, the handler stays registered with the emitter. */
  lemma {:induction false} PreAbortedStaysRegistered(q: Query, isoNow: string, actions: seq<Action>)
    ensures var c := Run(Open(q, isoNow, true).1, actions);
      c.listening && !c.cleanedUp
  {
    UnarmedStaysRegistered(Open(q, isoNow, true).1, actions);
  }

  lemma {:induction false} UnarmedStaysRegistered(c: Conn, actions: seq<Action>)
    requires c.listening && !c.armed && !c.cleanedUp
    ensures Run(c, actions).listening && !Run(c, actions).cleanedUp
    decreases |actions|
  {
    if actions != [] {
      UnarmedStaysRegistered(Apply(c, actions[0]), actions[1..]);
    }
  }

  /** With the guard, a request whose signal already fired leaves nothing
      behind: its handler is not registered, and nothing that happens
      afterwards writes to the stream or registers it again. */
  lemma PreAbortedCleansUp(q: Query, isoNow: string, actions: seq<Action>)
    ensures var c0 := OpenGuarded(q, isoNow, true).1;
      && !c0.listening && !c0.ticking && !c0.writable
      && Run(c0, actions) == c0
  {
    NothingAfterAbort(OpenGuarded(q, isoNow, true).1, actions);
  }

  /** Once an enqueue has failed on a tick, the interval is cleared and
      later ticks do nothing. */
  lemma TickAfterFailure(c: Conn)
    requires c.ticking && !c.writable
    ensures !Tick(c).ticking && Tick(Tick(c)) == Tick(c)
  {
  }

  /** The session filter: with a session given, an object payload passes it
      exactly when its `params.ei_session` is that very string. */
  lemma SessionFilter(q: Query, payload: Json)
    requires Given(q.session) && IsLiveEvent(payload)
    requires !Given(q.projectId)
    ensures Accepts(q, payload) <==> OptProp(Prop(payload, "params"), "ei_session") == Some(JStr(q.session.value))
  {
  }

  /** The project filter: with a project given, an object payload passes it
      exactly when its `projectId` is that very string. */
  lemma ProjectFilter(q: Query, payload: Json)
    requires Given(q.projectId) && IsLiveEvent(payload)
    requires !Given(q.session)
    ensures Accepts(q, payload) <==> Prop(payload, "projectId") == Some(JStr(q.projectId.value))
  {
  }

  /** Without filters (parameters absent or empty) every object payload is
      forwarded and nothing else is. */
  lemma NoFilter(q: Query, payload: Json)
    requires !Given(q.session) && !Given(q.projectId)
    ensures Accepts(q, payload) <==> payload.JObj? || payload.JArr?
  {
  }
}

=== FILE: text.dfy ===
/** String helpers shared by every component: JavaScript's `trim`, ASCII
    `toLowerCase`, `startsWith`, `includes`, and the decimal rendering of
    integers that `String(n)` and template literals perform. */
module Text {

  /** The code points JavaScript's `String.prototype.trim` removes: the
      WhiteSpace and LineTerminator productions of ECMAScript. */
  predicate IsSpace(c: char) {
    || c == '\t' || c == '\n' || c == '\U{000B}' || c == '\U{000C}' || c == '\r' || c == ' '
    || c == '\U{00A0}' || c == '\U{1680}' || ('\U{2000}' <= c <= '\U{200A}')
    || c == '\U{2028}' || c == '\U{2029}' || c == '\U{202F}' || c == '\U{205F}'
    || c == '\U{3000}' || c == '\U{FEFF}'
  }

  /** The characters a regular-expression `.` does not match. */
  predicate IsLineTerminator(c: char) {
    c == '\n' || c == '\r' || c == '\U{2028}' || c == '\U{2029}'
  }

  predicate AllSpace(s: string) {
    forall i :: 0 <= i < |s| ==> IsSpace(s[i])
  }

  /** The index of the first non-whitespace character at or after `i`. */
  function SpaceRunEnd(s: string, i: nat): (r: nat)
    requires i <= |s|
    ensures i <= r <= |s|
    ensures forall j :: i <= j < r ==> IsSpace(s[j])
    ensures r == |s| || !IsSpace(s[r])
    decreases |s| - i
  {
    if i < |s| && IsSpace(s[i]) then SpaceRunEnd(s, i + 1) else i
  }

  /** The index just past the last non-whitespace character in `s[k..e]`,
      or `k` when there is none. */
  function SpaceRunStart(s: string, k: nat, e: nat): (r: nat)
    requires k <= e <= |s|
    ensures k <= r <= e
    ensures forall j :: r <= j < e ==> IsSpace(s[j])
    ensures r == k || !IsSpace(s[r - 1])
    decreases e
  {
    if e > k && IsSpace(s[e - 1]) then SpaceRunStart(s, k, e - 1) else e
  }

  /** Where `trim` cuts: the text kept is `s[TrimLeft(s)..TrimRight(s)]`. */
  function TrimLeft(s: string): nat {
    SpaceRunEnd(s, 0)
  }

  function TrimRight(s: string): (e: nat)
    ensures TrimLeft(s) <= e <= |s|
  {
    SpaceRunStart(s, TrimLeft(s), |s|)
  }

  /** `s.trim()`: `s` without its leading and trailing whitespace; what is
      cut is whitespace, and what is kept neither starts nor ends with it. */
  function Trim(s: string): (r: string)
    ensures r == s[TrimLeft(s)..TrimRight(s)]
    ensures forall i :: 0 <= i < TrimLeft(s) ==> IsSpace(s[i])
    ensures forall i :: TrimRight(s) <= i < |s| ==> IsSpace(s[i])
    ensures r == [] || (!IsSpace(r[0]) && !IsSpace(r[|r| - 1]))
    ensures r == [] <==> AllSpace(s)
  {
    var k := TrimLeft(s);
    var e := TrimRight(s);
    assert k == e ==> AllSpace(s);
    s[k..e]
  }

  /** A string that neither starts nor ends with whitespace is its own trim. */
  lemma TrimNoop(s: string)
    requires s == [] || (!IsSpace(s[0]) && !IsSpace(s[|s| - 1]))
    ensures Trim(s) == s
  {
    assert TrimLeft(s) == 0;
    assert TrimRight(s) == |s|;
  }

  lemma TrimIdempotent(s: string)
    ensures Trim(Trim(s)) == Trim(s)
  {
    TrimNoop(Trim(s));
  }

  /** JavaScript's `toLowerCase` restricted to ASCII letters. */
  function LowerChar(c: char): (r: char)
    ensures 'A' <= c <= 'Z' ==> 'a' <= r <= 'z' && r as int == c as int + 32
    ensures !('A' <= c <= 'Z') ==> r == c
  {
    if 'A' <= c <= 'Z' then (c as int + 32) as char else c
  }

  function ToLower(s: string): (r: string)
    ensures |r| == |s|
    ensures forall i :: 0 <= i < |s| ==> r[i] == LowerChar(s[i])
  {
    seq(|s|, i requires 0 <= i < |s| => LowerChar(s[i]))
  }

  predicate StartsWith(s: string, prefix: string) {
    |prefix| <= |s| && s[..|prefix|] == prefix
  }

  predicate EndsWith(s: string, suffix: string) {
    |suffix| <= |s| && s[|s| - |suffix|..] == suffix
  }

  /** `s.includes(sub)`: some position of `s` starts with `sub`. */
  predicate Contains(s: string, sub: string)
    decreases |s|
  {
    StartsWith(s, sub) || (|s| > 0 && Contains(s[1..], sub))
  }

  lemma {:induction false} ContainsAt(s: string, sub: string, i: nat)
    requires i + |sub| <= |s| && s[i..i + |sub|] == sub
    ensures Contains(s, sub)
    decreases i
  {
    if i > 0 {
      assert s[1..][i - 1..i - 1 + |sub|] == sub;
      ContainsAt(s[1..], sub, i - 1);
    }
  }

  /** A substring of `s` is a substring of any text around `s`. */
  lemma {:induction false} ContainsInfix(a: string, s: string, b: string, sub: string)
    requires Contains(s, sub)
    ensures Contains(a + s + b, sub)
    decreases |s|
  {
    if StartsWith(s, sub) {
      assert (a + s + b)[|a|..|a| + |sub|] == s[..|sub|];
      ContainsAt(a + s + b, sub, |a|);
    } else {
      assert a + s + b == (a + [s[0]]) + s[1..] + b;
      ContainsInfix(a + [s[0]], s[1..], b, sub);
    }
  }

  /** A one-character needle is found exactly when the character occurs. */
  lemma {:induction false} ContainsChar(s: string, c: char)
    ensures Contains(s, [c]) <==> c in s
    decreases |s|
  {
    if |s| > 0 {
      ContainsChar(s[1..], c);
      assert s == [s[0]] + s[1..];
    }
  }

  function DigitChar(d: nat): (c: char)
    requires d < 10
    ensures '0' <= c <= '9' && c as int - '0' as int == d
  {
    (d + '0' as int) as char
  }

  /** The value a string of decimal digits denotes. */
  function DigitsValue(s: string): nat
    requires forall i :: 0 <= i < |s| ==> '0' <= s[i] <= '9'
  {
    if |s| == 0 then 0 else 10 * DigitsValue(s[..|s| - 1]) + (s[|s| - 1] as int - '0' as int)
  }

  /** `String(n)` for a non-negative integer: decimal digits, no leading zero. */
  function NatToString(n: nat): (r: string)
    ensures |r| > 0
    ensures forall i :: 0 <= i < |r| ==> '0' <= r[i] <= '9'
    ensures r[0] == '0' ==> n == 0 && r == "0"
  {
    if n < 10 then [DigitChar(n)] else NatToString(n / 10) + [DigitChar(n % 10)]
  }

  lemma {:induction false} NatToStringValue(n: nat)
    ensures DigitsValue(NatToString(n)) == n
  {
    var r := NatToString(n);
    if n >= 10 {
      assert r[..|r| - 1] == NatToString(n / 10);
      NatToStringValue(n / 10);
    }
  }

  /** Distinct numbers render as distinct strings. */
  lemma NatToStringInjective(m: nat, n: nat)
    requires NatToString(m) == NatToString(n)
    ensures m == n
  {
    NatToStringValue(m);
    NatToStringValue(n);
  }

  /** `String(n)` for any integer. */
  function IntToString(n: int): string {
    if n < 0 then "-" + NatToString(-n) else NatToString(n)
  }

  /** A hexadecimal digit, lower case. */
  function HexLower(d: nat): (c: char)
    requires d < 16
    ensures ('0' <= c <= '9') || ('a' <= c <= 'f')
  {
    if d < 10 then ('0' as int + d) as char else ('a' as int + d - 10) as char
  }

  /** A hexadecimal digit, upper case. */
  function HexUpper(d: nat): (c: char)
    requires d < 16
    ensures ('0' <= c <= '9') || ('A' <= c <= 'F')
  {
    if d < 10 then ('0' as int + d) as char else ('A' as int + d - 10) as char
  }
}

=== FILE: tracker.dfy ===
/** The browser tracker (`public/ei.js`): on load it sends one page view and
    patches `dataLayer.push` so that every pushed item is also sent to the
    ingestion endpoint, stamped with the configured write key.

    Payloads are the JSON values `send` serialises; a property whose value
    is `undefined` is absent from them, as `JSON.stringify` omits it.
    `location.href` is the parameter `href`; the network call itself
    (`sendBeacon` or `fetch`) is not modelled: a send is the payload it
    would post. JavaScript objects have distinct keys, and so do the
    objects pushed here. */
module Tracker {
  import opened Optional
  import opened Json

  /** The value `safeString` returns; None is `undefined`, which is what
      `JSON.stringify(undefined)` gives. */
  function SafeString(v: Option<Json>): (r: Option<string>)
    ensures v.Some? && v.value.JStr? ==> r == Some(v.value.s)
    ensures v.None? <==> r.None?
    ensures v.Some? && !v.value.JStr? ==> r == Some(Stringify(v.value))
  {
    if v.None? then None
    else if v.value.JStr? then Some(v.value.s)
    else Some(Stringify(v.value))
  }

  /** The value sent is what `String(v)` gives for a string and what
      `JSON.stringify(v)` gives for anything else; a non-string never spans
      more than one line, and a string is sent without the quotes
      `JSON.stringify` would add. */
  lemma SafeStringMeaning(v: Option<Json>)
    requires v.Some?
    ensures SafeString(v).Some?
    ensures v.value.JStr? ==>
      SafeString(v).value == ToJsString(v.value) && Stringify(v.value) == Quote(SafeString(v).value)
    ensures !v.value.JStr? ==> SafeString(v).value == Stringify(v.value) && SingleLine(SafeString(v).value)
  {
    StringifySingleLine(v.value);
  }

  /** `send(payload)`, up to the network: the write key is set on the
      payload, replacing any value it had. */
  function Stamp(payload: seq<Member>, writeKey: Json): (r: Json)
    ensures r.JObj? && Lookup(r.members, "writeKey") == Some(writeKey)
    ensures forall k :: k != "writeKey" ==> Lookup(r.members, k) == Lookup(payload, k)
  {
    JObj(Assign(payload, "writeKey", writeKey))
  }

  /** The members of `obj` other than `event`, in order. */
  function WithoutEvent(entries: seq<Member>): (r: seq<Member>)
    ensures forall i :: 0 <= i < |r| ==> r[i].key != "event" && r[i] in entries
    ensures forall k :: k != "event" ==> Lookup(r, k) == Lookup(entries, k)
    decreases |entries|
  {
    if entries == [] then []
    else if entries[0].key == "event" then WithoutEvent(entries[1..])
    else [entries[0]] + WithoutEvent(entries[1..])
  }

  /** The members are filtered one by one: what is kept of a concatenation
      is what is kept of each part, in order. */
  lemma {:induction false} WithoutEventConcat(a: seq<Member>, b: seq<Member>)
    ensures WithoutEvent(a + b) == WithoutEvent(a) + WithoutEvent(b)
    decreases |a|
  {
    if a == [] {
      assert a + b == b;
    } else {
      assert (a + b)[0] == a[0] && (a + b)[1..] == a[1..] + b;
      WithoutEventConcat(a[1..], b);
    }
  }

  /** One member is kept exactly when its key is not `event`. */
  lemma WithoutEventSingle(m: Member)
    ensures WithoutEvent([m]) == (if m.key == "event" then [] else [m])
  {
    assert [m][1..] == [];
  }

  datatype Normalized = Normalized(name: string, url: string, params: seq<Member>)

  /** `normalizeEvent(obj)`: the name is `String(obj.event)` when that is
      truthy, "dataLayer_push" otherwise; the params are every own property
      but `event`, values untouched. */
  function NormalizeEvent(obj: Json, href: string): (r: Normalized)
    ensures Truthy(Prop(obj, "event")) ==> r.name == ToJsString(Prop(obj, "event").value)
    ensures !Truthy(Prop(obj, "event")) ==> r.name == "dataLayer_push"
    ensures r.url == href
    ensures Lookup(r.params, "event").None?
    ensures forall k :: k != "event" ==> Lookup(r.params, k) == Lookup(OwnEntries(obj), k)
  {
    var e := Prop(obj, "event");
    var params := WithoutEvent(OwnEntries(obj));
    assert !HasKey(params, "event");
    Normalized(if Truthy(e) then ToJsString(e.value) else "dataLayer_push", href, params)
  }

  /** `{name, url, params}`. */
  function Payload(name: string, url: string, params: seq<Member>): seq<Member> {
    [Member("name", JStr(name)), Member("url", JStr(url)), Member("params", JObj(params))]
  }

  lemma PayloadFields(name: string, url: string, params: seq<Member>)
    ensures Lookup(Payload(name, url, params), "name") == Some(JStr(name))
    ensures Lookup(Payload(name, url, params), "url") == Some(JStr(url))
    ensures Lookup(Payload(name, url, params), "params") == Some(JObj(params))
  {
    var p := Payload(name, url, params);
    assert DistinctKeys(p);
    LookupDistinct(p, 0);
    LookupDistinct(p, 1);
    LookupDistinct(p, 2);
  }

  /** What the patched push sends for one argument: an object (arrays
      included) is normalised; anything else is sent as "dataLayer_push"
      with its `safeString` as `params.value`. */
  function ItemPayload(item: Option<Json>, href: string): seq<Member> {
    if Truthy(item) && IsObject(item) then
      var ev := NormalizeEvent(item.value, href);
      Payload(ev.name, ev.url, ev.params)
    else
      var s := SafeString(item);
      Payload("dataLayer_push", href, if s.Some? then [Member("value", JStr(s.value))] else [])
  }

  /** The page after the script ran: the payloads sent so far, whether
      `dataLayer.push` is patched, the `dataLayer` array, and the write key
      the script read once at load and every send uses. */
  datatype Page = Page(sent: seq<Json>, patched: bool, dataLayer: seq<Option<Json>>, writeKey: Option<Json>)

  /** Loading the script. Without a truthy write key it returns at once: it
      sends nothing and patches nothing. */
  function Load(writeKey: Option<Json>, dataLayer: seq<Option<Json>>, href: string): (p: Page)
    ensures !Truthy(writeKey) ==> p == Page([], false, dataLayer, writeKey)
    ensures Truthy(writeKey) ==> p.patched && |p.sent| == 1 && p.dataLayer == dataLayer
    ensures p.writeKey == writeKey
  {
    if !Truthy(writeKey) then Page([], false, dataLayer, writeKey)
    else
      var pageView := Payload("page_view", href, [Member("source", JStr("ei.js"))]);
      Page([Stamp(pageView, writeKey.value)], true, dataLayer, writeKey)
  }

  /** The page view sent on load: name "page_view", the page's URL, params
      exactly `{source: "ei.js"}`, and the write key. The script itself adds
      no session parameter. */
  lemma LoadSendsPageView(writeKey: Option<Json>, dataLayer: seq<Option<Json>>, href: string)
    requires Truthy(writeKey)
    ensures var sent := Load(writeKey, dataLayer, href).sent[0];
      && Lookup(sent.members, "name") == Some(JStr("page_view"))
      && Lookup(sent.members, "url") == Some(JStr(href))
      && Lookup(sent.members, "params") == Some(JObj([Member("source", JStr("ei.js"))]))
      && Lookup(sent.members, "writeKey") == writeKey
  {
    PayloadFields("page_view", href, [Member("source", JStr("ei.js"))]);
  }

  /** The payload sent for one pushed item. */
  function Send(item: Option<Json>, writeKey: Json, href: string): Json {
    Stamp(ItemPayload(item, href), writeKey)
  }

  /** The sends of one push: `send` applied to each item, in order. */
  method SendEach(items: seq<Option<Json>>, send: Option<Json> -> Json) returns (sent: seq<Json>)
    ensures |sent| == |items|
    ensures forall i :: 0 <= i < |items| ==> sent[i] == send(items[i])
  {
    sent := [];
    var i := 0;
    while i < |items|
      invariant 0 <= i <= |items| && |sent| == i
      invariant forall j :: 0 <= j < i ==> sent[j] == send(items[j])
    {
      sent := sent + [send(items[i])];
      i := i + 1;
    }
  }

  /** The patched `dataLayer.push(...items)`: one payload per argument, in
      order, each stamped with the key read at load, then the original push
      appends the arguments and returns the new length. Only a page whose
      load found a key is patched. */
  method Push(page: Page, items: seq<Option<Json>>, href: string)
    returns (page': Page, length: nat)
    requires page.patched && page.writeKey.Some?
    ensures page'.patched && page'.writeKey == page.writeKey
    ensures |page'.sent| == |page.sent| + |items|
    ensures page'.sent[..|page.sent|] == page.sent
    ensures forall i :: 0 <= i < |items| ==>
      page'.sent[|page.sent| + i] == Send(items[i], page.writeKey.value, href)
    ensures page'.dataLayer == page.dataLayer + items
    ensures length == |page.dataLayer| + |items|
  {
    var key := page.writeKey.value;
    var sent := SendEach(items, item => Send(item, key, href));
    page' := Page(page.sent + sent, true, page.dataLayer + items, page.writeKey);
    length := |page'.dataLayer|;
  }

  /** A pushed string is sent unchanged as `params.value`; a falsy or
      non-object item is always sent under the name "dataLayer_push". */
  lemma NonObjectItems(item: Option<Json>, href: string)
    requires !(Truthy(item) && IsObject(item))
    ensures Lookup(ItemPayload(item, href), "name") == Some(JStr("dataLayer_push"))
    ensures item.Some? && item.value.JStr? ==>
      Lookup(ItemPayload(item, href), "params") == Some(JObj([Member("value", item.value)]))
  {
    var s := SafeString(item);
    PayloadFields("dataLayer_push", href, if s.Some? then [Member("value", JStr(s.value))] else []);
  }

  /** A pushed object with a truthy `event` is sent under that name and
      without the `event` property among its params. */
  lemma ObjectItems(obj: Json, href: string)
    requires obj.JObj? || obj.JArr?
    ensures var p := ItemPayload(Some(obj), href);
      && Lookup(p, "name") == Some(JStr(NormalizeEvent(obj, href).name))
      && Lookup(p, "params") == Some(JObj(WithoutEvent(OwnEntries(obj))))
  {
    var ev := NormalizeEvent(obj, href);
    PayloadFields(ev.name, ev.url, ev.params);
  }
}
